=== FILE: README.md ===
# Nexus orbital-sustainability platform: a Dafny model of its pure logic

This project models, in Dafny, the deterministic parts of the Nexus mission-planning platform:

- **Sustainability service.** It assesses collision risk from step-function scores, a clamped
  risk multiplier and a four-tier classifier. It estimates debris density and its trend. It
  analyses deorbit options: natural decay, controlled deorbit and graveyard orbit, with a
  recommended option, three compliance flags and a sustainability score in [0, 100].
- **Cost service.** Each cost component is scaled by fleet size, duration and mass. The results
  are gathered into seven buckets with an uncertainty range and a cost-weighted confidence.
  Insurance quotes pick the cheapest matching model, then apply multiplicative risk adjustments.
- **Request schemas.** They cover the sustainability, cost and mission endpoints. Each schema turns
  a raw body into a typed request, or reports the first key, in schema order, that fails.
- **Mission service.** It covers the create defaults, the dynamic SET clause of an update, the
  delete outcome, the report arithmetic and the row mapping. It also covers the error middleware
  that turns errors into HTTP status codes.
- **Client helpers:**
  - the demonstration financial projection and the dashboard's metrics and indicators;
  - the mission wizard's step machine and form edits;
  - the WebSocket hook's list upsert and reconnect rule;
  - the simulator's visual filters;
  - the alerts panel's filters, counter, relative times and auto-expand rule.

Numbers are exact reals or unbounded integers. Database query results are parameters: the matching
shell's density level, the historical average probability, the in-band satellite count, the
component and model rows, the ids each existence query can find, and the row a statement returns.
`Math.exp`, `Math.log`, `Math.pow` and `Math.log10` are fields of a `MathLib.Transcendentals`
record that callers pass in. Lemmas assume only the positivity and monotonicity that
`MathLib.ExpPositive` and `MathLib.ExpMonotone` state. JavaScript truthiness is written out:
`Wrappers.TruthyNum` treats `0` and absence as falsy, and `Wrappers.OrNum` models `x || d`.

## Model

| member | source | states |
|---|---|---|
| CollisionRisk.DebrisDensityScore | server/src/services/sustainabilityService.ts:285-288 | LOW 25, MEDIUM 50, HIGH 75, CRITICAL 95, and 50 for any other level (except prototype names, see Left out) |
| CollisionRisk.ShellDebrisScore | server/src/services/sustainabilityService.ts:66 | with no matching shell the score is 50; every score lies in [25, 95] and exceeds 70 exactly for a HIGH or CRITICAL shell |
| CollisionRisk.BandsDisjoint | server/src/services/sustainabilityService.ts:290-300 | the three traffic bonus bands (400–500, 540–570, 1150–1250 km) never overlap, so at most one bonus applies |
| CollisionRisk.TrafficDensityScore | server/src/services/sustainabilityService.ts:290-300 | min(95, min(90, n/10) × band bonus); at most 95; non-negative for a non-negative count; at most 90 outside every band |
| CollisionRisk.AltitudeRiskScore | server/src/services/sustainabilityService.ts:302-310 | 85 below 400 km, 75 below 600, 60 below 1000, 45 below 2000, 30 above 20 000, and exactly 50 on [2000, 20 000] |
| CollisionRisk.AltitudeRiskScoreBounds | server/src/services/sustainabilityService.ts:302-310 | the altitude score always lies in [30, 85] |
| CollisionRisk.MissionDurationImpact | server/src/services/sustainabilityService.ts:312-315 | never above 2, at least 1 for a mission of a year or more, exactly 2 from 11 years |
| CollisionRisk.DurationImpactMonotone | server/src/services/sustainabilityService.ts:312-315 | a longer mission never has a smaller duration impact |
| CollisionRisk.BaseProbability | server/src/services/sustainabilityService.ts:72-76 | 0.001 with no historical average, otherwise max(0.001, average); never below 0.001 |
| CollisionRisk.AvoidanceFactor | server/src/services/sustainabilityService.ts:86-91 | declared avoidance multiplies by 0.3, declared none by 1.5, and an absent flag leaves the multiplier unchanged |
| CollisionRisk.SizeFactor | server/src/services/sustainabilityService.ts:93-97 | the size multiplier is 0.7 for SMALL, 1.0 for MEDIUM, 1.4 for LARGE and 1 when absent, so always positive |
| CollisionRisk.RiskMultiplierNonNegative | server/src/services/sustainabilityService.ts:78-97 | with non-negative scores and count, the product of the multipliers is non-negative |
| CollisionRisk.DetermineRiskLevel | server/src/services/sustainabilityService.ts:317-322 | each tier holds exactly on its half-open interval: LOW below 0.001, MEDIUM on [0.001, 0.01), HIGH on [0.01, 0.1), CRITICAL from 0.1 |
| CollisionRisk.RiskLevelMonotone | server/src/services/sustainabilityService.ts:317-322 | a larger probability never gets a lower tier |
| CollisionRisk.RiskLevelBoundaries | server/src/services/sustainabilityService.ts:317-322 | the thresholds are strict: 0.001 is MEDIUM, 0.01 HIGH, 0.1 CRITICAL |
| CollisionRisk.MitigationRecommendations | server/src/services/sustainabilityService.ts:324-358 | the list length is the sum of what each rule adds (3, 2, 2, 1, 2); it is empty exactly when no rule fires; high-risk advice comes first; the avoidance advice appears exactly when avoidance is not declared true |
| CollisionRisk.AssessCollisionRisk | server/src/services/sustainabilityService.ts:61-130 | the probability is at most 1, and non-negative for a valid request; the tier is the tier of that probability; each factor is its scoring rule; the recommendations are exactly those the five rules give for that tier, request and scores, so high-risk results carry at least three; confidence is 0.75 |
| CollisionRisk.ProbabilityIsClampedProduct | server/src/services/sustainabilityService.ts:99 | the probability is min(1, base probability × risk multiplier) |
| CollisionRisk.AvoidanceLowersProbability | server/src/services/sustainabilityService.ts:86-91 | for a valid request, declaring avoidance never gives a higher probability than declaring none |
| CollisionRisk.MultiplierWithAvoidance | server/src/services/sustainabilityService.ts:86-91 | declaring avoidance multiplies the multiplier by 0.3 against an absent flag |
| DebrisDensity.EstimateDebrisDensityLevel | server/src/services/sustainabilityService.ts:360-367 | HIGH below 400 km, CRITICAL on [400, 600), HIGH on [600, 1000), MEDIUM on [1000, 1500), LOW from 1500 |
| DebrisDensity.HistoricalTrend | server/src/services/sustainabilityService.ts:369-374 | WORSENING exactly above 10 events, STABLE exactly on 6..10, IMPROVING exactly at 5 or fewer |
| DebrisDensity.TrendMonotone | server/src/services/sustainabilityService.ts:369-374 | more events never improve the trend |
| DebrisDensity.FloorScaled | server/src/services/sustainabilityService.ts:184 | the result is floor(n × k / d) |
| DebrisDensity.FloorScaledMonotone | server/src/services/sustainabilityService.ts:184-197 | a scaled floor keeps the order of two counts |
| DebrisDensity.EstimatesGrowWithTracked | server/src/services/sustainabilityService.ts:184-197 | more tracked objects never lower the untracked or the small-debris estimate |
| DebrisDensity.GetDebrisDensity | server/src/services/sustainabilityService.ts:177-202 | tracked objects are debris plus satellites; untracked is floor(2.5 × tracked); small debris is floor(0.8 × untracked) and lies in [0, untracked]; breakups are floor(events / 10); the shell's level wins over the altitude estimate |
| Deorbit.DecayRate | server/src/services/sustainabilityService.ts:382-388 | under a positive `exp`, the decay rate of a positive mass and area is positive |
| Deorbit.NaturalDecayYears | server/src/services/sustainabilityService.ts:376-394 | the natural decay timeline lies in [0.1, 200] years |
| Deorbit.Clamp | server/src/services/sustainabilityService.ts:391-393 | the two clamps confine any value to [0.1, 200] |
| Deorbit.RateShrinksWithAltitude | server/src/services/sustainabilityService.ts:382-388 | under a monotone `exp`, a higher orbit never decays faster |
| Deorbit.DecayGrowsWithAltitude | server/src/services/sustainabilityService.ts:376-394 | from 100 km up, a higher orbit never has a shorter decay timeline |
| Deorbit.ControlledDeorbitCost | server/src/services/sustainabilityService.ts:396-404 | 5% of the mass as fuel at $10k/kg plus $50k, so at least $50k |
| Deorbit.GraveyardOrbitCost | server/src/services/sustainabilityService.ts:406-415 | 2% of the mass as fuel at $10k/kg plus $25k, so at least $25k |
| Deorbit.GraveyardCheaper | server/src/services/sustainabilityService.ts:396-415 | for any mass, the graveyard orbit costs less than a controlled deorbit |
| Deorbit.DeorbitOptions | server/src/services/sustainabilityService.ts:218-257 | natural decay is always first, at no cost, with the decay timeline; a controlled option is present exactly when propulsion is declared true below 2000 km; a graveyard option is present exactly above 1500 km; natural decay succeeds with 0.95 and scores 85 within 25 years, else 0.7 and 60; the controlled option comes second, with the target timeline or 1 year, its cost, 0.92 and 95; the graveyard option comes last, with 0.1 years, its cost, 0.98 and 75 |
| Deorbit.ScanBest | server/src/services/sustainabilityService.ts:419-443 | the loop keeps the first option with the strictly best positive score, or the first option when none scores above 0 |
| Deorbit.RecommendedIndex | server/src/services/sustainabilityService.ts:417-446 | the recommended option is the first strictly best positive score, falling back to the first option |
| Deorbit.ComplianceOf | server/src/services/sustainabilityService.ts:263-267 | FCC holds exactly when decay takes 25 years or less; IADC exactly when FCC holds or controlled deorbit is feasible; ISO 24113 exactly when some option succeeds with probability ≥ 0.9 |
| Deorbit.SustainabilityScore | server/src/services/sustainabilityService.ts:448-467 | the bonus and penalty sum clamped to [0, 100] |
| Deorbit.AnalyzeDeorbit | server/src/services/sustainabilityService.ts:209-283 | the decay is the clamped natural-decay time of the request's mass, altitude and area (10 m² when the area is falsy), so in [0.1, 200]; feasibility as the source defines it; the options, recommended option and compliance are those of the rules above; the score is the sustainability score of those options, that compliance and that decay, so in [0, 100] |
| Deorbit.IsoComplianceIff | server/src/services/sustainabilityService.ts:224-267 | for a valid request, ISO compliance holds exactly when decay is within 25 years, or a controlled or graveyard option exists |
| SustainabilityValidators.ValidateCollisionRisk | server/src/validators/sustainabilityValidators.ts:3-34 | accepts exactly the bodies with altitude in [150, 50 000], inclination in [0, 180], an integer count in [1, 100 000], duration in (0, 50], a size of SMALL, MEDIUM or LARGE if given, and no undeclared property; the request keeps every value, each size name becoming its category; otherwise reports the first failing declared key, then the first undeclared property |
| SustainabilityValidators.ValidateAltitudeParam | server/src/validators/sustainabilityValidators.ts:36-42 | accepts exactly a present altitude in [150, 50 000] |
| SustainabilityValidators.ValidateDeorbit | server/src/validators/sustainabilityValidators.ts:44-68 | accepts exactly a mass in (0, 10 000] and an altitude in [150, 50 000], with an area in (0, 1000] and a timeline in (0, 50] when given, and no undeclared property |
| CostValidators.ValidateCostEstimate | server/src/validators/costValidators.ts:3-43 | accepts exactly a mission type of 3..100 UTF-16 code units, an integer count in [1, 100 000], mass, duration and altitude within their bounds when given, categories from the seven names, and no undeclared property; the request keeps the body's values |
| CostValidators.ValidateInsuranceQuote | server/src/validators/costValidators.ts:45-74 | accepts exactly one of the five coverage types, a value in (0, 1e12], and an integer month count in [1, 600], with an optional altitude and vehicle within bounds, and no undeclared property |
| CostEstimate.CategoryOf | server/src/services/costService.ts:63-65 | a component has a bucket exactly when its lower-cased category is one of the seven breakdown keys |
| CostEstimate.SelectComponents | server/src/services/costService.ts:44-60 | a row is selected exactly when its category was requested, or none were, and the mission type applies |
| CostEstimate.MassMultiplier | server/src/services/costService.ts:80-83 | mass / 500 clamped to [0.5, 2]: 0.5 up to 250 kg, 2 from 1000 kg, mass / 500 in between |
| CostEstimate.UnitScaledCost | server/src/services/costService.ts:66-73 | a single satellite, or a falsy per-unit cost, costs exactly the base cost |
| CostEstimate.ScaledCost | server/src/services/costService.ts:66-83 | duration scales only the operations bucket and only when given; the mass multiplier applies only to manufacturing and launch and only when a mass is given |
| CostEstimate.Accepted | server/src/services/costService.ts:63-65 | exactly the components that have a bucket |
| CostEstimate.Assumptions | server/src/services/costService.ts:97 | one assumption per component, position by position |
| CostEstimate.StepAdds | server/src/services/costService.ts:62-99 | one loop iteration adds the component's own contribution to every bucket, the total, the uncertainty and both confidence sums |
| CostEstimate.BucketsAreSums | server/src/services/costService.ts:85 | after the loop, each bucket holds the sum of its components' scaled costs |
| CostEstimate.TotalIsAcceptedSum | server/src/services/costService.ts:85-107 | the loop's total is the sum of the accepted components' scaled costs |
| CostEstimate.WeightsAreSums | server/src/services/costService.ts:88-95 | the loop's uncertainty and confidence weights are the per-component sums |
| CostEstimate.AssumptionsOfAccepted | server/src/services/costService.ts:97 | each accepted component adds exactly one assumption, in order; no other component adds one |
| CostEstimate.RejectedContributeNothing | server/src/services/costService.ts:63-65 | running the loop over all components equals running it over the accepted ones: a rejected component adds no cost, uncertainty, confidence or assumption |
| CostEstimate.InsuranceEstimate | server/src/services/costService.ts:223-230 | count × $5M × 8% × months / 12, which is count × 400 000 × (years or 5) |
| CostEstimate.Finish | server/src/services/costService.ts:101-114 | insurance enters only the insurance bucket; the total is the sum of the seven buckets; per-satellite × count is the total; the minimum is never negative |
| CostEstimate.GenerateCostEstimate | server/src/services/costService.ts:29-139 | the total is the sum of the buckets, the per-satellite cost times the count gives the total, and the minimum cost is non-negative |
| CostEstimate.EstimateBuckets | server/src/services/costService.ts:85-105 | every bucket is its components' sum; the insurance bucket also holds the flat estimate when insurance is required |
| CostEstimate.EstimateTotal | server/src/services/costService.ts:107 | the total is every accepted scaled cost plus the insurance added |
| CostEstimate.EstimateAssumptions | server/src/services/costService.ts:97-136 | the response lists one assumption per accepted component, in order |
| CostEstimate.EstimateConfidenceAndRange | server/src/services/costService.ts:109-114 | the confidence is the cost-weighted average, or 0.75 with no weight; the range widens the total by the summed uncertainty, or by 15% when that sum is 0, and the minimum is floored at 0 |
| CostEstimate.RangeBracketsTotal | server/src/services/costService.ts:112-114 | with a non-negative uncertainty and total, min ≤ total ≤ max |
| CostEstimate.WeightedSumBounded | server/src/services/costService.ts:92-95 | with per-component confidences in [0, 1], the weighted sum lies between 0 and the total weight |
| CostEstimate.ConfidenceInUnitInterval | server/src/services/costService.ts:92-109 | with confidences in [0, 1] and non-negative costs, the overall confidence lies in [0, 1] |
| Insurance.SelectModel | server/src/services/costService.ts:146-157 | no model exactly when none matches; otherwise a matching model whose base rate is the lowest of all matching models, and the first one with that rate |
| Insurance.AltitudeFactor | server/src/services/costService.ts:168-177 | ×1.2 exactly below 600 km, ×0.9 exactly above 20 000 km, no factor otherwise or with a falsy altitude |
| Insurance.AvoidanceFactor | server/src/services/costService.ts:180-186 | ×0.85 exactly for declared avoidance, ×1.15 exactly for declared none, no factor when absent |
| Insurance.VehicleFactor | server/src/services/costService.ts:189-195 | ×0.95 exactly for Falcon 9, Atlas V or Ariane 5 |
| Insurance.RecordedAdjustments | server/src/services/costService.ts:165-195 | each factor that applies is recorded once under its own key with its own value, and nothing else is recorded |
| Insurance.ApplyEntriesAppend | server/src/services/costService.ts:165-195 | applying two runs of recorded factors in turn equals applying their concatenation |
| Insurance.RateIsBaseTimesRecorded | server/src/services/costService.ts:165-198 | the adjusted rate is the base rate multiplied by exactly the recorded factors |
| Insurance.GenerateInsuranceQuote | server/src/services/costService.ts:141-221 | fails, naming coverage and value, exactly when no model matches; otherwise quotes the selected model's coverage, deductible and exclusions at the adjusted rate, with premium value × rate × months / 12 |
| Insurance.SelectionIgnoresAdjustments | server/src/services/costService.ts:146-157 | the model chosen depends only on the coverage type and the value |
| Insurance.AvoidanceLowersPremium | server/src/services/costService.ts:180-199 | with positive rates, declaring avoidance gives a strictly lower premium than declaring none |
| Insurance.AvoidanceLowersRate | server/src/services/costService.ts:180-186 | the same comparison for the adjusted rate |
| Insurance.PremiumGrowsWithRate | server/src/services/costService.ts:198-199 | for a positive value and duration, the premium grows strictly with the rate |
| MissionValidators.CreateChecksPassIff | Nexus-main/server/src/validators/missionValidators.ts:4-70 | every create check passes exactly when the body is within all of its bounds and has no undeclared property |
| MissionValidators.ValidateCreateMission | Nexus-main/server/src/validators/missionValidators.ts:4-70 | accepts exactly a name of 3..255, a type of 3..100 and an operator of 2..255 UTF-16 code units, positive integer ids, a launch date not in the past, duration in (0, 50], an integer satellite count in [1, 100 000], cost in (0, 1e12], at most 20 commitments of at most 500 code units, and no undeclared property; the request keeps the body's values, the three ids included, with the launch date kept as its ISO text; otherwise reports the first failing key, undeclared properties after the declared keys |
| MissionValidators.EveryFieldListed | Nexus-main/server/src/validators/missionValidators.ts:72-151 | the schema's key list covers every update field |
| MissionValidators.ParseKey | Nexus-main/server/src/validators/missionValidators.ts:72-151 | a property name is classified as a schema key exactly when it is one; the name is kept |
| MissionValidators.Lookup | Nexus-main/server/src/validators/missionValidators.ts:72-151 | absent exactly when no entry has the key; otherwise the value of an entry under that key |
| MissionValidators.LookupFindsEntry | Nexus-main/server/src/validators/missionValidators.ts:72-151 | in an object with unique keys, the looked-up value is the entry's value |
| MissionValidators.UnknownKeyChecks | Nexus-main/server/src/validators/missionValidators.ts:72-154 | every unknown key fails, and there are no such checks exactly when all keys are known |
| MissionValidators.PassingCheckCoversEntry | Nexus-main/server/src/validators/missionValidators.ts:72-151 | when every key check passes, each entry meets its own key's constraint |
| MissionValidators.ValidEntriesPassCheck | Nexus-main/server/src/validators/missionValidators.ts:72-151 | when every entry meets its constraint, each key check passes |
| MissionValidators.KnownChecksPassIff | Nexus-main/server/src/validators/missionValidators.ts:72-151 | the key checks all pass exactly when every entry meets its constraint |
| MissionValidators.UpdateChecksPassIff | Nexus-main/server/src/validators/missionValidators.ts:72-154 | the update schema passes exactly when it has at least one key, every key is known, and each value meets its constraint |
| MissionValidators.ValidateUpdateMission | Nexus-main/server/src/validators/missionValidators.ts:72-154 | accepts exactly the valid bodies and returns their entries, with a launch date kept as its ISO text; otherwise reports the first failing key |
| MissionValidators.ValidateMissionId | Nexus-main/server/src/validators/missionValidators.ts:156-162 | accepts exactly a positive integer id |
| MissionService.CheckReferences | Nexus-main/server/src/services/missionService.ts:26-55 | no error exactly when every truthy id resolves; otherwise the error of the first check that fails, in shell, configuration, vehicle order |
| MissionService.ReferenceErrorsSayNotFound | Nexus-main/server/src/services/missionService.ts:27-55 | every reference error contains "not found" |
| MissionService.MissingMessageSaysNotFound | Nexus-main/server/src/services/missionService.ts:262-264 | a message ending in " not found" contains "not found" |
| MissionService.IdOrNull | Nexus-main/server/src/services/missionService.ts:73 | `x \|\| null` keeps exactly a truthy id |
| MissionService.NumOrNull | Nexus-main/server/src/services/missionService.ts:75-76 | `x \|\| null` keeps exactly a truthy number |
| MissionService.StrOrNull | Nexus-main/server/src/services/missionService.ts:74 | `x \|\| null` keeps exactly a non-empty string |
| MissionService.CreateMission | Nexus-main/server/src/services/missionService.ts:20-92 | fails with a "not found" error exactly when a reference is missing; otherwise inserts status PLANNING, the request's names, type and count, commitments defaulting to [] and approvals to {}, and the shell id, launch date, duration and cost as `x || null` of the request's values |
| MissionService.CreateKeepsValidatedValues | Nexus-main/server/src/services/missionService.ts:68-80 | a validated request with resolving references is inserted with its ids, duration and cost unchanged |
| MissionService.Mapped | Nexus-main/server/src/services/missionService.ts:182-188 | at most one (column, value) pair per entry |
| MissionService.MappedEmptyIff | Nexus-main/server/src/services/missionService.ts:182-192 | no assignment is built exactly when every entry is undefined or has no mapped column |
| MissionService.DescriptionOnlyMapsNothing | Nexus-main/server/src/services/missionService.ts:165-192 | an update that only sets the description maps nothing, so it fails with "No valid fields" |
| MissionService.AssignmentPlaceholder | Nexus-main/server/src/services/missionService.ts:184 | `col = $k` reads back as the column, " = $" and the digits of k |
| MissionService.PlaceholdersBindValues | Nexus-main/server/src/services/missionService.ts:184-200 | placeholder $k of the SET clause binds value k, and the WHERE placeholder binds the id as the last value |
| MissionService.BuildUpdate | Nexus-main/server/src/services/missionService.ts:160-202 | fails with "No valid fields provided for update" exactly when nothing maps; otherwise assignment j writes mapped column j from $(j+1), `updated_at = CURRENT_TIMESTAMP` comes last with no parameter, and the id is bound as $(n+1) |
| MissionService.ValidUpdateHasIntegralReferences | Nexus-main/server/src/validators/missionValidators.ts:92-105 | a validated update names only whole-number reference ids |
| MissionService.ReferenceValue | Nexus-main/server/src/services/missionService.ts:130-150 | a reference id is used exactly when the entry holds a non-zero number, and it is that number |
| MissionService.UpdateMission | Nexus-main/server/src/services/missionService.ts:117-214 | a missing mission gives null before anything else; then a missing reference's error; then the "No valid fields" error; otherwise the statement of the mapped entries |
| MissionService.DeleteMission | Nexus-main/server/src/services/missionService.ts:216-232 | the id is removed, and the result is true exactly when the id was present |
| MissionService.DeleteTwiceReportsOnce | Nexus-main/server/src/services/missionService.ts:216-232 | a second delete of the same id reports false and changes nothing |
| MissionService.Progress | Nexus-main/server/src/services/missionService.ts:267 | not finite exactly when there are no planned satellites; otherwise progress × total = deployed × 100 |
| MissionService.GenerateMissionReport | Nexus-main/server/src/services/missionService.ts:259-300 | fails with "Mission with ID … not found" exactly when there is no mission; the budget is the cost or 0; progress, spent and remaining are non-finite exactly with no planned satellites; otherwise progress is within half a hundredth of deployed/total × 100 at two decimals, and spent and remaining are the whole parts of p% and (100 − p)% of the budget; cost per satellite is floor(budget / total), or 0 |
| MissionService.TwoDecimals | Nexus-main/server/src/services/missionService.ts:277 | `Math.round(p × 100) / 100` is a whole number of hundredths within half a hundredth of p |
| MissionService.PercentOf | Nexus-main/server/src/services/missionService.ts:283-284 | n ≤ budget × p / 100 < n + 1 |
| MissionService.FloorDivisionBounds | Nexus-main/server/src/services/missionService.ts:285 | c = floor(budget / total) satisfies c × total ≤ budget < (c + 1) × total |
| MissionService.SpentPlusRemaining | Nexus-main/server/src/services/missionService.ts:283-284 | spent plus remaining falls short of the budget by less than 2 and never exceeds it |
| MissionService.SpentWithinBudget | Nexus-main/server/src/services/missionService.ts:283-284 | with deployment between none and all, spent and remaining lie in [0, budget] |
| MissionService.ProgressWithinPercent | Nexus-main/server/src/services/missionService.ts:267 | with deployment between none and all, progress lies in [0, 100] |
| MissionService.MapRowToMission | Nexus-main/server/src/services/missionService.ts:343-366 | renames the columns, defaults deployed and operational counts to 0, commitments to [] and approvals to {}, and always yields a normalised mission |
| MissionService.StrOrUndefined | Nexus-main/server/src/services/missionService.ts:347 | `x \|\| undefined` keeps exactly a non-empty string |
| MissionService.RowRoundTrip | Nexus-main/server/src/services/missionService.ts:343-366 | mapping a mission's own row gives the mission back exactly when the mission is normalised |
| MissionService.MapRowIdempotent | Nexus-main/server/src/services/missionService.ts:343-366 | mapping is a normalisation: mapping the result's row again changes nothing |
| MissionTypes.StatusName | Nexus-main/server/src/types/mission.ts:1-144 | every status has one of the seven status names |
| ErrorHandler.InitialStatus | Nexus-main/server/src/middleware/errorHandler.ts:14 | `statusCode \|\| 500` is never 0 |
| ErrorHandler.InitialMessage | Nexus-main/server/src/middleware/errorHandler.ts:15 | `message \|\| 'Internal Server Error'` is never empty |
| ErrorHandler.HandleError | Nexus-main/server/src/middleware/errorHandler.ts:8-45 | success is false; debug data is present exactly in development; "duplicate key" gives 409 "Resource already exists" whatever else holds; otherwise "not found" gives 404 and keeps the earlier message; otherwise ValidationError gives 400 "Validation Error"; otherwise the error's own status and message or their defaults |
| ErrorHandler.StatusIsChosenByARule | Nexus-main/server/src/middleware/errorHandler.ts:14-30 | the status is 400, 404, 409, 500 or the error's own code |
| ErrorHandler.EnvironmentOnlyAddsDebug | Nexus-main/server/src/middleware/errorHandler.ts:37-44 | the environment changes nothing but the debug part |
| ErrorHandler.NotADuplicate | Nexus-main/server/src/middleware/errorHandler.ts:27 | the service's "… with ID n not found" messages never contain "duplicate key" |
| ErrorHandler.MissingReferenceIs404 | Nexus-main/server/src/services/missionService.ts:26-55 | a missing shell, configuration or vehicle reaches the client as 404 with the service's message |
| ErrorHandler.MissingMissionIs404 | Nexus-main/server/src/services/missionService.ts:261-264 | a report for a missing mission reaches the client as 404 with its message |
| FinancialProjection.BasisOf | client/src/components/MissionArchitect/MissionArchitect.tsx:23-24 | the cost is the estimate's total, else the form's, else 1e8; the duration is the form's or 5; neither is 0 |
| FinancialProjection.MonthCount | client/src/components/MissionArchitect/MissionArchitect.tsx:33 | the loop visits months 1..n, where n is the largest month ≤ 12d |
| FinancialProjection.YearCount | client/src/components/MissionArchitect/MissionArchitect.tsx:73 | the loop visits years 1..n, where n is the largest year ≤ d |
| FinancialProjection.CumulativeStep | client/src/components/MissionArchitect/MissionArchitect.tsx:31-37 | the closed-form running cash position grows by the month's income minus expenses |
| FinancialProjection.ProfitIsCumulativeCashFlow | client/src/components/MissionArchitect/MissionArchitect.tsx:31-58 | each month's break-even profit equals that month's cumulative cash flow |
| FinancialProjection.CashFlowSeries | client/src/components/MissionArchitect/MissionArchitect.tsx:28-46 | one row per month in order; income is 0 through month 12 and 1.3T/(12d) after; expenses are T/(12d); the cumulative value is −0.3T plus the net so far |
| FinancialProjection.BreakEvenSeries | client/src/components/MissionArchitect/MissionArchitect.tsx:49-66 | one row per month in order, with revenue and costs accumulated so far and their difference as profit |
| FinancialProjection.RoiSeries | client/src/components/MissionArchitect/MissionArchitect.tsx:69-86 | one row per year in order; the investment is always T; returns are 0 in year 1 and a year of revenue after |
| FinancialProjection.CostBreakdownIsComplete | client/src/components/MissionArchitect/MissionArchitect.tsx:89-96 | six categories whose amounts add up to T and whose percentages add up to 100 |
| FinancialProjection.GenerateFinancialData | client/src/components/MissionArchitect/MissionArchitect.tsx:22-104 | the four series of the rules above, on the defaulted cost and duration |
| FinancialProjection.NeverBreaksEven | client/src/components/MissionArchitect/MissionArchitect.tsx:29-58 | with a positive cost and duration, profit stays negative in every month the projection covers |
| FinancialDashboard.FirstProfitable | client/src/components/MissionArchitect/FinancialDashboard.tsx:63 | the first row with profit ≥ 0, with every earlier row negative; none exactly when every row is negative |
| FinancialDashboard.FinancialMetrics | client/src/components/MissionArchitect/FinancialDashboard.tsx:60-78 | the totals are the `reduce` sums of the ROI rows and net profit is their difference; the final ROI and cash flow come from the last rows, or 0; break-even is the month of the first profitable row, null when that month is 0 or no row is profitable; the margin is netProfit / returns × 100, or 0 when returns ≤ 0 |
| FinancialDashboard.BreakEvenMonth | client/src/components/MissionArchitect/FinancialDashboard.tsx:63-74 | the month of the first row with profit ≥ 0 when it is not 0; null when there is none |
| FinancialDashboard.FirstProfitableIsFirst | client/src/components/MissionArchitect/FinancialDashboard.tsx:63 | `find` returns the first profitable row, whichever row is first |
| FinancialDashboard.ProfitMargin | client/src/components/MissionArchitect/FinancialDashboard.tsx:76 | margin × returns = net profit × 100 for positive returns, 0 otherwise |
| FinancialDashboard.SumsFromFront | client/src/components/MissionArchitect/FinancialDashboard.tsx:65-66 | the `reduce` sums equal the first row plus the sums of the rest |
| FinancialDashboard.NetProfitIsYearlyNetSum | client/src/components/MissionArchitect/FinancialDashboard.tsx:65-67 | net profit equals the sum over years of returns less investment, added from the first year |
| FinancialDashboard.BreakEvenIgnoresLaterRows | client/src/components/MissionArchitect/FinancialDashboard.tsx:63 | rows appended after the first profitable row never change the break-even month |
| FinancialDashboard.RiskIndicators | client/src/components/MissionArchitect/FinancialDashboard.tsx:80-116 | each warning appears exactly when its rule fires, in rule order; the single success indicator appears exactly when none fires; the list is never empty |
| FinancialDashboard.SumOfConstantInvestment | client/src/components/MissionArchitect/FinancialDashboard.tsx:65 | summing a constant investment over n rows gives n times it |
| FinancialDashboard.GeneratedInvestmentIsCostPerYear | client/src/components/MissionArchitect/FinancialDashboard.tsx:65 | on the generated projection, the total investment counts the whole cost once per year |
| FinancialDashboard.GeneratedProjectionIsUnhealthy | client/src/components/MissionArchitect/FinancialDashboard.tsx:83-113 | the generated projection always warns of a late break-even and a negative cash flow, and never reports healthy |
| Wizard.Merge | client/src/components/MissionArchitect/MissionProfileWizard.tsx:469-471 | updated keys take the new value, every other key keeps its value, no key is lost, and well-typed forms stay well-typed |
| Wizard.MergeTwice | client/src/components/MissionArchitect/MissionProfileWizard.tsx:469-471 | two updates in a row equal one update holding both, the later winning |
| Wizard.MergeIdempotent | client/src/components/MissionArchitect/MissionProfileWizard.tsx:469-471 | repeating an update changes nothing |
| Wizard.StepKeys | client/src/components/MissionArchitect/MissionProfileWizard.tsx:432-465 | the last two steps read no key |
| Wizard.ValidityOnlyReadsStepKeys | client/src/components/MissionArchitect/MissionProfileWizard.tsx:432-465 | an update that avoids a step's keys never changes that step's validity |
| Wizard.EmptyFormValidity | client/src/components/MissionArchitect/MissionProfileWizard.tsx:432-465 | the empty form fails the first three steps, and the last two accept any form |
| Wizard.ZeroInclinationAllowed | client/src/components/MissionArchitect/MissionProfileWizard.tsx:439-444 | an inclination of 0 passes the technical step, while a satellite count of 0 fails it |
| Wizard.Without | client/src/components/MissionArchitect/MissionProfileWizard.tsx:253 | removes every occurrence of the category and keeps everything else |
| Wizard.Toggle | client/src/components/MissionArchitect/MissionProfileWizard.tsx:250-256 | the category is present afterwards exactly when it was absent before, other categories are unaffected, and an absent category is appended |
| Wizard.ToggleCategory | client/src/components/MissionArchitect/MissionProfileWizard.tsx:250-256 | the update sets only the category list, which holds the category exactly when it did not before |
| Wizard.ToggleTwice | client/src/components/MissionArchitect/MissionProfileWizard.tsx:250-256 | toggling twice restores which categories are selected, and the exact list when the category was absent |
| Wizard.WithoutAppend | client/src/components/MissionArchitect/MissionProfileWizard.tsx:253-254 | removing a just-appended absent category restores the list |
| Wizard.ListUpdate | client/src/components/MissionArchitect/MissionProfileWizard.tsx:250-343 | an update that sets exactly one list key to the given list |
| Wizard.AddCommitment | client/src/components/MissionArchitect/MissionProfileWizard.tsx:332-338 | blank input is ignored and kept; other input appends its trimmed text and clears the field |
| Wizard.DropIndex | client/src/components/MissionArchitect/MissionProfileWizard.tsx:342 | drops exactly the element at the index, in range, and nothing otherwise |
| Wizard.DropIndexIsSlice | client/src/components/MissionArchitect/MissionProfileWizard.tsx:342 | in range, the result is the list before the index joined to the list after it |
| Wizard.RemoveCommitment | client/src/components/MissionArchitect/MissionProfileWizard.tsx:340-343 | only the commitment at the index is removed; an index out of range changes nothing |
| Wizard.RemoveUndoesAdd | client/src/components/MissionArchitect/MissionProfileWizard.tsx:332-343 | removing the commitment just added restores the list |
| Wizard.HandleNext | client/src/components/MissionArchitect/MissionProfileWizard.tsx:473-480 | before the last step it moves one step forward; on the last it stays and completes with the form |
| Wizard.Navigate | client/src/components/MissionArchitect/MissionProfileWizard.tsx:469-493 | Previous never goes below 0; a step click moves only to an index ≤ current; an update merges the form; the step stays in [0, 4] |
| Wizard.Dispatch | client/src/components/MissionArchitect/MissionProfileWizard.tsx:345-348 | as written: no event completes; a submit before the last step advances one step, and on the last step does nothing |
| Wizard.DispatchFixed | client/src/components/MissionArchitect/MissionProfileWizard.tsx:473-480 | as intended: a submit completes, with the form, exactly on the last step |
| Wizard.Run | client/src/components/MissionArchitect/MissionProfileWizard.tsx:565-572 | any run of events keeps the step in range |
| Wizard.RunFixed | client/src/components/MissionArchitect/MissionProfileWizard.tsx:565-572 | the same for the corrected wizard |
| Wizard.NeverCompletes | client/src/components/MissionArchitect/MissionProfileWizard.tsx:345-348 | as written, no sequence of events ever calls onComplete |
| Wizard.FiveSubmitsStallOnLastStep | client/src/components/MissionArchitect/MissionProfileWizard.tsx:345-408 | five submits from the start end on the last step with nothing completed |
| Wizard.Submits | client/src/components/MissionArchitect/MissionProfileWizard.tsx:407-408 | n submit events |
| Wizard.SubmittingCompletes | client/src/components/MissionArchitect/MissionProfileWizard.tsx:473-480 | corrected: from any step, submitting until past the last step completes once with the form |
| Wizard.FixedCompletesOnlyOnLastStep | client/src/components/MissionArchitect/MissionProfileWizard.tsx:473-480 | corrected: at most one completion per event, and none without a submit |
| Wizard.StepIgnoresForm | client/src/components/MissionArchitect/MissionProfileWizard.tsx:473-493 | once an event reaches the React handlers, the step they move to does not depend on the form data or `isValid` |
| Wizard.OnlySubmitAdvances | client/src/components/MissionArchitect/MissionProfileWizard.tsx:473-493 | only a submit moves forward, and by one step at most |
| Socket.RemoveId | client/src/hooks/useSocket.ts:127-143 | keeps exactly the entries with a different id, each from the list; with Socket.RemoveIdAppend, in their order |
| Socket.KeepLast | client/src/hooks/useSocket.ts:127-143 | `slice(-n)`: the last n entries, or all of them |
| Socket.Upsert | client/src/hooks/useSocket.ts:127-143 | the new entry is last; every other entry has a different id and came from the list; the length is at most the cap; below the cap, no other entry is dropped |
| Socket.RemoveIdAppend | client/src/hooks/useSocket.ts:127-143 | removing by id works run by run, so the remaining entries keep their order |
| Socket.UpsertKeepsNewest | client/src/hooks/useSocket.ts:127-143 | before the new entry stand the newest other entries in their order, as many as the cap leaves room for: the oldest are dropped first |
| Socket.UpsertFresh | client/src/hooks/useSocket.ts:127-143 | an entry with a new id gives `slice(-cap)` of the list with the entry appended |
| Socket.UpsertReplaces | client/src/hooks/useSocket.ts:127-143 | in a list with unique ids, an entry whose id sits at position k gives `slice(-cap)` of the list without position k, with the entry appended |
| Socket.RemoveIdKeepsUnique | client/src/hooks/useSocket.ts:127-143 | removing by id keeps ids unique |
| Socket.UpsertKeepsUnique | client/src/hooks/useSocket.ts:129-142 | a list with unique ids keeps them unique through an upsert |
| Socket.UpsertIdempotent | client/src/hooks/useSocket.ts:129-142 | receiving the same entry twice leaves the list as receiving it once |
| Socket.Resolve | client/src/hooks/useSocket.ts:58-65 | the URL defaults to ws://localhost:8080/ws, the attempts to 5 and the interval to 3000 ms; given options are kept |
| Socket.TypeOf | client/src/hooks/useSocket.ts:126-150 | the event's `type`: the warning and debris types for the two dispatched cases, and neither of them for any other event |
| Socket.OnMessage | client/src/hooks/useSocket.ts:120-155 | an unparsable message changes nothing; a parsed one becomes the last event; a warning is upserted with cap 50 and a debris update with cap 100; other types leave both lists unchanged; the connection is untouched |
| Socket.MessagePreservesLists | client/src/hooks/useSocket.ts:127-143 | messages keep both lists within their caps and their ids unique |
| Socket.OnOpen | client/src/hooks/useSocket.ts:87-94 | connected, and the attempt counter reset to 0; the lists are untouched |
| Socket.OnError | client/src/hooks/useSocket.ts:114-118 | only the connection state changes, to error |
| Socket.OnClose | client/src/hooks/useSocket.ts:96-112 | disconnected; a retry is scheduled and counted exactly when the code is not 1000 and the attempts are below the maximum |
| Socket.ClearWarnings | client/src/hooks/useSocket.ts:171-173 | the warnings become empty and the debris list is untouched |
| Socket.ClearDebrisUpdates | client/src/hooks/useSocket.ts:175-177 | the debris list becomes empty and the warnings are untouched |
| Socket.Unclean | client/src/hooks/useSocket.ts:104 | counts the close codes other than 1000 |
| Socket.RetriesAreBounded | client/src/hooks/useSocket.ts:104-111 | with no successful open, the counter ends at min(max, start + unclean closes), and no more retries are scheduled than that allows |
| Socket.DefaultAllowsFiveRetries | client/src/hooks/useSocket.ts:58-111 | from a fresh hook with the default options, at most five retries are scheduled |
| SimFilters.FilteredSatellites | client/src/components/SustainabilitySimulator/SustainabilitySimulator.tsx:183-203 | empty when satellites are hidden; a satellite is kept exactly when it is in the altitude band, inclusive, and passes the risk filter; the risk filters keep only satellites that have a probability |
| SimFilters.FilteredDebris | client/src/components/SustainabilitySimulator/SustainabilitySimulator.tsx:205-225 | empty when debris is hidden; an object is kept exactly when it is in the band and passes the risk filter; critical-only keeps only CRITICAL |
| SimFilters.FiltersKeepOrder | client/src/components/SustainabilitySimulator/SustainabilitySimulator.tsx:183-225 | filtering two halves and joining them equals filtering the whole, so order is kept |
| SimFilters.AllInBandShowsEverything | client/src/components/SustainabilitySimulator/SustainabilitySimulator.tsx:183-225 | with everything shown, no risk filter and every object in the band, the filters are the identity |
| SimFilters.StricterFilterNarrows | client/src/components/SustainabilitySimulator/SustainabilitySimulator.tsx:194-221 | the critical-only view is the high-risk view narrowed further |
| Notifications.FilteredWarnings | client/src/components/SustainabilitySimulator/NotificationPanel.tsx:34-37 | ALL is the identity; a level keeps exactly the warnings of that level, each from the list |
| Notifications.FilteredDebris | client/src/components/SustainabilitySimulator/NotificationPanel.tsx:40-43 | the same for debris updates |
| Notifications.FiltersKeepOrder | client/src/components/SustainabilitySimulator/NotificationPanel.tsx:34-43 | filtering two runs of alerts and joining the results is filtering the joined runs, so the panel keeps arrival order |
| Notifications.TotalAlerts | client/src/components/SustainabilitySimulator/NotificationPanel.tsx:78 | never more than both lists together, and exactly that under ALL |
| Notifications.LevelsPartitionWarnings | client/src/components/SustainabilitySimulator/NotificationPanel.tsx:34-37 | the four single-level views split the warnings: their sizes add up to the list's |
| Notifications.LevelsPartitionDebris | client/src/components/SustainabilitySimulator/NotificationPanel.tsx:40-43 | the same for debris updates |
| Notifications.LevelCountsAddUp | client/src/components/SustainabilitySimulator/NotificationPanel.tsx:78 | summed over the four levels, the alert count is the unfiltered count |
| Notifications.AutoExpand | client/src/components/SustainabilitySimulator/NotificationPanel.tsx:46-52 | the panel is open afterwards exactly when it was open or either list holds a critical alert |
| Notifications.CriticalIsShown | client/src/components/SustainabilitySimulator/NotificationPanel.tsx:46-78 | when a critical alert opens the panel, the critical filter still counts it |
| Notifications.FormatTimeAgo | client/src/components/SustainabilitySimulator/NotificationPanel.tsx:54-66 | an unreadable timestamp gives "NaNd ago"; less than a minute, future times included, gives "Just now" |
| Notifications.NestedFloors | client/src/components/SustainabilitySimulator/NotificationPanel.tsx:58-64 | whole hours and days taken from whole minutes are the whole hours and days of the difference |
| Notifications.TimeAgoByRange | client/src/components/SustainabilitySimulator/NotificationPanel.tsx:54-66 | "Just now" exactly below a minute; otherwise the largest unit that fits, in whole units of the difference: minutes below an hour, hours below a day, days after |
| Seqs.Filter | client/src/components/SustainabilitySimulator/SustainabilitySimulator.tsx:183-225 | keeps exactly the elements the test accepts, each from the input |
| Seqs.FilterAppend | client/src/components/SustainabilitySimulator/SustainabilitySimulator.tsx:183-225 | filtering a concatenation is concatenating the filtered parts |
| Seqs.FilterKeepsAll | client/src/components/SustainabilitySimulator/NotificationPanel.tsx:34-43 | a test that accepts every element is the identity |
| Seqs.FilterNarrows | client/src/components/SustainabilitySimulator/SustainabilitySimulator.tsx:194-199 | filtering by a stricter test after a looser one is filtering by the stricter one |
| Seqs.FilterDropsOne | client/src/hooks/useSocket.ts:131-141 | a filter that rejects one element and accepts all around it removes exactly that element |
| Validation.FirstFailing | server/src/validators/costValidators.ts:3-43 | the position of the first failing check; none exactly when all pass |
| Validation.FirstError | server/src/validators/costValidators.ts:3-43 | the key of the first failing check (Joi stops at the first error); none exactly when all pass |
| Validation.JsLength | Nexus-main/server/src/validators/missionValidators.ts:5 | a string's `.length` counts UTF-16 code units: between one and two per code point, and equal to the code-point count exactly when none lies above U+FFFF |
| Validation.JsLengthAppend | Nexus-main/server/src/validators/missionValidators.ts:5 | the length of a concatenation is the sum of the lengths |
| Validation.AstralPairMeetsMinThree | Nexus-main/server/src/validators/missionValidators.ts:5 | two emoji are two code points but four code units, so they meet `min(3)` |
| Validation.AllPassConcat | Nexus-main/server/src/validators/missionValidators.ts:72-154 | the checks of two lists all pass exactly when each list's checks do |
| Validation.FirstErrorInPrefix | Nexus-main/server/src/validators/missionValidators.ts:4-70 | once a run of checks fails, checks appended after it never change the first error |
| Validation.UnknownKeysReported | Nexus-main/server/src/validators/missionValidators.ts:4-70 | with undeclared properties checked after the declared keys, a body passes exactly when its declared keys pass and it has no undeclared property; the error is the first failing declared key, else the first undeclared property |
| Strings.ToLower | server/src/services/costService.ts:63 | same length, each character lower-cased |
| Strings.Trim | client/src/components/MissionArchitect/MissionProfileWizard.tsx:333-335 | the result is a slice of the input with only white space (ECMA-262's WhiteSpace and LineTerminator code points) cut off either side, and neither end of it is white space |
| Strings.TrimEmptyIffAllSpace | client/src/components/MissionArchitect/MissionProfileWizard.tsx:333 | the trimmed text is empty exactly when every character is JavaScript white space or a line terminator |
| Strings.NatToStringRoundTrip | Nexus-main/server/src/services/missionService.ts:184 | the decimal digits of n read back as n |
| Strings.IntToString | Nexus-main/server/src/services/missionService.ts:33 | a non-negative number's digits, or "-" and the digits of its magnitude |
| Wrappers.OrNum | client/src/components/MissionArchitect/MissionArchitect.tsx:23-24 | `x \|\| d`: the value when it is truthy, the fallback otherwise |

## Left out

- SQL, the connection pool and transactions: query results are parameters.
  - Row order of `SELECT ... ORDER BY` is taken as the input order.
  - The `getMissionById` join and its column aliases are not modelled.
  - pg's NUMERIC-as-string decoding is not modelled, nor is `parseInt` of counts (counts are integers).
- `Math.exp`, `Math.log`, `Math.pow` and `Math.log10` are parameters, with positivity and monotonicity only. `Math.sqrt` in the deorbit cost helpers has unused results and is left out.
- IEEE-754 effects are not modelled, nor is NaN; numbers are exact. Most output rounding is left out too: `Math.round(x * k) / k` on the sustainability and cost responses, `toFixed` and JavaScript number formatting. Those values are exact and unrounded. Two places keep their rounding. One is the cost assumption text (`Strings.Round`). The other is the mission report: its progress is rounded to two decimals, and its spent and remaining figures are floored (`MissionService.GenerateMissionReport`).
- Random ids, timestamps and the random stub values of `simulateMission`, `generateMissionReport` and `optimizeMission`. `simulateMission` and `optimizeMission` are pure stubs apart from the existence check, so they are not modelled.
- Joi's ISO-8601 date parser is a parameter (`parse`, `isIso`), and so is the clock (`now`). Error messages are reduced to the failing key. A body is given as its declared keys plus the list of its other property names.
- MissionValidators.ValidateCreateMission: Joi replaces a valid `planned_launch_date` with the `Date` it parses, and that `Date` reaches the insert and the update's bound parameter. The model keeps the ISO text, which denotes the same instant (`parse`), in the create request, the update entries and the inserted `launch_campaign_start`.
- MissionValidators.ValidateUpdateMission: Joi's default conversion of numeric strings (`"5"`) to numbers is not modelled. `FieldOk` rejects an update that gives a number as a string, where Joi converts and accepts it. The other bodies carry their numbers as numbers, so such a string cannot be expressed for them. The altitude path parameter is always a string: `SustainabilityValidators.ValidateAltitudeParam` takes the number Joi converts it to, and None for a text that is not numeric.
- `Strings.ToLower` lower-cases ASCII only.
- CollisionRisk.DebrisDensityScore: a level that names an `Object.prototype` property (`toString`, `constructor`, `__proto__`, …) makes `scores[level] || 50` return that property, not a number; the model gives 50, as the density-level column holds one of the four levels.
- Logging, `console` output and the HTTP controllers, routes and server entry points.
- The WebSocket transport and timers, `connect`'s open-socket guard and `sendMessage`. `JSON.parse` is a parameter (`Option<SocketEvent>`), and a parsed payload is assumed to have the shape its type declares.
- Wizard.Dispatch: a `Submit` is a submit event the browser has delivered. The browser's own checks of the inputs' `required`, `min` and `max` attributes run before it, are not modelled, and can hold a step back.
- The wizard's rendering, `onCancel` and the inputs' `parseInt` and `parseFloat` conversions. Form values arrive already typed.
- The simulator's clock, playback, mock data generators and the panel's show toggles, which only affect rendering.
- `Notifications.FormatTimeAgo`: times are whole milliseconds; an unreadable timestamp is `None`.
- `CostEstimate.GenerateCostEstimate`: its own contract is weaker than the source's promise. The buckets, total, assumptions, confidence and range are stated by the lemmas `EstimateBuckets`, `EstimateTotal`, `EstimateAssumptions` and `EstimateConfidenceAndRange`.

## Findings

| source | as written | input that shows it | evidently intended | confidence | as-written member | corrected member |
|---|---|---|---|---|---|---|
| client/src/components/MissionArchitect/MissionProfileWizard.tsx:345-348 | every step form's submit handler calls `onNext` only when `!isLast`, so "Complete Setup" on the last step never reaches `handleNext`, and `onComplete` (473-480) is unreachable | five submits from the first step: the wizard stops on the last step and nothing completes | submitting the last step completes the wizard with the form | high (not executed) | Wizard.NeverCompletes | Wizard.SubmittingCompletes |

Other behaviour that follows the code as written and is modelled as such:

- The create and update schemas accept `description`, `satellite_configuration_id` and `launch_vehicle_id`. The insert and `fieldMappings` never store them (`MissionService.DescriptionOnlyMapsNothing`).
- A report on a mission with no planned satellites has non-finite progress, spent and remaining figures (`MissionService.Progress`).
- The insurance error "No insurance model found…" does not contain "not found", so it reaches the client as 500.
- An error named `ValidationError` whose message contains "not found" becomes 404 with the message "Validation Error" (`ErrorHandler.HandleError`).
- The demonstration projection never breaks even. Its indicators always report a late break-even and a negative cash flow (`FinancialDashboard.GeneratedProjectionIsUnhealthy`).
- The React navigation handlers never consult the steps' `isValid` predicates (`Wizard.StepIgnoresForm`); only the browser's form validation stands between a step and the next.
- An unreadable timestamp is shown as "NaNd ago".

=== FILE: collision_risk.dfy ===
/** Collision-risk scoring: the part of the risk assessment that follows the
    three database reads. The reads become parameters: the debris-density
    level of the matching orbital shell (if any), the average probability of
    last year's collision events in the ±50 km band (if any), and the number of
    operational satellites in that band. */
module CollisionRisk {
  import opened Wrappers
  import opened SustainabilityTypes
  import opened SustainabilityValidators

  // ---------------------------------------------------------------------
  // Factor scores
  // ---------------------------------------------------------------------

  /** Score of a shell's debris-density level; unknown text scores 50. */
  function DebrisDensityScore(level: string): (r: real)
    ensures level == "LOW" ==> r == 25.0
    ensures level == "MEDIUM" ==> r == 50.0
    ensures level == "HIGH" ==> r == 75.0
    ensures level == "CRITICAL" ==> r == 95.0
    ensures level !in {"LOW", "MEDIUM", "HIGH", "CRITICAL"} ==> r == 50.0
  {
    if level == "LOW" then 25.0
    else if level == "MEDIUM" then 50.0
    else if level == "HIGH" then 75.0
    else if level == "CRITICAL" then 95.0
    else 50.0
  }

  /** The debris score used by the assessment: 50 when no shell contains the altitude. */
  function ShellDebrisScore(shellLevel: Option<string>): (r: real)
    ensures 25.0 <= r <= 95.0
    ensures shellLevel.None? ==> r == 50.0
    ensures r > 70.0 <==> shellLevel == Some("HIGH") || shellLevel == Some("CRITICAL")
  {
    match shellLevel
    case None => 50.0
    case Some(l) => DebrisDensityScore(l)
  }

  predicate InIssBand(altitude: real) { 400.0 <= altitude <= 500.0 }
  predicate InStarlinkBand(altitude: real) { 540.0 <= altitude <= 570.0 }
  predicate InOneWebBand(altitude: real) { 1150.0 <= altitude <= 1250.0 }

  /** The traffic bonus of an altitude, defined band by band. */
  function BandBonus(altitude: real): real {
    if InStarlinkBand(altitude) then 1.5
    else if InOneWebBand(altitude) then 1.3
    else if InIssBand(altitude) then 1.2
    else 1.0
  }

  /** The three popular bands do not overlap, so at most one bonus applies. */
  lemma BandsDisjoint(altitude: real)
    ensures !(InStarlinkBand(altitude) && InOneWebBand(altitude))
    ensures !(InStarlinkBand(altitude) && InIssBand(altitude))
    ensures !(InOneWebBand(altitude) && InIssBand(altitude))
  {
  }

  function Min(a: real, b: real): real { if a <= b then a else b }
  function Max(a: real, b: real): real { if a >= b then a else b }

  /** Traffic score: one point per ten satellites up to 90, times the band
      bonus, never above 95. The three band tests run one after another. */
  function TrafficDensityScore(satelliteCount: int, altitude: real): (r: real)
    ensures r == Min(95.0, Min(90.0, satelliteCount as real / 10.0) * BandBonus(altitude))
    ensures r <= 95.0
    ensures satelliteCount >= 0 ==> 0.0 <= r
    ensures BandBonus(altitude) == 1.0 && satelliteCount >= 0 ==> r <= 90.0
  {
    var base := Min(90.0, satelliteCount as real / 10.0);
    var s1 := if InStarlinkBand(altitude) then base * 1.5 else base;
    var s2 := if InOneWebBand(altitude) then s1 * 1.3 else s1;
    var s3 := if InIssBand(altitude) then s2 * 1.2 else s2;
    BandsDisjoint(altitude);
    Min(95.0, s3)
  }

  /** Altitude risk: a step function of the altitude band. */
  function AltitudeRiskScore(altitude: real): (r: real)
    ensures altitude < 400.0 ==> r == 85.0
    ensures 400.0 <= altitude < 600.0 ==> r == 75.0
    ensures 600.0 <= altitude < 1000.0 ==> r == 60.0
    ensures 1000.0 <= altitude < 2000.0 ==> r == 45.0
    ensures 2000.0 <= altitude <= 20000.0 ==> r == 50.0
    ensures 20000.0 < altitude ==> r == 30.0
  {
    if altitude < 400.0 then 85.0
    else if altitude < 600.0 then 75.0
    else if altitude < 1000.0 then 60.0
    else if altitude < 2000.0 then 45.0
    else if altitude > 20000.0 then 30.0
    else 50.0
  }

  /** The altitude score always lies in [30, 85]. */
  lemma AltitudeRiskScoreBounds(altitude: real)
    ensures 30.0 <= AltitudeRiskScore(altitude) <= 85.0
  {
  }

  /** Mission-duration impact: ten percent per year beyond the first, at most double. */
  function MissionDurationImpact(years: real): (r: real)
    ensures r <= 2.0
    ensures years >= 1.0 ==> r >= 1.0
    ensures years > 0.0 ==> r > 0.9
    ensures years >= 11.0 ==> r == 2.0
  {
    Min(2.0, 1.0 + (years - 1.0) * 0.1)
  }

  /** A longer mission never has a smaller duration impact. */
  lemma DurationImpactMonotone(y1: real, y2: real)
    requires y1 <= y2
    ensures MissionDurationImpact(y1) <= MissionDurationImpact(y2)
  {
  }

  /** The base probability: 0.001, raised to last year's average when one exists. */
  function BaseProbability(avgProbability: Option<real>): (r: real)
    ensures r >= 0.001
    ensures avgProbability.None? ==> r == 0.001
    ensures avgProbability.Some? ==> r == Max(0.001, avgProbability.value)
  {
    match avgProbability
    case None => 0.001
    case Some(avg) => Max(0.001, avg)
  }

  /** Multiplier for the avoidance flag: absent leaves the multiplier as it is. */
  function AvoidanceFactor(avoidance: Option<bool>): (r: real)
    ensures avoidance == Some(true) ==> r == 0.3
    ensures avoidance == Some(false) ==> r == 1.5
    ensures avoidance.None? ==> r == 1.0
  {
    match avoidance
    case None => 1.0
    case Some(b) => if b then 0.3 else 1.5
  }

  function SizeFactor(size: Option<SizeCategory>): (r: real)
    ensures r > 0.0
    ensures size.None? ==> r == 1.0
    ensures size == Some(Small) ==> r == 0.7
    ensures size == Some(MediumSize) ==> r == 1.0
    ensures size == Some(Large) ==> r == 1.4
  {
    match size
    case None => 1.0
    case Some(Small) => 0.7
    case Some(MediumSize) => 1.0
    case Some(Large) => 1.4
  }

  /** The combined risk multiplier, built factor by factor as the source does. */
  function RiskMultiplier(r: CollisionRiskRequest, debris: real, traffic: real, altitude: real, duration: real): real
  {
    var m1 := 1.0 * (debris / 50.0) * (traffic / 50.0) * (altitude / 50.0) * duration * (r.satelliteCount as real / 100.0);
    var m2 := if r.collisionAvoidance == Some(true) then m1 * 0.3
              else if r.collisionAvoidance == Some(false) then m1 * 1.5
              else m1;
    if r.sizeCategory.Some? then m2 * SizeFactor(r.sizeCategory) else m2
  }

  /** Every factor of the multiplier is non-negative for a validated request with a non-negative traffic score. */
  lemma RiskMultiplierNonNegative(r: CollisionRiskRequest, debris: real, traffic: real, altitude: real, duration: real)
    ensures debris >= 0.0 && traffic >= 0.0 && altitude >= 0.0 && duration >= 0.0 && r.satelliteCount >= 0
            ==> RiskMultiplier(r, debris, traffic, altitude, duration) >= 0.0
  {
    if debris >= 0.0 && traffic >= 0.0 && altitude >= 0.0 && duration >= 0.0 && r.satelliteCount >= 0 {
      var a := (debris / 50.0) * (traffic / 50.0);
      var b := a * (altitude / 50.0);
      var c := b * duration;
      var d := c * (r.satelliteCount as real / 100.0);
      var e := d * AvoidanceFactor(r.collisionAvoidance);
      assert a >= 0.0 && b >= 0.0 && c >= 0.0 && d >= 0.0 && e >= 0.0;
      assert e * SizeFactor(r.sizeCategory) >= 0.0;
    }
  }

  // ---------------------------------------------------------------------
  // Tier and recommendations
  // ---------------------------------------------------------------------

  /** Tier of a probability with strict upper thresholds 0.001, 0.01 and 0.1. */
  function DetermineRiskLevel(p: real): (r: RiskLevel)
    ensures r == Low <==> p < 0.001
    ensures r == Medium <==> 0.001 <= p < 0.01
    ensures r == High <==> 0.01 <= p < 0.1
    ensures r == Critical <==> 0.1 <= p
  {
    if p < 0.001 then Low
    else if p < 0.01 then Medium
    else if p < 0.1 then High
    else Critical
  }

  function Rank(l: RiskLevel): nat {
    match l
    case Low => 0
    case Medium => 1
    case High => 2
    case Critical => 3
  }

  /** A larger probability never gets a lower tier. */
  lemma RiskLevelMonotone(p: real, q: real)
    requires p <= q
    ensures Rank(DetermineRiskLevel(p)) <= Rank(DetermineRiskLevel(q))
  {
  }

  /** Each threshold belongs to the tier above it. */
  lemma RiskLevelBoundaries()
    ensures DetermineRiskLevel(0.001) == Medium
    ensures DetermineRiskLevel(0.01) == High
    ensures DetermineRiskLevel(0.1) == Critical
  {
  }

  const HighRiskAdvice: seq<string> := [
    "Implement active collision avoidance system",
    "Consider alternative orbital altitude with lower debris density",
    "Enhance tracking and monitoring capabilities"]
  const DebrisAdvice: seq<string> := [
    "Deploy debris mitigation technologies",
    "Coordinate with space traffic management authorities"]
  const TrafficAdvice: seq<string> := [
    "Implement constellation coordination protocols",
    "Consider phased deployment to reduce instantaneous risk"]
  const AvoidanceAdvice: seq<string> := [
    "Invest in collision avoidance propulsion systems"]
  const FleetAdvice: seq<string> := [
    "Develop automated fleet management systems",
    "Implement redundancy and graceful degradation strategies"]

  /** `xs` when the rule fires, nothing otherwise. */
  function When(fires: bool, xs: seq<string>): seq<string> {
    if fires then xs else []
  }

  function Count(fires: bool, n: nat): nat { if fires then n else 0 }

  /** The rule-based mitigation advice, rules appended in a fixed order. */
  function MitigationRecommendations(level: RiskLevel, r: CollisionRiskRequest, debrisScore: real, trafficScore: real): (recs: seq<string>)
    ensures |recs| == Count(level == High || level == Critical, 3) + Count(debrisScore > 70.0, 2)
                      + Count(trafficScore > 70.0, 2) + Count(r.collisionAvoidance != Some(true), 1)
                      + Count(r.satelliteCount > 1000, 2)
    ensures recs == [] <==>
      && level != High && level != Critical && debrisScore <= 70.0 && trafficScore <= 70.0
      && r.collisionAvoidance == Some(true) && r.satelliteCount <= 1000
    ensures (level == High || level == Critical) ==> recs[..3] == HighRiskAdvice
    ensures r.collisionAvoidance != Some(true) <==> AvoidanceAdvice[0] in recs
  {
    var recs := When(level == Critical || level == High, HighRiskAdvice)
      + When(debrisScore > 70.0, DebrisAdvice)
      + When(trafficScore > 70.0, TrafficAdvice)
      + When(r.collisionAvoidance != Some(true), AvoidanceAdvice)
      + When(r.satelliteCount > 1000, FleetAdvice);
    assert AvoidanceAdvice[0] !in HighRiskAdvice + DebrisAdvice + TrafficAdvice + FleetAdvice;
    recs
  }

  // ---------------------------------------------------------------------
  // The assessment
  // ---------------------------------------------------------------------

  /** Collision-risk assessment of a validated request given the database aggregates. */
  function AssessCollisionRisk(r: CollisionRiskRequest, shellLevel: Option<string>,
                               avgProbability: Option<real>, bandSatellites: int): (res: CollisionRiskResponse)
    ensures res.overallCollisionProbability <= 1.0
    ensures ValidCollisionRequest(r) && bandSatellites >= 0 ==> 0.0 <= res.overallCollisionProbability
    ensures res.riskLevel == DetermineRiskLevel(res.overallCollisionProbability)
    ensures res.factors.debrisDensityScore == ShellDebrisScore(shellLevel)
    ensures res.factors.trafficDensityScore == TrafficDensityScore(bandSatellites, r.altitudeKm)
    ensures res.factors.altitudeRiskScore == AltitudeRiskScore(r.altitudeKm)
    ensures res.factors.missionDurationImpact == MissionDurationImpact(r.missionDurationYears)
    ensures (res.riskLevel == High || res.riskLevel == Critical) ==> |res.mitigationRecommendations| >= 3
    ensures res.mitigationRecommendations ==
              MitigationRecommendations(res.riskLevel, r, res.factors.debrisDensityScore, res.factors.trafficDensityScore)
    ensures res.confidenceLevel == 0.75
  {
    var debris := ShellDebrisScore(shellLevel);
    var traffic := TrafficDensityScore(bandSatellites, r.altitudeKm);
    var altitude := AltitudeRiskScore(r.altitudeKm);
    var duration := MissionDurationImpact(r.missionDurationYears);
    var base := BaseProbability(avgProbability);
    var multiplier := RiskMultiplier(r, debris, traffic, altitude, duration);
    var p := Min(1.0, base * multiplier);
    var level := DetermineRiskLevel(p);
    RiskMultiplierNonNegative(r, debris, traffic, altitude, duration);
    CollisionRiskResponse(p, level, ContributingFactors(debris, traffic, altitude, duration),
                          MitigationRecommendations(level, r, debris, traffic), 0.75)
  }

  /** The probability is the clamped product of the base probability and the multiplier. */
  lemma ProbabilityIsClampedProduct(r: CollisionRiskRequest, shellLevel: Option<string>,
                                    avgProbability: Option<real>, bandSatellites: int)
    ensures var res := AssessCollisionRisk(r, shellLevel, avgProbability, bandSatellites);
            var m := RiskMultiplier(r, res.factors.debrisDensityScore, res.factors.trafficDensityScore,
                                    res.factors.altitudeRiskScore, res.factors.missionDurationImpact);
            res.overallCollisionProbability == Min(1.0, BaseProbability(avgProbability) * m)
  {
  }

  /** Collision avoidance never raises the probability compared with declaring none. */
  lemma AvoidanceLowersProbability(r: CollisionRiskRequest, shellLevel: Option<string>,
                                   avgProbability: Option<real>, bandSatellites: int)
    requires ValidCollisionRequest(r) && bandSatellites >= 0
    ensures AssessCollisionRisk(r.(collisionAvoidance := Some(true)), shellLevel, avgProbability, bandSatellites).overallCollisionProbability
         <= AssessCollisionRisk(r.(collisionAvoidance := None), shellLevel, avgProbability, bandSatellites).overallCollisionProbability
  {
    var debris := ShellDebrisScore(shellLevel);
    var traffic := TrafficDensityScore(bandSatellites, r.altitudeKm);
    var altitude := AltitudeRiskScore(r.altitudeKm);
    var duration := MissionDurationImpact(r.missionDurationYears);
    var rt := r.(collisionAvoidance := Some(true));
    var rn := r.(collisionAvoidance := None);
    var base := BaseProbability(avgProbability);
    var mt := RiskMultiplier(rt, debris, traffic, altitude, duration);
    var mn := RiskMultiplier(rn, debris, traffic, altitude, duration);
    RiskMultiplierNonNegative(rn, debris, traffic, altitude, duration);
    MultiplierWithAvoidance(r, debris, traffic, altitude, duration);
    assert mt == mn * 0.3;
    ScaleDown(base, mn);
    ProbabilityIsClampedProduct(rt, shellLevel, avgProbability, bandSatellites);
    ProbabilityIsClampedProduct(rn, shellLevel, avgProbability, bandSatellites);
  }

  /** Declaring avoidance scales the multiplier of a request that declares nothing by 0.3. */
  lemma MultiplierWithAvoidance(r: CollisionRiskRequest, debris: real, traffic: real, altitude: real, duration: real)
    ensures RiskMultiplier(r.(collisionAvoidance := Some(true)), debris, traffic, altitude, duration)
         == RiskMultiplier(r.(collisionAvoidance := None), debris, traffic, altitude, duration) * 0.3
  {
    var common := (debris / 50.0) * (traffic / 50.0) * (altitude / 50.0) * duration
                  * (r.satelliteCount as real / 100.0);
    var sz := SizeFactor(r.sizeCategory);
    assert RiskMultiplier(r.(collisionAvoidance := Some(true)), debris, traffic, altitude, duration) == common * 0.3 * sz;
    assert RiskMultiplier(r.(collisionAvoidance := None), debris, traffic, altitude, duration) == common * 1.0 * sz;
  }

  lemma ScaleDown(base: real, m: real)
    requires base >= 0.0 && m >= 0.0
    ensures Min(1.0, base * (m * 0.3)) <= Min(1.0, base * m)
  {
    assert base * (m * 0.3) == (base * m) * 0.3;
  }
}

=== FILE: cost_estimate.dfy ===
/** Cost estimation: each selected component is scaled to the request, added to
    its bucket, and folded into the uncertainty, the cost-weighted confidence
    and the list of assumptions; insurance is added when required. */
module CostEstimate {
  import opened Wrappers
  import opened Strings
  import opened MathLib
  import opened CostTypes
  import opened CostValidators

  function Min(a: real, b: real): real { if a <= b then a else b }
  function Max(a: real, b: real): real { if a >= b then a else b }

  /** The own keys of the breakdown object. */
  const Buckets: map<string, Category> := map[
    "development" := Development, "manufacturing" := Manufacturing, "launch" := Launch,
    "operations" := Operations, "insurance" := InsuranceCost, "deorbit" := DeorbitCost,
    "regulatory" := Regulatory]

  /** The bucket named by the lower-cased category, when the breakdown has such a key. */
  function CategoryOf(category: string): (c: Option<Category>)
    ensures c.Some? <==> ToLower(category) in Buckets
    ensures c.Some? ==> Buckets[ToLower(category)] == c.value
  {
    var k := ToLower(category);
    if k in Buckets then Some(Buckets[k]) else None
  }

  /** The row filter of the component query: the category is among the requested
      ones (all, when none were requested) and the mission type is applicable. */
  predicate Selected(c: CostComponent, r: CostEstimateRequest) {
    && (r.costCategories.None? || c.category in r.costCategories.value)
    && r.missionType in c.applicableMissionTypes
  }

  function SelectComponents(rows: seq<CostComponent>, r: CostEstimateRequest): (s: seq<CostComponent>)
    ensures |s| <= |rows|
    ensures forall c :: c in s <==> c in rows && Selected(c, r)
  {
    if rows == [] then []
    else (if Selected(rows[0], r) then [rows[0]] else []) + SelectComponents(rows[1..], r)
  }

  /** Normalised around 500 kg and clamped to [0.5, 2]. */
  function MassMultiplier(massKg: real): (m: real)
    ensures 0.5 <= m <= 2.0
    ensures 250.0 <= massKg <= 1000.0 ==> m == massKg / 500.0
    ensures massKg <= 250.0 ==> m == 0.5
    ensures massKg >= 1000.0 ==> m == 2.0
  {
    Max(0.5, Min(2.0, massKg / 500.0))
  }

  /** Base cost plus, for a fleet and a truthy per-unit cost, the scaled cost of the additional units. */
  function UnitScaledCost(t: Transcendentals, c: CostComponent, n: int): (s: real)
    ensures (n <= 1 || !TruthyNum(c.costPerUnit)) ==> s == c.baseCostUsd
  {
    if TruthyNum(c.costPerUnit) && n > 1 then
      var additional := n - 1;
      var scaling := t.pow(c.costScalingFactor, t.ln((additional + 1) as real));
      c.baseCostUsd + c.costPerUnit.value * additional as real * scaling
    else c.baseCostUsd
  }

  predicate MassScaled(cat: Category) { cat == Manufacturing || cat == Launch }

  /** The component's cost for this request once it sits in bucket `cat`. */
  function ScaledCost(t: Transcendentals, r: CostEstimateRequest, c: CostComponent, cat: Category): (s: real)
    ensures cat == Operations && TruthyNum(r.durationYears) ==>
              s == UnitScaledCost(t, c, r.satelliteCount) * r.durationYears.value
    ensures MassScaled(cat) && TruthyNum(r.massKg) ==>
              s == UnitScaledCost(t, c, r.satelliteCount) * MassMultiplier(r.massKg.value)
    ensures (cat != Operations || !TruthyNum(r.durationYears)) && (!MassScaled(cat) || !TruthyNum(r.massKg)) ==>
              s == UnitScaledCost(t, c, r.satelliteCount)
  {
    var s1 := UnitScaledCost(t, c, r.satelliteCount);
    var s2 := if TruthyNum(r.durationYears) && cat == Operations then s1 * r.durationYears.value else s1;
    if TruthyNum(r.massKg) && MassScaled(cat) then s2 * MassMultiplier(r.massKg.value) else s2
  }

  /** One entry of the assumptions list. */
  function Assumption(c: CostComponent): string {
    c.name + ": Based on "
      + (if TruthyNum(c.confidenceLevel) then IntToString(Round(c.confidenceLevel.value * 100.0)) + "% confidence"
         else "industry estimates")
  }

  /** The running totals of the component loop. */
  datatype Acc = Acc(
    breakdown: Breakdown,
    uncertainty: real,
    weightedConfidence: real,
    totalWeight: real,
    assumptions: seq<string>)

  const EmptyAcc := Acc(ZeroBreakdown, 0.0, 0.0, 0.0, [])

  /** One iteration of the loop: a component whose category has no bucket is skipped. */
  function Step(t: Transcendentals, r: CostEstimateRequest, acc: Acc, c: CostComponent): Acc {
    match CategoryOf(c.category)
    case None => acc
    case Some(cat) =>
      var s := ScaledCost(t, r, c, cat);
      Acc(acc.breakdown.Add(cat, s),
          acc.uncertainty + (if TruthyNum(c.uncertaintyPercentage) then s * c.uncertaintyPercentage.value / 100.0 else 0.0),
          acc.weightedConfidence + (if TruthyNum(c.confidenceLevel) then c.confidenceLevel.value * s else 0.0),
          acc.totalWeight + (if TruthyNum(c.confidenceLevel) then s else 0.0),
          acc.assumptions + [Assumption(c)])
  }

  function Accumulate(t: Transcendentals, r: CostEstimateRequest, acc: Acc, cs: seq<CostComponent>): Acc
    decreases |cs|
  {
    if cs == [] then acc else Accumulate(t, r, Step(t, r, acc, cs[0]), cs[1..])
  }

  // Reference definitions: what each running total sums, component by component.

  function CostIn(t: Transcendentals, r: CostEstimateRequest, c: CostComponent, cat: Category): real {
    if CategoryOf(c.category) == Some(cat) then ScaledCost(t, r, c, cat) else 0.0
  }

  function BucketSum(t: Transcendentals, r: CostEstimateRequest, cs: seq<CostComponent>, cat: Category): real {
    if cs == [] then 0.0 else CostIn(t, r, cs[0], cat) + BucketSum(t, r, cs[1..], cat)
  }

  function AcceptedCost(t: Transcendentals, r: CostEstimateRequest, c: CostComponent): real {
    match CategoryOf(c.category)
    case None => 0.0
    case Some(k) => ScaledCost(t, r, c, k)
  }

  function AcceptedSum(t: Transcendentals, r: CostEstimateRequest, cs: seq<CostComponent>): real {
    if cs == [] then 0.0 else AcceptedCost(t, r, cs[0]) + AcceptedSum(t, r, cs[1..])
  }

  function UncertaintyOf(t: Transcendentals, r: CostEstimateRequest, c: CostComponent): real {
    match CategoryOf(c.category)
    case None => 0.0
    case Some(k) =>
      if TruthyNum(c.uncertaintyPercentage) then ScaledCost(t, r, c, k) * c.uncertaintyPercentage.value / 100.0 else 0.0
  }

  function UncertaintySum(t: Transcendentals, r: CostEstimateRequest, cs: seq<CostComponent>): real {
    if cs == [] then 0.0 else UncertaintyOf(t, r, cs[0]) + UncertaintySum(t, r, cs[1..])
  }

  function WeightOf(t: Transcendentals, r: CostEstimateRequest, c: CostComponent): real {
    match CategoryOf(c.category)
    case None => 0.0
    case Some(k) => if TruthyNum(c.confidenceLevel) then ScaledCost(t, r, c, k) else 0.0
  }

  function WeightSum(t: Transcendentals, r: CostEstimateRequest, cs: seq<CostComponent>): real {
    if cs == [] then 0.0 else WeightOf(t, r, cs[0]) + WeightSum(t, r, cs[1..])
  }

  function WeightedConfidenceOf(t: Transcendentals, r: CostEstimateRequest, c: CostComponent): real {
    match CategoryOf(c.category)
    case None => 0.0
    case Some(k) => if TruthyNum(c.confidenceLevel) then c.confidenceLevel.value * ScaledCost(t, r, c, k) else 0.0
  }

  function WeightedConfidenceSum(t: Transcendentals, r: CostEstimateRequest, cs: seq<CostComponent>): real {
    if cs == [] then 0.0 else WeightedConfidenceOf(t, r, cs[0]) + WeightedConfidenceSum(t, r, cs[1..])
  }

  /** The components that have a bucket, in order. */
  function Accepted(cs: seq<CostComponent>): (s: seq<CostComponent>)
    ensures |s| <= |cs|
    ensures forall c :: c in s <==> c in cs && CategoryOf(c.category).Some?
  {
    if cs == [] then []
    else (if CategoryOf(cs[0].category).Some? then [cs[0]] else []) + Accepted(cs[1..])
  }

  function Assumptions(cs: seq<CostComponent>): (s: seq<string>)
    ensures |s| == |cs|
    ensures forall i :: 0 <= i < |cs| ==> s[i] == Assumption(cs[i])
  {
    if cs == [] then [] else [Assumption(cs[0])] + Assumptions(cs[1..])
  }

  lemma AddTotal(b: Breakdown, c: Category, x: real)
    ensures b.Add(c, x).Total() == b.Total() + x
  {
  }

  /** One step adds the component's reference contribution to every running total. */
  lemma StepAdds(t: Transcendentals, r: CostEstimateRequest, acc: Acc, c: CostComponent)
    ensures var a := Step(t, r, acc, c);
      && (forall cat :: a.breakdown.Get(cat) == acc.breakdown.Get(cat) + CostIn(t, r, c, cat))
      && a.breakdown.Total() == acc.breakdown.Total() + AcceptedCost(t, r, c)
      && a.uncertainty == acc.uncertainty + UncertaintyOf(t, r, c)
      && a.totalWeight == acc.totalWeight + WeightOf(t, r, c)
      && a.weightedConfidence == acc.weightedConfidence + WeightedConfidenceOf(t, r, c)
  {
    match CategoryOf(c.category)
    case None =>
    case Some(k) =>
      AddTotal(acc.breakdown, k, ScaledCost(t, r, c, k));
  }

  /** The loop's buckets are the per-bucket sums of the scaled costs. */
  lemma {:induction false} BucketsAreSums(t: Transcendentals, r: CostEstimateRequest, acc: Acc, cs: seq<CostComponent>, cat: Category)
    ensures Accumulate(t, r, acc, cs).breakdown.Get(cat) == acc.breakdown.Get(cat) + BucketSum(t, r, cs, cat)
    decreases |cs|
  {
    if cs != [] {
      StepAdds(t, r, acc, cs[0]);
      BucketsAreSums(t, r, Step(t, r, acc, cs[0]), cs[1..], cat);
    }
  }

  /** The loop's total is the sum of the scaled costs of the accepted components. */
  lemma {:induction false} TotalIsAcceptedSum(t: Transcendentals, r: CostEstimateRequest, acc: Acc, cs: seq<CostComponent>)
    ensures Accumulate(t, r, acc, cs).breakdown.Total() == acc.breakdown.Total() + AcceptedSum(t, r, cs)
    decreases |cs|
  {
    if cs != [] {
      StepAdds(t, r, acc, cs[0]);
      TotalIsAcceptedSum(t, r, Step(t, r, acc, cs[0]), cs[1..]);
    }
  }

  /** The loop's uncertainty and confidence weights are the reference sums. */
  lemma {:induction false} WeightsAreSums(t: Transcendentals, r: CostEstimateRequest, acc: Acc, cs: seq<CostComponent>)
    ensures var a := Accumulate(t, r, acc, cs);
      && a.uncertainty == acc.uncertainty + UncertaintySum(t, r, cs)
      && a.totalWeight == acc.totalWeight + WeightSum(t, r, cs)
      && a.weightedConfidence == acc.weightedConfidence + WeightedConfidenceSum(t, r, cs)
    decreases |cs|
  {
    if cs != [] {
      StepAdds(t, r, acc, cs[0]);
      WeightsAreSums(t, r, Step(t, r, acc, cs[0]), cs[1..]);
    }
  }

  lemma StepAssumptions(t: Transcendentals, r: CostEstimateRequest, acc: Acc, c: CostComponent)
    ensures Step(t, r, acc, c).assumptions == acc.assumptions + Assumptions(Accepted([c]))
  {
    assert [c][1..] == [];
  }

  lemma AppendAssoc<T>(a: seq<T>, b: seq<T>, d: seq<T>)
    ensures a + b + d == a + (b + d)
  {
  }

  lemma AssumptionsAppend(xs: seq<CostComponent>, ys: seq<CostComponent>)
    ensures Assumptions(xs + ys) == Assumptions(xs) + Assumptions(ys)
  {
    var l := Assumptions(xs + ys);
    var rr := Assumptions(xs) + Assumptions(ys);
    assert |l| == |rr|;
    forall i | 0 <= i < |l| ensures l[i] == rr[i] {
      if i < |xs| {
        assert (xs + ys)[i] == xs[i];
      } else {
        assert (xs + ys)[i] == ys[i - |xs|];
      }
    }
  }

  lemma AcceptedCons(cs: seq<CostComponent>)
    requires cs != []
    ensures Accepted(cs) == Accepted([cs[0]]) + Accepted(cs[1..])
  {
    assert [cs[0]][1..] == [];
  }

  /** Every accepted component adds exactly one assumption, in order, and no other component adds any. */
  lemma {:induction false} AssumptionsOfAccepted(t: Transcendentals, r: CostEstimateRequest, acc: Acc, cs: seq<CostComponent>)
    ensures Accumulate(t, r, acc, cs).assumptions == acc.assumptions + Assumptions(Accepted(cs))
    decreases |cs|
  {
    if cs != [] {
      var c := cs[0];
      var next := Step(t, r, acc, c);
      AssumptionsOfAccepted(t, r, next, cs[1..]);
      StepAssumptions(t, r, acc, c);
      AcceptedCons(cs);
      AssumptionsAppend(Accepted([c]), Accepted(cs[1..]));
      AppendAssoc(acc.assumptions, Assumptions(Accepted([c])), Assumptions(Accepted(cs[1..])));
    }
  }

  /** A component without a bucket changes nothing: not the costs, the
      uncertainty, the confidence, nor the assumptions. */
  lemma {:induction false} RejectedContributeNothing(t: Transcendentals, r: CostEstimateRequest, acc: Acc, cs: seq<CostComponent>)
    ensures Accumulate(t, r, acc, cs) == Accumulate(t, r, acc, Accepted(cs))
    decreases |cs|
  {
    if cs != [] {
      var c := cs[0];
      RejectedContributeNothing(t, r, Step(t, r, acc, c), cs[1..]);
      if CategoryOf(c.category).Some? {
        var s := Accepted(cs);
        assert s == [c] + Accepted(cs[1..]);
        assert s[0] == c && s[1..] == Accepted(cs[1..]);
      } else {
        assert Step(t, r, acc, c) == acc;
        assert Accepted(cs) == Accepted(cs[1..]);
      }
    }
  }

  /** Flat-rate insurance: $5M per satellite at 8% a year over the mission (5 years by default). */
  function InsuranceEstimate(r: CostEstimateRequest): (x: real)
    ensures x == r.satelliteCount as real * 400000.0 * OrNum(r.durationYears, 5.0)
  {
    var satelliteValue := r.satelliteCount as real * 5000000.0;
    var months := OrNum(r.durationYears, 5.0) * 12.0;
    satelliteValue * 0.08 * months / 12.0
  }

  function InsuranceAdded(r: CostEstimateRequest): real {
    if TruthyBool(r.insuranceRequired) then InsuranceEstimate(r) else 0.0
  }

  /** The response built from the loop's totals: insurance, totals, confidence and range. */
  function Finish(r: CostEstimateRequest, a: Acc): (res: CostEstimateResponse)
    requires r.satelliteCount >= 1
    ensures res.totalCostUsd == res.breakdown.Total()
    ensures res.totalCostUsd == a.breakdown.Total() + InsuranceAdded(r)
    ensures res.breakdown.insurance == a.breakdown.insurance + InsuranceAdded(r)
    ensures forall cat :: cat != InsuranceCost ==> res.breakdown.Get(cat) == a.breakdown.Get(cat)
    ensures res.costPerSatelliteUsd * r.satelliteCount as real == res.totalCostUsd
    ensures res.minCostUsd >= 0.0
  {
    var breakdown := if TruthyBool(r.insuranceRequired) then a.breakdown.Add(InsuranceCost, InsuranceEstimate(r)) else a.breakdown;
    AddTotal(a.breakdown, InsuranceCost, InsuranceEstimate(r));
    var total := breakdown.Total();
    var confidence := if a.totalWeight > 0.0 then a.weightedConfidence / a.totalWeight else 0.75;
    var u := if a.uncertainty != 0.0 then a.uncertainty else total * 0.15;
    CostEstimateResponse(total, breakdown, total / r.satelliteCount as real,
                         Max(0.0, total - u), total + u, a.assumptions, confidence)
  }

  /** The estimate for a validated request over the rows of `cost_components`. */
  function GenerateCostEstimate(t: Transcendentals, r: CostEstimateRequest, rows: seq<CostComponent>): (res: CostEstimateResponse)
    requires ValidCostEstimateRequest(r)
    ensures res.totalCostUsd == res.breakdown.Total()
    ensures res.costPerSatelliteUsd * r.satelliteCount as real == res.totalCostUsd
    ensures res.minCostUsd >= 0.0
  {
    Finish(r, Accumulate(t, r, EmptyAcc, SelectComponents(rows, r)))
  }

  /** Each bucket holds the scaled costs of its selected components, and the
      insurance bucket also the flat insurance estimate when it is required. */
  lemma EstimateBuckets(t: Transcendentals, r: CostEstimateRequest, rows: seq<CostComponent>)
    requires ValidCostEstimateRequest(r)
    ensures var res := GenerateCostEstimate(t, r, rows);
      var cs := SelectComponents(rows, r);
      && (forall cat :: cat != InsuranceCost ==> res.breakdown.Get(cat) == BucketSum(t, r, cs, cat))
      && res.breakdown.insurance == BucketSum(t, r, cs, InsuranceCost) + InsuranceAdded(r)
  {
    var cs := SelectComponents(rows, r);
    forall cat: Category ensures Accumulate(t, r, EmptyAcc, cs).breakdown.Get(cat) == BucketSum(t, r, cs, cat) {
      BucketsAreSums(t, r, EmptyAcc, cs, cat);
    }
  }

  /** The total is the scaled cost of every accepted component plus the insurance added. */
  lemma EstimateTotal(t: Transcendentals, r: CostEstimateRequest, rows: seq<CostComponent>)
    requires ValidCostEstimateRequest(r)
    ensures GenerateCostEstimate(t, r, rows).totalCostUsd == AcceptedSum(t, r, SelectComponents(rows, r)) + InsuranceAdded(r)
  {
    TotalIsAcceptedSum(t, r, EmptyAcc, SelectComponents(rows, r));
  }

  /** One assumption per accepted component, in order. */
  lemma EstimateAssumptions(t: Transcendentals, r: CostEstimateRequest, rows: seq<CostComponent>)
    requires ValidCostEstimateRequest(r)
    ensures GenerateCostEstimate(t, r, rows).assumptions == Assumptions(Accepted(SelectComponents(rows, r)))
  {
    AssumptionsOfAccepted(t, r, EmptyAcc, SelectComponents(rows, r));
  }

  /** The confidence is the cost-weighted average, or 0.75 when no weight accumulated;
      the range is the total widened by the summed uncertainty, or by 15% when that sum is 0. */
  lemma EstimateConfidenceAndRange(t: Transcendentals, r: CostEstimateRequest, rows: seq<CostComponent>)
    requires ValidCostEstimateRequest(r)
    ensures var res := GenerateCostEstimate(t, r, rows);
      var cs := SelectComponents(rows, r);
      && (WeightSum(t, r, cs) > 0.0 ==> res.confidenceLevel == WeightedConfidenceSum(t, r, cs) / WeightSum(t, r, cs))
      && (WeightSum(t, r, cs) <= 0.0 ==> res.confidenceLevel == 0.75)
      && var u := if UncertaintySum(t, r, cs) != 0.0 then UncertaintySum(t, r, cs) else res.totalCostUsd * 0.15;
         res.minCostUsd == Max(0.0, res.totalCostUsd - u) && res.maxCostUsd == res.totalCostUsd + u
  {
    WeightsAreSums(t, r, EmptyAcc, SelectComponents(rows, r));
  }

  /** The uncertainty range brackets a non-negative total whenever the summed uncertainty is not negative. */
  lemma RangeBracketsTotal(t: Transcendentals, r: CostEstimateRequest, rows: seq<CostComponent>)
    requires ValidCostEstimateRequest(r)
    requires UncertaintySum(t, r, SelectComponents(rows, r)) >= 0.0
    ensures var res := GenerateCostEstimate(t, r, rows);
            res.totalCostUsd >= 0.0 ==> res.minCostUsd <= res.totalCostUsd <= res.maxCostUsd
  {
    EstimateConfidenceAndRange(t, r, rows);
  }

  /** Under non-negative weights, a weighted sum of confidences in [0, 1] lies between 0 and the weight. */
  lemma {:induction false} WeightedSumBounded(t: Transcendentals, r: CostEstimateRequest, cs: seq<CostComponent>)
    requires forall c :: c in cs ==> 0.0 <= WeightedConfidenceOf(t, r, c) <= WeightOf(t, r, c)
    ensures 0.0 <= WeightedConfidenceSum(t, r, cs) <= WeightSum(t, r, cs)
    decreases |cs|
  {
    if cs != [] {
      assert cs[0] in cs;
      WeightedSumBounded(t, r, cs[1..]);
    }
  }

  /** When every weighted component has a confidence in [0, 1] and a non-negative
      cost, the overall confidence is in [0, 1]. */
  lemma ConfidenceInUnitInterval(t: Transcendentals, r: CostEstimateRequest, rows: seq<CostComponent>)
    requires ValidCostEstimateRequest(r)
    requires forall c :: c in rows && CategoryOf(c.category).Some? && TruthyNum(c.confidenceLevel) ==>
               0.0 <= c.confidenceLevel.value <= 1.0 && ScaledCost(t, r, c, CategoryOf(c.category).value) >= 0.0
    ensures 0.0 <= GenerateCostEstimate(t, r, rows).confidenceLevel <= 1.0
  {
    var cs := SelectComponents(rows, r);
    forall c | c in cs
      ensures 0.0 <= WeightedConfidenceOf(t, r, c) <= WeightOf(t, r, c)
    {
      assert c in rows;
      ComponentWeightBounded(t, r, c);
    }
    WeightedSumBounded(t, r, cs);
    EstimateConfidenceAndRange(t, r, rows);
    var w := WeightSum(t, r, cs);
    var wc := WeightedConfidenceSum(t, r, cs);
    if w > 0.0 {
      RatioAtMostOne(wc, w);
    }
  }

  lemma ComponentWeightBounded(t: Transcendentals, r: CostEstimateRequest, c: CostComponent)
    requires CategoryOf(c.category).Some? && TruthyNum(c.confidenceLevel) ==>
               0.0 <= c.confidenceLevel.value <= 1.0 && ScaledCost(t, r, c, CategoryOf(c.category).value) >= 0.0
    ensures 0.0 <= WeightedConfidenceOf(t, r, c) <= WeightOf(t, r, c)
  {
    match CategoryOf(c.category)
    case None =>
    case Some(k) =>
      if TruthyNum(c.confidenceLevel) {
        var x := ScaledCost(t, r, c, k);
        assert WeightOf(t, r, c) == x;
        assert WeightedConfidenceOf(t, r, c) == c.confidenceLevel.value * x;
        ScaleWithin(c.confidenceLevel.value, x);
        assert 0.0 <= c.confidenceLevel.value * x <= x;
        assert 0.0 <= WeightedConfidenceOf(t, r, c);
        assert WeightedConfidenceOf(t, r, c) <= WeightOf(t, r, c);
      }
  }

  lemma ScaleWithin(k: real, s: real)
    requires 0.0 <= k <= 1.0 && s >= 0.0
    ensures 0.0 <= k * s <= s
  {
  }

  lemma RatioAtMostOne(a: real, b: real)
    requires 0.0 <= a <= b && b > 0.0
    ensures 0.0 <= a / b <= 1.0
  {
    assert a / b * b == a;
  }
}

=== FILE: cost_types.dfy ===
/** Rows and requests of the cost service. Database rows arrive already read;
    numeric columns that the row mapping reads only when truthy are `Option`s. */
module CostTypes {
  import opened Wrappers

  /** The seven buckets of a cost breakdown. */
  datatype Category = Development | Manufacturing | Launch | Operations | InsuranceCost | DeorbitCost | Regulatory

  /** A row of `cost_components`. */
  datatype CostComponent = CostComponent(
    name: string,
    category: string,
    baseCostUsd: real,
    costPerUnit: Option<real>,
    costScalingFactor: real,
    uncertaintyPercentage: Option<real>,
    applicableMissionTypes: seq<string>,
    confidenceLevel: Option<real>)

  /** A validated cost-estimate request. */
  datatype CostEstimateRequest = CostEstimateRequest(
    missionType: string,
    satelliteCount: int,
    massKg: Option<real>,
    durationYears: Option<real>,
    altitudeKm: Option<real>,
    launchVehicle: Option<string>,
    insuranceRequired: Option<bool>,
    costCategories: Option<seq<string>>)

  datatype Breakdown = Breakdown(
    development: real,
    manufacturing: real,
    launch: real,
    operations: real,
    insurance: real,
    deorbit: real,
    regulatory: real)
  {
    function Get(c: Category): real {
      match c
      case Development => development
      case Manufacturing => manufacturing
      case Launch => launch
      case Operations => operations
      case InsuranceCost => insurance
      case DeorbitCost => deorbit
      case Regulatory => regulatory
    }

    /** The breakdown with `x` added to bucket `c`. */
    function Add(c: Category, x: real): (b: Breakdown)
      ensures b.Get(c) == Get(c) + x
      ensures forall d :: d != c ==> b.Get(d) == Get(d)
    {
      match c
      case Development => this.(development := development + x)
      case Manufacturing => this.(manufacturing := manufacturing + x)
      case Launch => this.(launch := launch + x)
      case Operations => this.(operations := operations + x)
      case InsuranceCost => this.(insurance := insurance + x)
      case DeorbitCost => this.(deorbit := deorbit + x)
      case Regulatory => this.(regulatory := regulatory + x)
    }

    function Total(): real {
      development + manufacturing + launch + operations + insurance + deorbit + regulatory
    }
  }

  const ZeroBreakdown := Breakdown(0.0, 0.0, 0.0, 0.0, 0.0, 0.0, 0.0)

  datatype CostEstimateResponse = CostEstimateResponse(
    totalCostUsd: real,
    breakdown: Breakdown,
    costPerSatelliteUsd: real,
    minCostUsd: real,
    maxCostUsd: real,
    assumptions: seq<string>,
    confidenceLevel: real)

  /** A row of `insurance_models`; the value bounds are the raw, nullable columns. */
  datatype InsuranceModel = InsuranceModel(
    modelName: string,
    coverageType: string,
    basePremiumRate: real,
    coverageAmountUsd: real,
    deductibleUsd: real,
    exclusions: seq<string>,
    minimumValueUsd: Option<real>,
    maximumValueUsd: Option<real>,
    active: bool)

  /** A validated insurance-quote request. */
  datatype InsuranceQuoteRequest = InsuranceQuoteRequest(
    coverageType: string,
    satelliteValueUsd: real,
    durationMonths: int,
    altitudeKm: Option<real>,
    launchVehicle: Option<string>,
    collisionAvoidance: Option<bool>)

  datatype InsuranceQuoteResponse = InsuranceQuoteResponse(
    coverageType: string,
    premiumUsd: real,
    coverageAmountUsd: real,
    deductibleUsd: real,
    policyDurationMonths: int,
    premiumRate: real,
    riskAdjustments: seq<(AdjustmentKey, real)>,
    exclusions: seq<string>)

  /** Keys of the risk-adjustments record: `altitude_risk`, `collision_avoidance`, `launch_vehicle`. */
  datatype AdjustmentKey = AltitudeRisk | CollisionAvoidance | LaunchVehicle

  /** The error the quote raises when no model matches. */
  datatype QuoteError = NoModelFound(coverageType: string, satelliteValueUsd: real)
}

=== FILE: cost_validators.dfy ===
/** The request schemas of the cost endpoints. */
module CostValidators {
  import opened Wrappers
  import opened Validation
  import opened CostTypes

  const CategoryNames: seq<string> :=
    ["DEVELOPMENT", "MANUFACTURING", "LAUNCH", "OPERATIONS", "INSURANCE", "DEORBIT", "REGULATORY"]

  const CoverageTypes: seq<string> :=
    ["PRE_LAUNCH", "LAUNCH", "IN_ORBIT_LIFE", "THIRD_PARTY_LIABILITY", "COMPREHENSIVE"]

  /** A cost-estimate body as parsed from JSON. */
  datatype CostEstimateBody = CostEstimateBody(
    missionType: Option<string>,
    satelliteCount: Option<real>,
    massKg: Option<real>,
    durationYears: Option<real>,
    altitudeKm: Option<real>,
    launchVehicle: Option<string>,
    insuranceRequired: Option<bool>,
    costCategories: Option<seq<string>>,
    /** The body's properties the schema does not declare, in order. */
    unknownKeys: seq<string>)

  predicate CategoriesOk(o: Option<seq<string>>) {
    o.None? || forall i :: 0 <= i < |o.value| ==> o.value[i] in CategoryNames
  }

  /** The keys the schema declares, in schema order. */
  function CostEstimateDeclared(b: CostEstimateBody): seq<Check> {
    [ Check("mission_type", RequiredString(b.missionType, 3, 100)),
      Check("satellite_count", RequiredIntIn(b.satelliteCount, 1, 100000)),
      Check("satellite_mass_kg", OptionalPositive(b.massKg, 10000.0)),
      Check("mission_duration_years", OptionalPositive(b.durationYears, 50.0)),
      Check("orbital_altitude_km", OptionalIn(b.altitudeKm, 150.0, 50000.0)),
      Check("launch_vehicle_type", OptionalString(b.launchVehicle, 0, 100)),
      Check("cost_categories", CategoriesOk(b.costCategories)) ]
  }

  /** The declared keys, then every property the schema does not declare. */
  function CostEstimateChecks(b: CostEstimateBody): seq<Check> {
    CostEstimateDeclared(b) + UnknownKeys(b.unknownKeys)
  }

  /** What a cost-estimate request satisfies once it has passed its schema. */
  predicate ValidCostEstimateRequest(r: CostEstimateRequest) {
    && 3 <= JsLength(r.missionType) <= 100
    && 1 <= r.satelliteCount <= 100000
    && (r.massKg.None? || 0.0 < r.massKg.value <= 10000.0)
    && (r.durationYears.None? || 0.0 < r.durationYears.value <= 50.0)
    && (r.altitudeKm.None? || 150.0 <= r.altitudeKm.value <= 50000.0)
    && (r.launchVehicle.None? || 0 < JsLength(r.launchVehicle.value) <= 100)
    && CategoriesOk(r.costCategories)
  }

  /** `costEstimateSchema.validate`. */
  function ValidateCostEstimate(b: CostEstimateBody): (r: Result<CostEstimateRequest, string>)
    ensures r.Success? <==>
      && b.missionType.Some? && 3 <= JsLength(b.missionType.value) <= 100
      && b.satelliteCount.Some? && IsInteger(b.satelliteCount.value)
      && 1.0 <= b.satelliteCount.value <= 100000.0
      && (b.massKg.None? || 0.0 < b.massKg.value <= 10000.0)
      && (b.durationYears.None? || 0.0 < b.durationYears.value <= 50.0)
      && (b.altitudeKm.None? || 150.0 <= b.altitudeKm.value <= 50000.0)
      && (b.launchVehicle.None? || 0 < JsLength(b.launchVehicle.value) <= 100)
      && CategoriesOk(b.costCategories)
      && b.unknownKeys == []
    ensures r.Success? ==>
      && r.value.missionType == b.missionType.value
      && r.value.satelliteCount as real == b.satelliteCount.value
      && r.value.massKg == b.massKg && r.value.durationYears == b.durationYears
      && r.value.altitudeKm == b.altitudeKm && r.value.launchVehicle == b.launchVehicle
      && r.value.insuranceRequired == b.insuranceRequired
      && r.value.costCategories == b.costCategories
    ensures r.Success? ==> ValidCostEstimateRequest(r.value)
    ensures r.Failure? ==> FirstError(CostEstimateChecks(b)) == Some(r.error)
  {
    match FirstError(CostEstimateChecks(b))
    case Some(f) => Failure(f)
    case None =>
      var cs := CostEstimateDeclared(b);
      UnknownKeysReported(cs, b.unknownKeys);
      assert cs[0].ok && cs[1].ok && cs[2].ok && cs[3].ok && cs[4].ok && cs[5].ok && cs[6].ok;
      Success(CostEstimateRequest(b.missionType.value, ToInt(b.satelliteCount.value), b.massKg,
                                  b.durationYears, b.altitudeKm, b.launchVehicle,
                                  b.insuranceRequired, b.costCategories))
  }

  /** An insurance-quote body as parsed from JSON. */
  datatype InsuranceQuoteBody = InsuranceQuoteBody(
    coverageType: Option<string>,
    satelliteValueUsd: Option<real>,
    durationMonths: Option<real>,
    altitudeKm: Option<real>,
    launchVehicle: Option<string>,
    collisionAvoidance: Option<bool>,
    /** The body's properties the schema does not declare, in order. */
    unknownKeys: seq<string>)

  /** The keys the schema declares, in schema order. */
  function InsuranceQuoteDeclared(b: InsuranceQuoteBody): seq<Check> {
    [ Check("coverage_type", b.coverageType.Some? && b.coverageType.value in CoverageTypes),
      Check("satellite_value_usd", RequiredPositive(b.satelliteValueUsd, 1000000000000.0)),
      Check("mission_duration_months", RequiredIntIn(b.durationMonths, 1, 600)),
      Check("orbital_altitude_km", OptionalIn(b.altitudeKm, 150.0, 50000.0)),
      Check("launch_vehicle_type", OptionalString(b.launchVehicle, 0, 100)) ]
  }

  /** The declared keys, then every property the schema does not declare. */
  function InsuranceQuoteChecks(b: InsuranceQuoteBody): seq<Check> {
    InsuranceQuoteDeclared(b) + UnknownKeys(b.unknownKeys)
  }

  predicate ValidInsuranceQuoteRequest(r: InsuranceQuoteRequest) {
    && r.coverageType in CoverageTypes
    && 0.0 < r.satelliteValueUsd <= 1000000000000.0
    && 1 <= r.durationMonths <= 600
    && (r.altitudeKm.None? || 150.0 <= r.altitudeKm.value <= 50000.0)
    && (r.launchVehicle.None? || 0 < JsLength(r.launchVehicle.value) <= 100)
  }

  /** `insuranceQuoteSchema.validate`. */
  function ValidateInsuranceQuote(b: InsuranceQuoteBody): (r: Result<InsuranceQuoteRequest, string>)
    ensures r.Success? <==>
      && b.coverageType.Some? && b.coverageType.value in CoverageTypes
      && b.satelliteValueUsd.Some? && 0.0 < b.satelliteValueUsd.value <= 1000000000000.0
      && b.durationMonths.Some? && IsInteger(b.durationMonths.value)
      && 1.0 <= b.durationMonths.value <= 600.0
      && (b.altitudeKm.None? || 150.0 <= b.altitudeKm.value <= 50000.0)
      && (b.launchVehicle.None? || 0 < JsLength(b.launchVehicle.value) <= 100)
      && b.unknownKeys == []
    ensures r.Success? ==>
      && r.value.coverageType == b.coverageType.value
      && r.value.satelliteValueUsd == b.satelliteValueUsd.value
      && r.value.durationMonths as real == b.durationMonths.value
      && r.value.altitudeKm == b.altitudeKm && r.value.launchVehicle == b.launchVehicle
      && r.value.collisionAvoidance == b.collisionAvoidance
    ensures r.Success? ==> ValidInsuranceQuoteRequest(r.value)
    ensures r.Failure? ==> FirstError(InsuranceQuoteChecks(b)) == Some(r.error)
  {
    match FirstError(InsuranceQuoteChecks(b))
    case Some(f) => Failure(f)
    case None =>
      var cs := InsuranceQuoteDeclared(b);
      UnknownKeysReported(cs, b.unknownKeys);
      assert cs[0].ok && cs[1].ok && cs[2].ok && cs[3].ok && cs[4].ok;
      Success(InsuranceQuoteRequest(b.coverageType.value, b.satelliteValueUsd.value,
                                    ToInt(b.durationMonths.value), b.altitudeKm,
                                    b.launchVehicle, b.collisionAvoidance))
  }
}

=== FILE: debris_density.dfy ===
/** The debris-density report of an altitude, after its four database reads.
    The reads become parameters: the level text of the matching shell (if any),
    last year's event count and the satellite and debris counts in the ±100 km band. */
module DebrisDensity {
  import opened Wrappers
  import opened SustainabilityTypes

  /** Fallback level when no shell contains the altitude. */
  function EstimateDebrisDensityLevel(altitude: real): (r: string)
    ensures altitude < 400.0 ==> r == "HIGH"
    ensures 400.0 <= altitude < 600.0 ==> r == "CRITICAL"
    ensures 600.0 <= altitude < 1000.0 ==> r == "HIGH"
    ensures 1000.0 <= altitude < 1500.0 ==> r == "MEDIUM"
    ensures 1500.0 <= altitude ==> r == "LOW"
  {
    if altitude < 400.0 then "HIGH"
    else if altitude < 600.0 then "CRITICAL"
    else if altitude < 1000.0 then "HIGH"
    else if altitude < 1500.0 then "MEDIUM"
    else "LOW"
  }

  /** The trend reads only the event count: more than 10 worsening, more than 5 stable. */
  function HistoricalTrend(altitude: real, recentEvents: int): (r: Trend)
    ensures r == Worsening <==> recentEvents > 10
    ensures r == Stable <==> 5 < recentEvents <= 10
    ensures r == Improving <==> recentEvents <= 5
  {
    if recentEvents > 10 then Worsening
    else if recentEvents > 5 then Stable
    else Improving
  }

  /** A trend never improves when the event count grows. */
  lemma TrendMonotone(altitude: real, e1: int, e2: int)
    requires e1 <= e2
    ensures HistoricalTrend(altitude, e1) == Worsening ==> HistoricalTrend(altitude, e2) == Worsening
    ensures HistoricalTrend(altitude, e2) == Improving ==> HistoricalTrend(altitude, e1) == Improving
  {
  }

  /** `Math.floor(n * k / d)` for a non-negative count, with Dafny's floor division. */
  function FloorScaled(n: int, k: nat, d: nat): (r: int)
    requires d > 0
    ensures r * d <= n * k < r * d + d
  {
    (n * k) / d
  }

  /** The debris-density report assembled from the database counts. */
  function GetDebrisDensity(altitude: real, shellLevel: Option<string>, eventCount: int,
                            satelliteCount: int, debrisCount: int, largeDebrisCount: Option<int>): (r: DebrisDensityResponse)
    ensures r.trackedObjectsCount == debrisCount + satelliteCount
    ensures 2 * r.estimatedUntrackedObjects <= 5 * r.trackedObjectsCount < 2 * r.estimatedUntrackedObjects + 2
    ensures 5 * r.riskFactors.smallDebrisEstimated <= 4 * r.estimatedUntrackedObjects
    ensures r.trackedObjectsCount >= 0 ==> 0 <= r.riskFactors.smallDebrisEstimated <= r.estimatedUntrackedObjects
    ensures 10 * r.riskFactors.recentBreakupEvents <= eventCount < 10 * r.riskFactors.recentBreakupEvents + 10
    ensures shellLevel.Some? ==> r.debrisDensityLevel == shellLevel.value
    ensures shellLevel.None? ==> r.debrisDensityLevel == EstimateDebrisDensityLevel(altitude)
    ensures r.riskFactors.largeDebrisCount == largeDebrisCount.GetOr(0)
    ensures r.historicalTrend == HistoricalTrend(altitude, eventCount)
    ensures r.collisionEventsLastYear == eventCount && r.riskFactors.activeSatellitesCount == satelliteCount
  {
    var level := if shellLevel.Some? then shellLevel.value else EstimateDebrisDensityLevel(altitude);
    var tracked := debrisCount + satelliteCount;
    var untracked := FloorScaled(tracked, 5, 2);
    DebrisDensityResponse(
      altitude, level, tracked, untracked, eventCount,
      RiskFactors(largeDebrisCount.GetOr(0), FloorScaled(untracked, 4, 5), satelliteCount, FloorScaled(eventCount, 1, 10)),
      HistoricalTrend(altitude, eventCount))
  }

  /** Scaling by a non-negative factor and flooring keeps the order of two counts. */
  lemma FloorScaledMonotone(n1: int, n2: int, k: nat, d: nat)
    requires d > 0 && n1 <= n2
    ensures FloorScaled(n1, k, d) <= FloorScaled(n2, k, d)
  {
    var r1, r2 := FloorScaled(n1, k, d), FloorScaled(n2, k, d);
    ProductMonotone(n1, n2, k);
    if r1 > r2 {
      ProductMonotone(r2 + 1, r1, d);
    }
  }

  /** Multiplying by a non-negative factor keeps the order. */
  lemma ProductMonotone(a: int, b: int, k: nat)
    requires a <= b
    ensures a * k <= b * k
  {
    var e := b - a;
    assert b * k == a * k + e * k;
  }

  /** More tracked objects in the band never lower the untracked or the small-debris estimate. */
  lemma EstimatesGrowWithTracked(altitude: real, shellLevel: Option<string>, eventCount: int,
                                 s1: int, d1: int, s2: int, d2: int, large: Option<int>)
    requires d1 + s1 <= d2 + s2
    ensures var r1 := GetDebrisDensity(altitude, shellLevel, eventCount, s1, d1, large);
            var r2 := GetDebrisDensity(altitude, shellLevel, eventCount, s2, d2, large);
            && r1.estimatedUntrackedObjects <= r2.estimatedUntrackedObjects
            && r1.riskFactors.smallDebrisEstimated <= r2.riskFactors.smallDebrisEstimated
  {
    var u1, u2 := FloorScaled(d1 + s1, 5, 2), FloorScaled(d2 + s2, 5, 2);
    FloorScaledMonotone(d1 + s1, d2 + s2, 5, 2);
    FloorScaledMonotone(u1, u2, 4, 5);
  }
}

=== FILE: deorbit.dfy ===
/** Deorbit analysis: natural-decay estimate, the disposal options that apply,
    the recommended option, compliance flags and a sustainability score. */
module Deorbit {
  import opened Wrappers
  import opened MathLib
  import opened SustainabilityTypes
  import opened SustainabilityValidators

  function Min(a: real, b: real): real { if a <= b then a else b }
  function Max(a: real, b: real): real { if a >= b then a else b }

  /** Years-per-unit decay rate of the simplified exponential atmosphere. */
  function DecayRate(t: Transcendentals, massKg: real, altitudeKm: real, areaM2: real): (r: real)
    requires ExpPositive(t) && massKg > 0.0 && areaM2 > 0.0
    ensures r > 0.0
  {
    var density := t.exp(-(altitudeKm - 200.0) / 8.5) * 0.000000000001;
    var ballistic := massKg / areaM2;
    density / ballistic * 1000.0
  }

  /** Years until the orbit decays from its altitude to 100 km, clamped to [0.1, 200]. */
  function NaturalDecayYears(t: Transcendentals, massKg: real, altitudeKm: real, areaM2: real): (r: real)
    requires ExpPositive(t) && massKg > 0.0 && areaM2 > 0.0 && altitudeKm > 0.0
    ensures 0.1 <= r <= 200.0
  {
    Clamp(DecayTime(altitudeKm, DecayRate(t, massKg, altitudeKm, areaM2)))
  }

  /** Time to fall from the altitude to 100 km at the given rate. */
  function DecayTime(altitudeKm: real, rate: real): real
    requires altitudeKm > 0.0 && rate > 0.0
  {
    (altitudeKm - 100.0) / (rate * altitudeKm)
  }

  /** At least 0.1 and at most 200 years. */
  function Clamp(x: real): (r: real)
    ensures 0.1 <= r <= 200.0
  {
    Min(200.0, Max(0.1, x))
  }

  lemma DivideMonotone(a: real, b: real, c: real, d: real)
    requires 0.0 <= a <= b && 0.0 < d <= c
    ensures a / c <= b / d
  {
    assert a / c <= b / c;
    assert b / c <= b / d by {
      assert b / c * c == b;
      assert b / d * d == b;
      assert b / d * d <= b / d * c;
    }
  }

  lemma FractionGrows(a1: real, a2: real)
    requires 100.0 <= a1 <= a2
    ensures 0.0 <= (a1 - 100.0) / a1 <= (a2 - 100.0) / a2
  {
    assert (a1 - 100.0) / a1 == 1.0 - 100.0 / a1;
    assert (a2 - 100.0) / a2 == 1.0 - 100.0 / a2;
    assert 100.0 / a2 <= 100.0 / a1 by {
      assert 100.0 / a2 * a2 == 100.0;
      assert 100.0 / a1 * a1 == 100.0;
    }
  }

  /** The decay rate falls as the altitude rises, since the atmosphere thins. */
  lemma RateShrinksWithAltitude(t: Transcendentals, massKg: real, areaM2: real, a1: real, a2: real)
    requires ExpPositive(t) && ExpMonotone(t) && massKg > 0.0 && areaM2 > 0.0
    requires a1 <= a2
    ensures DecayRate(t, massKg, a2, areaM2) <= DecayRate(t, massKg, a1, areaM2)
  {
    var e1 := t.exp(-(a1 - 200.0) / 8.5);
    var e2 := t.exp(-(a2 - 200.0) / 8.5);
    assert e2 <= e1;
    var b := massKg / areaM2;
    assert e2 * 0.000000000001 <= e1 * 0.000000000001;
    assert e2 * 0.000000000001 / b <= e1 * 0.000000000001 / b;
  }

  lemma QuotientGrows(a1: real, a2: real, r1: real, r2: real)
    requires 100.0 <= a1 <= a2 && 0.0 < r2 <= r1
    ensures DecayTime(a1, r1) <= DecayTime(a2, r2)
  {
    FractionGrows(a1, a2);
    var f1 := (a1 - 100.0) / a1;
    var f2 := (a2 - 100.0) / a2;
    assert (a1 - 100.0) / (r1 * a1) == f1 / r1;
    assert (a2 - 100.0) / (r2 * a2) == f2 / r2;
    DivideMonotone(f1, f2, r1, r2);
  }

  /** A higher orbit of the same satellite never decays sooner. */
  lemma {:induction false} DecayGrowsWithAltitude(t: Transcendentals, massKg: real, areaM2: real, a1: real, a2: real)
    requires ExpPositive(t) && ExpMonotone(t) && massKg > 0.0 && areaM2 > 0.0
    requires 100.0 <= a1 <= a2
    ensures NaturalDecayYears(t, massKg, a1, areaM2) <= NaturalDecayYears(t, massKg, a2, areaM2)
  {
    var r1 := DecayRate(t, massKg, a1, areaM2);
    var r2 := DecayRate(t, massKg, a2, areaM2);
    RateShrinksWithAltitude(t, massKg, areaM2, a1, a2);
    QuotientGrows(a1, a2, r1, r2);
  }

  /** Fuel at 5% of the mass at $10k per kg, plus $50k of operations. */
  function ControlledDeorbitCost(massKg: real, altitudeKm: real): (r: real)
    ensures massKg >= 0.0 ==> r >= 50000.0
  {
    massKg * 0.05 * 10000.0 + 50000.0
  }

  /** Fuel at 2% of the mass at $10k per kg, plus $25k of operations. */
  function GraveyardOrbitCost(massKg: real, altitudeKm: real): (r: real)
    ensures massKg >= 0.0 ==> r >= 25000.0
  {
    massKg * 0.02 * 10000.0 + 25000.0
  }

  /** Moving to a graveyard orbit is always cheaper than a controlled deorbit. */
  lemma GraveyardCheaper(massKg: real, altitudeKm: real)
    requires massKg >= 0.0
    ensures GraveyardOrbitCost(massKg, altitudeKm) < ControlledDeorbitCost(massKg, altitudeKm)
  {
  }

  /** Controlled deorbit needs propulsion declared `true` and an altitude below 2000 km. */
  predicate ControlledFeasible(r: DeorbitRequest) {
    r.propulsion == Some(true) && r.altitudeKm < 2000.0
  }

  /** Options in the order the source lists them: natural decay, then the ones that apply. */
  function DeorbitOptions(r: DeorbitRequest, decayYears: real): (opts: seq<DeorbitOption>)
    ensures 1 <= |opts| <= 3
    ensures opts[0].kind == NaturalDecay && opts[0].timelineYears == decayYears && opts[0].costUsd == 0.0
    ensures (exists i :: 0 <= i < |opts| && opts[i].kind == ControlledDeorbit) <==> ControlledFeasible(r)
    ensures (exists i :: 0 <= i < |opts| && opts[i].kind == GraveyardOrbit) <==> r.altitudeKm > 1500.0
    ensures forall i :: 1 <= i < |opts| ==> opts[i].kind != NaturalDecay
    ensures |opts| == 1 + (if ControlledFeasible(r) then 1 else 0) + (if r.altitudeKm > 1500.0 then 1 else 0)
    ensures decayYears <= 25.0 ==> opts[0].successProbability == 0.95 && opts[0].environmentalScore == 85.0
    ensures decayYears > 25.0 ==> opts[0].successProbability == 0.7 && opts[0].environmentalScore == 60.0
    ensures ControlledFeasible(r) ==>
              opts[1] == DeorbitOption(ControlledDeorbit, OrNum(r.targetTimelineYears, 1.0),
                                       ControlledDeorbitCost(r.massKg, r.altitudeKm), 0.92, 95.0)
    ensures r.altitudeKm > 1500.0 ==>
              opts[|opts| - 1] == DeorbitOption(GraveyardOrbit, 0.1, GraveyardOrbitCost(r.massKg, r.altitudeKm), 0.98, 75.0)
  {
    var natural := DeorbitOption(NaturalDecay, decayYears, 0.0,
                                 if decayYears <= 25.0 then 0.95 else 0.7,
                                 if decayYears <= 25.0 then 85.0 else 60.0);
    var controlled := DeorbitOption(ControlledDeorbit, if TruthyNum(r.targetTimelineYears) then r.targetTimelineYears.value else 1.0,
                                    ControlledDeorbitCost(r.massKg, r.altitudeKm), 0.92, 95.0);
    var graveyard := DeorbitOption(GraveyardOrbit, 0.1, GraveyardOrbitCost(r.massKg, r.altitudeKm), 0.98, 75.0);
    var opts := [natural] + (if ControlledFeasible(r) then [controlled] else [])
                          + (if r.altitudeKm > 1500.0 then [graveyard] else []);
    assert ControlledFeasible(r) ==> opts[1] == controlled;
    assert r.altitudeKm > 1500.0 ==> opts[|opts| - 1] == graveyard;
    opts
  }

  /** The heuristic score of one option; `log10` is only consulted for a positive cost. */
  function OptionScore(t: Transcendentals, o: DeorbitOption): real {
    (if o.timelineYears <= 25.0 then 40.0 else 0.0)
      + o.successProbability * 30.0
      + o.environmentalScore * 0.2
      - (if o.costUsd > 0.0 then t.log10(o.costUsd) * 2.0 else 0.0)
  }

  /** The scan of the selection loop from position `i`, holding the best index and score so far. */
  function ScanBest(t: Transcendentals, opts: seq<DeorbitOption>, i: nat, best: nat, bestScore: real): (k: nat)
    requires best < |opts| && i <= |opts|
    requires (best == 0 && bestScore == 0.0) || (best < i && bestScore == OptionScore(t, opts[best]) > 0.0)
    requires forall j :: 0 <= j < i ==> OptionScore(t, opts[j]) <= bestScore
    requires forall j :: 0 <= j < best ==> OptionScore(t, opts[j]) < bestScore
    ensures k < |opts|
    ensures (forall j :: 0 <= j < |opts| ==> OptionScore(t, opts[j]) <= 0.0) && bestScore == 0.0 ==> k == best
    ensures (exists j :: 0 <= j < |opts| && OptionScore(t, opts[j]) > 0.0) || bestScore > 0.0 ==>
              && OptionScore(t, opts[k]) > 0.0
              && (forall j :: 0 <= j < |opts| ==> OptionScore(t, opts[j]) <= OptionScore(t, opts[k]))
              && (forall j :: 0 <= j < k ==> OptionScore(t, opts[j]) < OptionScore(t, opts[k]))
    decreases |opts| - i
  {
    if i == |opts| then best
    else
      var s := OptionScore(t, opts[i]);
      if s > bestScore then ScanBest(t, opts, i + 1, i, s)
      else ScanBest(t, opts, i + 1, best, bestScore)
  }

  /** Index of the recommended option: the first one with the strictly best
      positive score, or the first option when no score exceeds 0. */
  function RecommendedIndex(t: Transcendentals, opts: seq<DeorbitOption>): (k: nat)
    requires |opts| > 0
    ensures k < |opts|
    ensures (forall j :: 0 <= j < |opts| ==> OptionScore(t, opts[j]) <= 0.0) ==> k == 0
    ensures (exists j :: 0 <= j < |opts| && OptionScore(t, opts[j]) > 0.0) ==>
              && OptionScore(t, opts[k]) > 0.0
              && (forall j :: 0 <= j < |opts| ==> OptionScore(t, opts[j]) <= OptionScore(t, opts[k]))
              && (forall j :: 0 <= j < k ==> OptionScore(t, opts[j]) < OptionScore(t, opts[k]))
  {
    ScanBest(t, opts, 0, 0, 0.0)
  }

  function ComplianceOf(opts: seq<DeorbitOption>, decayYears: real, controlled: bool): (c: Compliance)
    ensures c.fcc25YearRule <==> decayYears <= 25.0
    ensures c.iadcGuidelines <==> decayYears <= 25.0 || controlled
    ensures c.iso24113 <==> exists i :: 0 <= i < |opts| && opts[i].successProbability >= 0.9
  {
    Compliance(decayYears <= 25.0, decayYears <= 25.0 || controlled,
               exists i :: 0 <= i < |opts| && opts[i].successProbability >= 0.9)
  }

  /** Base 50, compliance bonuses, a decay-timeline term and a controlled-deorbit bonus, clamped to [0, 100]. */
  function SustainabilityScore(opts: seq<DeorbitOption>, c: Compliance, decayYears: real): (r: real)
    ensures 0.0 <= r <= 100.0
    ensures r == Max(0.0, Min(100.0, RawSustainability(opts, c, decayYears)))
  {
    var s0 := 50.0;
    var s1 := if c.fcc25YearRule then s0 + 20.0 else s0;
    var s2 := if c.iadcGuidelines then s1 + 15.0 else s1;
    var s3 := if c.iso24113 then s2 + 10.0 else s2;
    var s4 := if decayYears <= 5.0 then s3 + 15.0 else if decayYears <= 25.0 then s3 + 10.0 else s3 - 10.0;
    var s5 := if exists i :: 0 <= i < |opts| && opts[i].kind == ControlledDeorbit then s4 + 10.0 else s4;
    Max(0.0, Min(100.0, s5))
  }

  function Bonus(b: bool, x: real): real { if b then x else 0.0 }

  /** The unclamped score as a sum of its terms. */
  function RawSustainability(opts: seq<DeorbitOption>, c: Compliance, decayYears: real): real {
    50.0 + Bonus(c.fcc25YearRule, 20.0) + Bonus(c.iadcGuidelines, 15.0) + Bonus(c.iso24113, 10.0)
      + (if decayYears <= 5.0 then 15.0 else if decayYears <= 25.0 then 10.0 else -10.0)
      + Bonus(exists i :: 0 <= i < |opts| && opts[i].kind == ControlledDeorbit, 10.0)
  }

  /** Deorbit analysis of a validated request; the area defaults to 10 m². */
  function AnalyzeDeorbit(t: Transcendentals, r: DeorbitRequest): (res: DeorbitResponse)
    requires ExpPositive(t) && ValidDeorbitRequest(r)
    ensures 0.1 <= res.naturalDecayYears <= 200.0
    ensures res.naturalDecayYears == NaturalDecayYears(t, r.massKg, r.altitudeKm, OrNum(r.areaM2, 10.0))
    ensures res.controlledFeasible <==> ControlledFeasible(r)
    ensures res.options == DeorbitOptions(r, res.naturalDecayYears)
    ensures res.recommended == res.options[RecommendedIndex(t, res.options)].kind
    ensures res.compliance == ComplianceOf(res.options, res.naturalDecayYears, res.controlledFeasible)
    ensures 0.0 <= res.sustainabilityScore <= 100.0
    ensures res.sustainabilityScore == SustainabilityScore(res.options, res.compliance, res.naturalDecayYears)
  {
    var area := if TruthyNum(r.areaM2) then r.areaM2.value else 10.0;
    var decay := NaturalDecayYears(t, r.massKg, r.altitudeKm, area);
    var controlled := ControlledFeasible(r);
    var opts := DeorbitOptions(r, decay);
    var recommended := opts[RecommendedIndex(t, opts)].kind;
    var compliance := ComplianceOf(opts, decay, controlled);
    DeorbitResponse(decay, controlled, opts, recommended, compliance, SustainabilityScore(opts, compliance, decay))
  }

  /** ISO compliance holds exactly when some option reaches 90% success: the
      natural decay does when it meets 25 years, and the other two always do. */
  lemma IsoComplianceIff(t: Transcendentals, r: DeorbitRequest)
    requires ExpPositive(t) && ValidDeorbitRequest(r)
    ensures var res := AnalyzeDeorbit(t, r);
            res.compliance.iso24113 <==> res.naturalDecayYears <= 25.0 || ControlledFeasible(r) || r.altitudeKm > 1500.0
  {
    var res := AnalyzeDeorbit(t, r);
    var opts := res.options;
    if res.naturalDecayYears <= 25.0 {
      assert opts[0].successProbability >= 0.9;
    } else if ControlledFeasible(r) {
      assert opts[1].successProbability >= 0.9;
    } else if r.altitudeKm > 1500.0 {
      assert opts[|opts| - 1].successProbability >= 0.9;
    } else {
      assert |opts| == 1;
    }
  }
}

=== FILE: error_handler.dfy ===
/** The Express error middleware: which status and message an error becomes.
    Logging is left out; the environment is passed in as `NODE_ENV`'s value. */
module ErrorHandler {
  import opened Wrappers
  import opened Strings
  import MissionService
  import opened MissionTypes

  /** An error as thrown: its `name`, its optional `message`, `statusCode` and `stack`. */
  datatype ApiError = ApiError(name: string, message: Option<string>, statusCode: Option<int>, stack: Option<string>)

  /** `new Error(message)`: a plain error, with no status code. */
  function PlainError(message: string, stack: Option<string>): ApiError {
    ApiError("Error", Some(message), None, stack)
  }

  /** The JSON body and status. `debug` holds the stack and the error itself,
      which the body carries only in development. */
  datatype ErrorResponse = ErrorResponse(status: int, success: bool, message: string, debug: Option<(Option<string>, ApiError)>)

  const DefaultMessage := "Internal Server Error"

  /** `error.message?.includes(pat)`: false when there is no message. */
  predicate MessageIncludes(e: ApiError, pat: string) {
    e.message.Some? && Contains(e.message.value, pat)
  }

  /** The status and message before any rule applies: `statusCode || 500`, `message || 'Internal Server Error'`. */
  function InitialStatus(e: ApiError): (s: int)
    ensures s != 0
  {
    if TruthyInt(e.statusCode) then e.statusCode.value else 500
  }

  function InitialMessage(e: ApiError): (m: string)
    ensures m != ""
  {
    if TruthyStr(e.message) then e.message.value else DefaultMessage
  }

  /** `errorHandler`: each rule in turn may override what the ones before it chose. */
  function HandleError(e: ApiError, nodeEnv: Option<string>): (r: ErrorResponse)
    ensures !r.success
    ensures r.status != 0 && r.message != ""
    ensures r.debug.Some? <==> nodeEnv == Some("development")
    ensures r.debug.Some? ==> r.debug.value == (e.stack, e)
    // The last rule wins: a duplicate key is a conflict, whatever else holds.
    ensures MessageIncludes(e, "duplicate key") ==> r.status == 409 && r.message == "Resource already exists"
    // A missing resource is 404, and keeps the message chosen before it.
    ensures !MessageIncludes(e, "duplicate key") && MessageIncludes(e, "not found") ==>
              r.status == 404 && r.message == (if e.name == "ValidationError" then "Validation Error" else InitialMessage(e))
    ensures !MessageIncludes(e, "duplicate key") && !MessageIncludes(e, "not found") && e.name == "ValidationError" ==>
              r.status == 400 && r.message == "Validation Error"
    ensures !MessageIncludes(e, "duplicate key") && !MessageIncludes(e, "not found") && e.name != "ValidationError" ==>
              r.status == InitialStatus(e) && r.message == InitialMessage(e)
  {
    var statusCode := InitialStatus(e);
    var message := InitialMessage(e);
    var (statusCode, message) := if e.name == "ValidationError" then (400, "Validation Error") else (statusCode, message);
    var statusCode := if MessageIncludes(e, "not found") then 404 else statusCode;
    var (statusCode, message) := if MessageIncludes(e, "duplicate key") then (409, "Resource already exists") else (statusCode, message);
    var debug := if nodeEnv == Some("development") then Some((e.stack, e)) else None;
    ErrorResponse(statusCode, false, message, debug)
  }

  /** The response's status is one a rule sets, the error's own, or 500. */
  lemma StatusIsChosenByARule(e: ApiError, nodeEnv: Option<string>)
    ensures var s := HandleError(e, nodeEnv).status;
            s in {400, 404, 409, 500} || e.statusCode == Some(s)
  {
  }

  /** The response never depends on the environment except for its debug part. */
  lemma EnvironmentOnlyAddsDebug(e: ApiError, env1: Option<string>, env2: Option<string>)
    ensures HandleError(e, env1).(debug := None) == HandleError(e, env2).(debug := None)
  {
  }

  /** The service's "not found" messages have no `k`, so none mentions a duplicate key. */
  lemma NotADuplicate(pre: string, id: int)
    requires forall i :: 0 <= i < |pre| ==> pre[i] != 'k'
    ensures !Contains(pre + IntToString(id) + " not found", "duplicate key")
  {
    var s := pre + IntToString(id) + " not found";
    var n := IntToString(id);
    assert forall i :: 0 <= i < |n| ==> n[i] == '-' || IsDigit(n[i]) by {
      if id < 0 {
        assert forall i :: 1 <= i < |n| ==> n[i] == NatToString(-id)[i - 1];
      }
    }
    assert forall i :: 0 <= i < |s| ==> s[i] != 'k' by {
      forall i | 0 <= i < |s|
        ensures s[i] != 'k'
      {
        if i < |pre| {
          assert s[i] == pre[i];
        } else if i < |pre| + |n| {
          assert s[i] == n[i - |pre|];
        } else {
          assert s[i] == " not found"[i - |pre| - |n|];
        }
      }
    }
    MissingCharRulesOut(s, "duplicate key", 10);
  }

  /** A missing shell, configuration or launch vehicle reaches the client as
      404 with the service's message. */
  lemma MissingReferenceIs404(db: References, shell: Option<int>, config: Option<int>, vehicle: Option<int>,
                              stack: Option<string>, nodeEnv: Option<string>)
    requires MissionService.CheckReferences(db, shell, config, vehicle).Some?
    ensures var msg := MissionService.CheckReferences(db, shell, config, vehicle).value;
            var r := HandleError(PlainError(msg, stack), nodeEnv);
            r.status == 404 && r.message == msg
  {
    var msg := MissionService.CheckReferences(db, shell, config, vehicle).value;
    MissionService.ReferenceErrorsSayNotFound(db, shell, config, vehicle);
    if !MissionService.Resolves(shell, db.shells) {
      NotADuplicate("Orbital shell with ID ", shell.value);
    } else if !MissionService.Resolves(config, db.configurations) {
      NotADuplicate("Satellite configuration with ID ", config.value);
    } else {
      NotADuplicate("Active launch vehicle with ID ", vehicle.value);
    }
  }

  /** A report for a mission that does not exist reaches the client as 404. */
  lemma MissingMissionIs404(id: int, stack: Option<string>, nodeEnv: Option<string>)
    ensures var msg := MissionService.MissionNotFound(id);
            var r := HandleError(PlainError(msg, stack), nodeEnv);
            r.status == 404 && r.message == msg
  {
    MissionService.MissingMessageSaysNotFound("Mission with ID ", id);
    NotADuplicate("Mission with ID ", id);
  }
}

=== FILE: financial_dashboard.dfy ===
/** The financial dashboard's summary figures and its risk indicators,
    computed from any projection it is given. */
module FinancialDashboard {
  import opened Wrappers
  import opened FinancialProjection

  datatype Metrics = Metrics(
    totalInvestment: real,
    totalReturns: real,
    netProfit: real,
    finalRoi: real,
    breakEvenMonth: Option<int>,
    finalCashFlow: real,
    profitMargin: real)

  /** `roi.reduce((sum, p) => sum + p.investment, 0)`. */
  function SumInvestment(rows: seq<RoiRow>): real {
    if rows == [] then 0.0 else SumInvestment(rows[..|rows| - 1]) + rows[|rows| - 1].investment
  }

  /** `roi.reduce((sum, p) => sum + p.returns, 0)`. */
  function SumReturns(rows: seq<RoiRow>): real {
    if rows == [] then 0.0 else SumReturns(rows[..|rows| - 1]) + rows[|rows| - 1].gain
  }

  /** `breakEven.find(p => p.profit >= 0)`, as the index of the row found. */
  function FirstProfitable(rows: seq<BreakEvenRow>): (r: Option<nat>)
    ensures r.Some? ==> r.value < |rows| && rows[r.value].profit >= 0.0
    ensures r.Some? ==> forall j :: 0 <= j < r.value ==> rows[j].profit < 0.0
    ensures r.None? <==> forall j :: 0 <= j < |rows| ==> rows[j].profit < 0.0
  {
    if rows == [] then None
    else if rows[0].profit >= 0.0 then Some(0)
    else match FirstProfitable(rows[1..])
      case None => None
      case Some(k) => Some(k + 1)
  }

  /** Row `k` is the first with a non-negative profit. */
  predicate FirstProfitableAt(rows: seq<BreakEvenRow>, k: int) {
    0 <= k < |rows| && rows[k].profit >= 0.0 && forall j :: 0 <= j < k ==> rows[j].profit < 0.0
  }

  /** `find` returns the first profitable row, and only one row can be first. */
  lemma FirstProfitableIsFirst(rows: seq<BreakEvenRow>)
    ensures forall k :: FirstProfitableAt(rows, k) ==> FirstProfitable(rows) == Some(k)
  {
    forall k | FirstProfitableAt(rows, k)
      ensures FirstProfitable(rows) == Some(k)
    {
      var r := FirstProfitable(rows);
      assert r.Some? && r.value <= k;
    }
  }

  /** `breakEven.find(p => p.profit >= 0)?.month || null`. */
  function BreakEvenMonth(rows: seq<BreakEvenRow>): (r: Option<int>)
    ensures forall k :: FirstProfitableAt(rows, k) ==>
              r == (if rows[k].month != 0 then Some(rows[k].month) else None)
    ensures (forall j :: 0 <= j < |rows| ==> rows[j].profit < 0.0) ==> r.None?
    ensures r.Some? ==> r.value != 0 && exists k :: FirstProfitableAt(rows, k) && rows[k].month == r.value
  {
    FirstProfitableIsFirst(rows);
    var point := FirstProfitable(rows);
    if point.Some? && rows[point.value].month != 0 then Some(rows[point.value].month) else None
  }

  /** `totalReturns > 0 ? netProfit / totalReturns * 100 : 0`. */
  function ProfitMargin(netProfit: real, totalReturns: real): (p: real)
    ensures totalReturns > 0.0 ==> p * totalReturns == netProfit * 100.0
    ensures totalReturns <= 0.0 ==> p == 0.0
  {
    if totalReturns > 0.0 then netProfit / totalReturns * 100.0 else 0.0
  }

  /** `financialMetrics`: a missing or zero last value reads as 0, and a
      missing or month-0 break-even point as null. */
  function FinancialMetrics(data: FinancialChartData): (m: Metrics)
    ensures m.totalInvestment == SumInvestment(data.roi) && m.totalReturns == SumReturns(data.roi)
    ensures m.netProfit == m.totalReturns - m.totalInvestment
    ensures m.finalRoi == (if data.roi == [] then 0.0 else data.roi[|data.roi| - 1].cumulativeRoi)
    ensures m.finalCashFlow == (if data.cashFlow == [] then 0.0 else data.cashFlow[|data.cashFlow| - 1].cumulativeCashFlow)
    ensures forall k :: FirstProfitableAt(data.breakEven, k) ==>
              m.breakEvenMonth == (if data.breakEven[k].month != 0 then Some(data.breakEven[k].month) else None)
    ensures (forall j :: 0 <= j < |data.breakEven| ==> data.breakEven[j].profit < 0.0) ==> m.breakEvenMonth.None?
    ensures m.breakEvenMonth.Some? ==>
              exists k :: FirstProfitableAt(data.breakEven, k) && data.breakEven[k].month == m.breakEvenMonth.value != 0
    ensures m.totalReturns > 0.0 ==> m.profitMargin * m.totalReturns == m.netProfit * 100.0
    ensures m.totalReturns <= 0.0 ==> m.profitMargin == 0.0
  {
    var totalInvestment := SumInvestment(data.roi);
    var totalReturns := SumReturns(data.roi);
    var netProfit := totalReturns - totalInvestment;
    Metrics(
      totalInvestment, totalReturns, netProfit,
      if data.roi == [] then 0.0 else data.roi[|data.roi| - 1].cumulativeRoi,
      BreakEvenMonth(data.breakEven),
      if data.cashFlow == [] then 0.0 else data.cashFlow[|data.cashFlow| - 1].cumulativeCashFlow,
      ProfitMargin(netProfit, totalReturns))
  }

  /** The yearly net gains, added from the first year on. */
  function NetFromFront(rows: seq<RoiRow>): real {
    if rows == [] then 0.0 else rows[0].gain - rows[0].investment + NetFromFront(rows[1..])
  }

  /** The `reduce` sums can equally be taken from the first row on. */
  lemma {:induction false} SumsFromFront(rows: seq<RoiRow>)
    requires rows != []
    ensures SumInvestment(rows) == rows[0].investment + SumInvestment(rows[1..])
    ensures SumReturns(rows) == rows[0].gain + SumReturns(rows[1..])
  {
    if |rows| > 1 {
      var init := rows[..|rows| - 1];
      SumsFromFront(init);
      assert init[1..] == rows[1..][..|rows[1..]| - 1];
      assert init[0] == rows[0];
    } else {
      assert rows[..0] == [] && rows[1..] == [];
    }
  }

  /** The net profit is the sum of every year's returns less its investment. */
  lemma {:induction false} NetProfitIsYearlyNetSum(data: FinancialChartData)
    ensures FinancialMetrics(data).netProfit == NetFromFront(data.roi)
    decreases |data.roi|
  {
    if data.roi != [] {
      SumsFromFront(data.roi);
      NetProfitIsYearlyNetSum(data.(roi := data.roi[1..]));
    }
  }

  /** The break-even month is settled by the first profitable row: rows
      added after it change nothing. */
  lemma BreakEvenIgnoresLaterRows(data: FinancialChartData, later: seq<BreakEvenRow>, k: nat)
    requires FirstProfitableAt(data.breakEven, k)
    ensures FinancialMetrics(data.(breakEven := data.breakEven + later)).breakEvenMonth == FinancialMetrics(data).breakEvenMonth
  {
    var longer := data.breakEven + later;
    assert forall j :: 0 <= j <= k ==> longer[j] == data.breakEven[j];
    assert FirstProfitableAt(longer, k);
  }

  datatype IndicatorKind = WarningKind | ErrorKind | SuccessKind

  datatype Indicator = Indicator(kind: IndicatorKind, message: string)

  const LateBreakEven := Indicator(WarningKind, "Break-even point beyond 5 years or not achieved")
  const LowRoi := Indicator(WarningKind, "ROI below industry benchmark (15%)")
  const NegativeCashFlow := Indicator(ErrorKind, "Negative cumulative cash flow")
  const Healthy := Indicator(SuccessKind, "Financial projections look healthy")

  /** Break-even not reached, or reached after the fifth year. */
  predicate BreaksEvenLate(m: Metrics) {
    m.breakEvenMonth.None? || m.breakEvenMonth.value > 60
  }

  /** The position of an indicator in the order the rules run. */
  function Rank(i: Indicator): int {
    if i == LateBreakEven then 0 else if i == LowRoi then 1 else if i == NegativeCashFlow then 2 else 3
  }

  /** `riskIndicators`. */
  function RiskIndicators(m: Metrics): (r: seq<Indicator>)
    ensures |r| >= 1
    ensures LateBreakEven in r <==> BreaksEvenLate(m)
    ensures LowRoi in r <==> m.finalRoi < 15.0
    ensures NegativeCashFlow in r <==> m.finalCashFlow < 0.0
    ensures Healthy in r <==> !BreaksEvenLate(m) && m.finalRoi >= 15.0 && m.finalCashFlow >= 0.0
    ensures Healthy in r ==> r == [Healthy]
    ensures forall i, j :: 0 <= i < j < |r| ==> Rank(r[i]) < Rank(r[j])
  {
    var a := if BreaksEvenLate(m) then [LateBreakEven] else [];
    var b := if m.finalRoi < 15.0 then [LowRoi] else [];
    var c := if m.finalCashFlow < 0.0 then [NegativeCashFlow] else [];
    var fired := a + b + c;
    if |fired| == 0 then [Healthy] else fired
  }

  lemma {:induction false} SumOfConstantInvestment(rows: seq<RoiRow>, t: real)
    requires forall j :: 0 <= j < |rows| ==> rows[j].investment == t
    ensures SumInvestment(rows) == |rows| as real * t
  {
    if rows != [] {
      var init := rows[..|rows| - 1];
      SumOfConstantInvestment(init, t);
      assert |rows| as real * t == |init| as real * t + t;
    }
  }

  /** On the generated projection, the total investment counts the whole
      cost once per year. */
  lemma GeneratedInvestmentIsCostPerYear(b: Basis, data: FinancialChartData)
    requires b.d != 0.0
    requires forall j :: 0 <= j < |data.roi| ==> data.roi[j] == RoiAt(b, j + 1)
    ensures FinancialMetrics(data).totalInvestment == |data.roi| as real * b.t
  {
    SumOfConstantInvestment(data.roi, b.t);
  }

  /** The generated projection of a positive cost over at least a month
      never looks healthy: it always warns that break-even is not reached
      and reports a negative cumulative cash flow. */
  lemma GeneratedProjectionIsUnhealthy(b: Basis, data: FinancialChartData)
    requires b.t > 0.0 && b.d > 0.0 && MonthCount(b) >= 1
    requires |data.cashFlow| == |data.breakEven| == MonthCount(b)
    requires forall j :: 0 <= j < |data.cashFlow| ==> data.cashFlow[j] == CashFlowAt(b, j + 1) && data.breakEven[j] == BreakEvenAt(b, j + 1)
    ensures var r := RiskIndicators(FinancialMetrics(data));
            LateBreakEven in r && NegativeCashFlow in r && Healthy !in r
  {
    var n := |data.breakEven|;
    forall j | 0 <= j < n
      ensures data.breakEven[j].profit < 0.0
    {
      NeverBreaksEven(b, j + 1);
    }
    NeverBreaksEven(b, n);
    ProfitIsCumulativeCashFlow(b, n);
  }
}

=== FILE: financial_projection.dfy ===
/** The mission architect's demonstration projection: monthly cash flow and
    break-even series, a yearly return-on-investment series and a fixed cost
    split, all derived from a total cost and a mission duration. */
module FinancialProjection {
  import opened Wrappers

  datatype CashFlowRow = CashFlowRow(month: int, income: real, expenses: real, netCashFlow: real, cumulativeCashFlow: real)

  datatype BreakEvenRow = BreakEvenRow(month: int, revenue: real, costs: real, profit: real)

  /** A year of the ROI series; `gain` is the source's `returns` field. */
  datatype RoiRow = RoiRow(year: int, investment: real, gain: real, roi: real, cumulativeRoi: real)

  datatype CostShare = CostShare(category: string, amount: real, percentage: real, color: string)

  datatype FinancialChartData = FinancialChartData(
    cashFlow: seq<CashFlowRow>,
    breakEven: seq<BreakEvenRow>,
    roi: seq<RoiRow>,
    costBreakdown: seq<CostShare>)

  /** The projection's inputs after their defaults: total cost `t` and duration `d` in years. */
  datatype Basis = Basis(t: real, d: real)

  /** `costEstimate?.total_cost_usd || missionData.total_cost_usd || 100000000`
      and `missionData.mission_duration_years || 5`. */
  function BasisOf(estimateTotal: Option<real>, formTotal: Option<real>, formDuration: Option<real>): (b: Basis)
    ensures b.d != 0.0 && b.t != 0.0
    ensures TruthyNum(estimateTotal) ==> b.t == estimateTotal.value
    ensures !TruthyNum(estimateTotal) && TruthyNum(formTotal) ==> b.t == formTotal.value
    ensures !TruthyNum(estimateTotal) && !TruthyNum(formTotal) ==> b.t == 100000000.0
    ensures b.d == OrNum(formDuration, 5.0)
  {
    Basis(OrNum(estimateTotal, OrNum(formTotal, 100000000.0)), OrNum(formDuration, 5.0))
  }

  /** Revenue per month once revenue has started: 130% of the cost spread over the months. */
  function MonthlyRevenue(b: Basis): real
    requires b.d != 0.0
  {
    b.t * 1.3 / (b.d * 12.0)
  }

  function MonthlyExpenses(b: Basis): real
    requires b.d != 0.0
  {
    b.t / (b.d * 12.0)
  }

  /** Revenue starts after the first year. */
  function Income(b: Basis, month: int): real
    requires b.d != 0.0
  {
    if month > 12 then MonthlyRevenue(b) else 0.0
  }

  /** The number of months after the first year among months 1..k. */
  function LateMonths(k: int): nat {
    if k > 12 then k - 12 else 0
  }

  /** The closed form of the running cash position after month `k`: the
      initial 30% outlay, plus all income, minus all expenses. */
  function Cumulative(b: Basis, k: int): real
    requires b.d != 0.0
  {
    -b.t * 0.3 + MonthlyRevenue(b) * LateMonths(k) as real - MonthlyExpenses(b) * k as real
  }

  /** The months the loops visit: 1, 2, ... while the month is at most `12 d`. */
  function MonthCount(b: Basis): (n: nat)
    ensures n == 0 || n as real <= b.d * 12.0
    ensures (n + 1) as real > b.d * 12.0
  {
    if b.d * 12.0 < 1.0 then 0 else (b.d * 12.0).Floor
  }

  /** The years the ROI loop visits: 1, 2, ... while the year is at most `d`. */
  function YearCount(b: Basis): (n: nat)
    ensures n == 0 || n as real <= b.d
    ensures (n + 1) as real > b.d
  {
    if b.d < 1.0 then 0 else b.d.Floor
  }

  lemma CumulativeStep(b: Basis, k: int)
    requires b.d != 0.0 && k >= 0
    ensures Cumulative(b, k + 1) == Cumulative(b, k) + (Income(b, k + 1) - MonthlyExpenses(b))
  {
    var r := MonthlyRevenue(b);
    var e := MonthlyExpenses(b);
    assert e * (k + 1) as real == e * k as real + e;
    if k + 1 > 12 {
      assert LateMonths(k + 1) == LateMonths(k) + 1;
      assert r * LateMonths(k + 1) as real == r * LateMonths(k) as real + r;
    } else {
      assert LateMonths(k + 1) == LateMonths(k);
    }
  }

  /** The row of month `k` in the cash-flow series. */
  function CashFlowAt(b: Basis, k: int): CashFlowRow
    requires b.d != 0.0
  {
    CashFlowRow(k, Income(b, k), MonthlyExpenses(b), Income(b, k) - MonthlyExpenses(b), Cumulative(b, k))
  }

  /** The row of month `k` in the break-even series: revenue and costs so far. */
  function BreakEvenAt(b: Basis, k: int): BreakEvenRow
    requires b.d != 0.0
  {
    var revenue := MonthlyRevenue(b) * LateMonths(k) as real;
    var costs := b.t * 0.3 + MonthlyExpenses(b) * k as real;
    BreakEvenRow(k, revenue, costs, revenue - costs)
  }

  /** The break-even profit of a month is the cash-flow series' running position. */
  lemma ProfitIsCumulativeCashFlow(b: Basis, k: int)
    requires b.d != 0.0
    ensures BreakEvenAt(b, k).profit == CashFlowAt(b, k).cumulativeCashFlow
  {
  }

  /** The cash-flow loop. */
  method CashFlowSeries(b: Basis) returns (rows: seq<CashFlowRow>)
    requires b.d != 0.0
    ensures |rows| == MonthCount(b)
    ensures forall j :: 0 <= j < |rows| ==> rows[j] == CashFlowAt(b, j + 1)
  {
    var monthlyRevenue := b.t * 1.3 / (b.d * 12.0);
    var monthlyExpenses := b.t / (b.d * 12.0);
    var cumulativeCashFlow := -b.t * 0.3;
    rows := [];
    var month := 1;
    while month as real <= b.d * 12.0
      invariant 1 <= month && (month == 1 || (month - 1) as real <= b.d * 12.0)
      invariant |rows| == month - 1
      invariant cumulativeCashFlow == Cumulative(b, month - 1)
      invariant forall j :: 0 <= j < |rows| ==> rows[j] == CashFlowAt(b, j + 1)
      decreases (b.d * 12.0).Floor + 1 - month
    {
      var income := if month > 12 then monthlyRevenue else 0.0;
      var expenses := monthlyExpenses;
      var netCashFlow := income - expenses;
      CumulativeStep(b, month - 1);
      cumulativeCashFlow := cumulativeCashFlow + netCashFlow;
      rows := rows + [CashFlowRow(month, income, expenses, netCashFlow, cumulativeCashFlow)];
      month := month + 1;
    }
  }

  /** The break-even loop. */
  method BreakEvenSeries(b: Basis) returns (rows: seq<BreakEvenRow>)
    requires b.d != 0.0
    ensures |rows| == MonthCount(b)
    ensures forall j :: 0 <= j < |rows| ==> rows[j] == BreakEvenAt(b, j + 1)
  {
    var monthlyRevenue := b.t * 1.3 / (b.d * 12.0);
    var monthlyExpenses := b.t / (b.d * 12.0);
    var cumulativeRevenue := 0.0;
    var cumulativeCosts := b.t * 0.3;
    rows := [];
    var month := 1;
    while month as real <= b.d * 12.0
      invariant 1 <= month && (month == 1 || (month - 1) as real <= b.d * 12.0)
      invariant |rows| == month - 1
      invariant cumulativeRevenue == monthlyRevenue * LateMonths(month - 1) as real
      invariant cumulativeCosts == b.t * 0.3 + monthlyExpenses * (month - 1) as real
      invariant forall j :: 0 <= j < |rows| ==> rows[j] == BreakEvenAt(b, j + 1)
      decreases (b.d * 12.0).Floor + 1 - month
    {
      var revenue := if month > 12 then monthlyRevenue else 0.0;
      var costs := monthlyExpenses;
      RunningSumStep(monthlyRevenue, LateMonths(month - 1), month > 12);
      RunningSumStep(monthlyExpenses, month - 1, true);
      cumulativeRevenue := cumulativeRevenue + revenue;
      cumulativeCosts := cumulativeCosts + costs;
      var profit := cumulativeRevenue - cumulativeCosts;
      rows := rows + [BreakEvenRow(month, cumulativeRevenue, cumulativeCosts, profit)];
      month := month + 1;
    }
  }

  lemma RunningSumStep(x: real, k: nat, counts: bool)
    ensures x * (k + (if counts then 1 else 0)) as real == x * k as real + (if counts then x else 0.0)
  {
  }

  /** Returns of year `y`: none in the first year, a year of revenue afterwards. */
  function YearlyReturns(b: Basis, y: int): real
    requires b.d != 0.0
  {
    if y > 1 then MonthlyRevenue(b) * 12.0 else 0.0
  }

  /** The row of year `y`: the investment is always the whole cost. */
  function RoiAt(b: Basis, y: int): RoiRow
    requires b.d != 0.0
  {
    var gain := YearlyReturns(b, y);
    var cumulativeReturns := MonthlyRevenue(b) * 12.0 * (if y > 1 then y - 1 else 0) as real;
    RoiRow(y, b.t, gain,
           if b.t > 0.0 then gain / b.t * 100.0 else 0.0,
           if b.t > 0.0 then (cumulativeReturns - b.t) / b.t * 100.0 else 0.0)
  }

  /** The ROI loop. */
  method RoiSeries(b: Basis) returns (rows: seq<RoiRow>)
    requires b.d != 0.0
    ensures |rows| == YearCount(b)
    ensures forall j :: 0 <= j < |rows| ==> rows[j] == RoiAt(b, j + 1)
  {
    var monthlyRevenue := b.t * 1.3 / (b.d * 12.0);
    var cumulativeInvestment := b.t;
    var cumulativeReturns := 0.0;
    rows := [];
    var year := 1;
    while year as real <= b.d
      invariant 1 <= year && (year == 1 || (year - 1) as real <= b.d)
      invariant |rows| == year - 1
      invariant cumulativeReturns == monthlyRevenue * 12.0 * (if year - 1 > 1 then year - 2 else 0) as real
      invariant forall j :: 0 <= j < |rows| ==> rows[j] == RoiAt(b, j + 1)
      decreases b.d.Floor + 1 - year
    {
      var yearlyReturns := if year > 1 then monthlyRevenue * 12.0 else 0.0;
      RunningSumStep(monthlyRevenue * 12.0, if year - 1 > 1 then year - 2 else 0, year > 1);
      cumulativeReturns := cumulativeReturns + yearlyReturns;
      var yearlyRoi := if cumulativeInvestment > 0.0 then yearlyReturns / cumulativeInvestment * 100.0 else 0.0;
      var cumulativeRoi := if cumulativeInvestment > 0.0 then (cumulativeReturns - cumulativeInvestment) / cumulativeInvestment * 100.0 else 0.0;
      rows := rows + [RoiRow(year, cumulativeInvestment, yearlyReturns, yearlyRoi, cumulativeRoi)];
      year := year + 1;
    }
  }

  /** The fixed split of the total cost. */
  function CostBreakdown(t: real): seq<CostShare> {
    [ CostShare("Development", t * 0.25, 25.0, "#00D4FF"),
      CostShare("Manufacturing", t * 0.20, 20.0, "#6366F1"),
      CostShare("Launch", t * 0.30, 30.0, "#EC4899"),
      CostShare("Operations", t * 0.15, 15.0, "#F59E0B"),
      CostShare("Insurance", t * 0.05, 5.0, "#10B981"),
      CostShare("Regulatory", t * 0.05, 5.0, "#EF4444") ]
  }

  function SumAmounts(s: seq<CostShare>): real {
    if s == [] then 0.0 else s[0].amount + SumAmounts(s[1..])
  }

  function SumPercentages(s: seq<CostShare>): real {
    if s == [] then 0.0 else s[0].percentage + SumPercentages(s[1..])
  }

  /** Six categories whose shares add up to the whole cost and to 100%. */
  lemma CostBreakdownIsComplete(t: real)
    ensures |CostBreakdown(t)| == 6
    ensures SumAmounts(CostBreakdown(t)) == t
    ensures SumPercentages(CostBreakdown(t)) == 100.0
  {
    var s := CostBreakdown(t);
    assert SumAmounts(s[5..]) == t * 0.05 && SumPercentages(s[5..]) == 5.0 by {
      assert s[5..] == [s[5]];
      assert s[5..][1..] == [];
      assert SumPercentages(s[5..]) == s[5].percentage + SumPercentages([]);
    }
    assert SumAmounts(s[4..]) == t * 0.10 && SumPercentages(s[4..]) == 10.0 by {
      assert s[4..][1..] == s[5..];
    }
    assert SumAmounts(s[3..]) == t * 0.25 && SumPercentages(s[3..]) == 25.0 by {
      assert s[3..][1..] == s[4..];
    }
    assert SumAmounts(s[2..]) == t * 0.55 && SumPercentages(s[2..]) == 55.0 by {
      assert s[2..][1..] == s[3..];
    }
    assert SumAmounts(s[1..]) == t * 0.75 && SumPercentages(s[1..]) == 75.0 by {
      assert s[1..][1..] == s[2..];
    }
  }

  /** `generateFinancialData`. */
  method GenerateFinancialData(estimateTotal: Option<real>, formTotal: Option<real>, formDuration: Option<real>)
    returns (data: FinancialChartData)
    ensures var b := BasisOf(estimateTotal, formTotal, formDuration);
            && |data.cashFlow| == |data.breakEven| == MonthCount(b)
            && (forall j :: 0 <= j < |data.cashFlow| ==> data.cashFlow[j] == CashFlowAt(b, j + 1) && data.breakEven[j] == BreakEvenAt(b, j + 1))
            && |data.roi| == YearCount(b)
            && (forall j :: 0 <= j < |data.roi| ==> data.roi[j] == RoiAt(b, j + 1))
            && data.costBreakdown == CostBreakdown(b.t)
  {
    var b := BasisOf(estimateTotal, formTotal, formDuration);
    var cashFlow := CashFlowSeries(b);
    var breakEven := BreakEvenSeries(b);
    var roi := RoiSeries(b);
    data := FinancialChartData(cashFlow, breakEven, roi, CostBreakdown(b.t));
  }

  /** With a positive cost and duration the projection never breaks even
      within the mission: profit stays below zero in every month it covers. */
  lemma NeverBreaksEven(b: Basis, k: int)
    requires b.t > 0.0 && b.d > 0.0
    requires 1 <= k <= MonthCount(b)
    ensures BreakEvenAt(b, k).profit < 0.0
  {
    var e := MonthlyExpenses(b);
    var r := MonthlyRevenue(b);
    assert r == 1.3 * e;
    assert b.t == e * (b.d * 12.0);
    assert e > 0.0;
    var p := BreakEvenAt(b, k).profit;
    assert p == r * LateMonths(k) as real - b.t * 0.3 - e * k as real;
    if k > 12 {
      assert k as real <= b.d * 12.0;
      assert e * (0.3 * k as real) <= e * (0.3 * (b.d * 12.0));
      assert p == e * (0.3 * k as real) - 15.6 * e - b.t * 0.3;
    } else {
      assert e * k as real >= 0.0;
    }
  }
}

=== FILE: insurance.dfy ===
/** Insurance quoting: the cheapest matching model, then multiplicative risk
    adjustments to its base premium rate. */
module Insurance {
  import opened Wrappers
  import opened CostTypes
  import opened CostValidators

  /** The row filter of the model query: coverage type, active, and a value
      within whichever bounds the row has. */
  predicate Matches(m: InsuranceModel, r: InsuranceQuoteRequest) {
    && m.coverageType == r.coverageType
    && m.active
    && (m.minimumValueUsd.None? || r.satelliteValueUsd >= m.minimumValueUsd.value)
    && (m.maximumValueUsd.None? || r.satelliteValueUsd <= m.maximumValueUsd.value)
  }

  /** Position of the first matching model with the lowest base rate (the
      query orders by rate and keeps one row). */
  function SelectModel(models: seq<InsuranceModel>, r: InsuranceQuoteRequest): (k: Option<nat>)
    ensures k.None? <==> forall i :: 0 <= i < |models| ==> !Matches(models[i], r)
    ensures k.Some? ==> k.value < |models| && Matches(models[k.value], r)
    ensures k.Some? ==> forall i :: 0 <= i < |models| && Matches(models[i], r) ==>
                          models[k.value].basePremiumRate <= models[i].basePremiumRate
    ensures k.Some? ==> forall i :: 0 <= i < k.value && Matches(models[i], r) ==>
                          models[k.value].basePremiumRate < models[i].basePremiumRate
  {
    if models == [] then None
    else
      var rest := SelectModel(models[1..], r);
      if Matches(models[0], r) && (rest.None? || models[0].basePremiumRate <= models[1 + rest.value].basePremiumRate)
      then Some(0)
      else if rest.None? then None
      else Some(1 + rest.value)
  }

  /** LEO below 600 km costs more, orbits above 20 000 km less; a falsy altitude adjusts nothing. */
  function AltitudeFactor(altitudeKm: Option<real>): (f: Option<real>)
    ensures f == Some(1.2) <==> TruthyNum(altitudeKm) && altitudeKm.value < 600.0
    ensures f == Some(0.9) <==> TruthyNum(altitudeKm) && altitudeKm.value > 20000.0
    ensures f.None? <==> !TruthyNum(altitudeKm) || 600.0 <= altitudeKm.value <= 20000.0
  {
    if TruthyNum(altitudeKm) then
      if altitudeKm.value < 600.0 then Some(1.2)
      else if altitudeKm.value > 20000.0 then Some(0.9)
      else None
    else None
  }

  function AvoidanceFactor(capability: Option<bool>): (f: Option<real>)
    ensures capability == Some(true) <==> f == Some(0.85)
    ensures capability == Some(false) <==> f == Some(1.15)
    ensures capability.None? <==> f.None?
  {
    match capability
    case Some(true) => Some(0.85)
    case Some(false) => Some(1.15)
    case None => None
  }

  const ReliableVehicles: seq<string> := ["Falcon 9", "Atlas V", "Ariane 5"]

  function VehicleFactor(vehicle: Option<string>): (f: Option<real>)
    ensures f.Some? <==> vehicle.Some? && vehicle.value in ReliableVehicles
    ensures f.Some? ==> f.value == 0.95
  {
    if TruthyStr(vehicle) && vehicle.value in ReliableVehicles then Some(0.95) else None
  }

  function Entry(key: AdjustmentKey, f: Option<real>): seq<(AdjustmentKey, real)> {
    if f.Some? then [(key, f.value)] else []
  }

  /** The record entries of the three optional factors, in insertion order. */
  function Entries(a: Option<real>, c: Option<real>, v: Option<real>): seq<(AdjustmentKey, real)> {
    Entry(AltitudeRisk, a) + Entry(CollisionAvoidance, c) + Entry(LaunchVehicle, v)
  }

  /** The adjustments record, in insertion order. */
  function RiskAdjustments(r: InsuranceQuoteRequest): seq<(AdjustmentKey, real)> {
    Entries(AltitudeFactor(r.altitudeKm), AvoidanceFactor(r.collisionAvoidance), VehicleFactor(r.launchVehicle))
  }

  /** Each factor that applies is recorded once under its key, and nothing else is. */
  lemma RecordedAdjustments(r: InsuranceQuoteRequest)
    ensures var adj := RiskAdjustments(r);
      && |adj| <= 3
      && (forall i, j :: 0 <= i < j < |adj| ==> adj[i].0 != adj[j].0)
      && ((exists x :: (AltitudeRisk, x) in adj) <==> AltitudeFactor(r.altitudeKm).Some?)
      && ((exists x :: (CollisionAvoidance, x) in adj) <==> AvoidanceFactor(r.collisionAvoidance).Some?)
      && ((exists x :: (LaunchVehicle, x) in adj) <==> VehicleFactor(r.launchVehicle).Some?)
      && (forall x :: (AltitudeRisk, x) in adj ==> AltitudeFactor(r.altitudeKm) == Some(x))
      && (forall x :: (CollisionAvoidance, x) in adj ==> AvoidanceFactor(r.collisionAvoidance) == Some(x))
      && (forall x :: (LaunchVehicle, x) in adj ==> VehicleFactor(r.launchVehicle) == Some(x))
  {
    var a := AltitudeFactor(r.altitudeKm);
    var c := AvoidanceFactor(r.collisionAvoidance);
    var v := VehicleFactor(r.launchVehicle);
    var adj := Entries(a, c, v);
    assert a.Some? ==> adj[0] == (AltitudeRisk, a.value);
    assert c.Some? ==> adj[|Entry(AltitudeRisk, a)|] == (CollisionAvoidance, c.value);
    assert v.Some? ==> adj[|adj| - 1] == (LaunchVehicle, v.value);
  }

  /** Multiply by the factor when it applies. */
  function Apply(x: real, f: Option<real>): real {
    match f case Some(k) => x * k case None => x
  }

  /** The base rate multiplied in turn by each factor that applies. */
  function AdjustedRate(base: real, r: InsuranceQuoteRequest): real {
    ApplyAll(base, AltitudeFactor(r.altitudeKm), AvoidanceFactor(r.collisionAvoidance), VehicleFactor(r.launchVehicle))
  }

  function ApplyAll(base: real, a: Option<real>, c: Option<real>, v: Option<real>): real {
    Apply(Apply(Apply(base, a), c), v)
  }

  /** `x` multiplied in turn by every recorded factor. */
  function ApplyEntries(x: real, adj: seq<(AdjustmentKey, real)>): real
    decreases |adj|
  {
    if adj == [] then x else ApplyEntries(Apply(x, Some(adj[0].1)), adj[1..])
  }

  lemma {:induction false} ApplyEntriesAppend(x: real, a: seq<(AdjustmentKey, real)>, b: seq<(AdjustmentKey, real)>)
    ensures ApplyEntries(x, a + b) == ApplyEntries(ApplyEntries(x, a), b)
    decreases |a|
  {
    var ab := a + b;
    if a == [] {
      assert ab == b;
    } else {
      assert ab[0] == a[0] && ab[1..] == a[1..] + b;
      ApplyEntriesAppend(Apply(x, Some(a[0].1)), a[1..], b);
    }
  }

  lemma ApplyIsEntry(x: real, key: AdjustmentKey, f: Option<real>)
    ensures Apply(x, f) == ApplyEntries(x, Entry(key, f))
  {
    if f.Some? {
      assert Entry(key, f)[1..] == [];
    }
  }

  /** The adjusted rate is the base rate multiplied in turn by exactly the factors recorded. */
  lemma {:induction false} RateIsBaseTimesRecorded(base: real, r: InsuranceQuoteRequest)
    ensures AdjustedRate(base, r) == ApplyEntries(base, RiskAdjustments(r))
  {
    var a := AltitudeFactor(r.altitudeKm);
    var c := AvoidanceFactor(r.collisionAvoidance);
    var v := VehicleFactor(r.launchVehicle);
    var ea := Entry(AltitudeRisk, a);
    var ec := Entry(CollisionAvoidance, c);
    var ev := Entry(LaunchVehicle, v);
    ApplyIsEntry(base, AltitudeRisk, a);
    ApplyIsEntry(Apply(base, a), CollisionAvoidance, c);
    ApplyIsEntry(Apply(Apply(base, a), c), LaunchVehicle, v);
    ApplyEntriesAppend(base, ea, ec);
    ApplyEntriesAppend(base, ea + ec, ev);
  }

  /** The annual premium `value × rate`, pro rata over the months. */
  function Premium(value: real, rate: real, months: int): real {
    value * rate * months as real / 12.0
  }

  /** The quote for a validated request, or the error when no model matches. */
  function GenerateInsuranceQuote(models: seq<InsuranceModel>, r: InsuranceQuoteRequest): (res: Result<InsuranceQuoteResponse, QuoteError>)
    requires ValidInsuranceQuoteRequest(r)
    ensures res.Failure? <==> forall i :: 0 <= i < |models| ==> !Matches(models[i], r)
    ensures res.Failure? ==> res.error == NoModelFound(r.coverageType, r.satelliteValueUsd)
    ensures res.Success? ==>
      var m := models[SelectModel(models, r).value];
      && res.value.coverageType == r.coverageType
      && res.value.premiumRate == AdjustedRate(m.basePremiumRate, r)
      && res.value.premiumUsd == Premium(r.satelliteValueUsd, res.value.premiumRate, r.durationMonths)
      && res.value.coverageAmountUsd == m.coverageAmountUsd
      && res.value.deductibleUsd == m.deductibleUsd
      && res.value.policyDurationMonths == r.durationMonths
      && res.value.riskAdjustments == RiskAdjustments(r)
      && res.value.exclusions == m.exclusions
  {
    match SelectModel(models, r)
    case None => Failure(NoModelFound(r.coverageType, r.satelliteValueUsd))
    case Some(k) =>
      var m := models[k];
      var rate := AdjustedRate(m.basePremiumRate, r);
      Success(InsuranceQuoteResponse(r.coverageType, Premium(r.satelliteValueUsd, rate, r.durationMonths), m.coverageAmountUsd, m.deductibleUsd,
                                     r.durationMonths, rate, RiskAdjustments(r), m.exclusions))
  }

  /** The model chosen depends only on the coverage type and the value. */
  lemma {:induction false} SelectionIgnoresAdjustments(models: seq<InsuranceModel>, r1: InsuranceQuoteRequest, r2: InsuranceQuoteRequest)
    requires r1.coverageType == r2.coverageType && r1.satelliteValueUsd == r2.satelliteValueUsd
    ensures SelectModel(models, r1) == SelectModel(models, r2)
    decreases |models|
  {
    if models != [] {
      SelectionIgnoresAdjustments(models[1..], r1, r2);
    }
  }

  /** Declaring collision avoidance lowers the premium against declaring none, all else equal. */
  lemma AvoidanceLowersPremium(models: seq<InsuranceModel>, r: InsuranceQuoteRequest)
    requires ValidInsuranceQuoteRequest(r)
    requires exists i :: 0 <= i < |models| && Matches(models[i], r)
    requires forall i :: 0 <= i < |models| ==> models[i].basePremiumRate > 0.0
    ensures var withAvoidance := GenerateInsuranceQuote(models, r.(collisionAvoidance := Some(true)));
            var without := GenerateInsuranceQuote(models, r.(collisionAvoidance := Some(false)));
            withAvoidance.Success? && without.Success? && withAvoidance.value.premiumUsd < without.value.premiumUsd
  {
    var ra := r.(collisionAvoidance := Some(true));
    var rb := r.(collisionAvoidance := Some(false));
    SelectionIgnoresAdjustments(models, ra, r);
    SelectionIgnoresAdjustments(models, rb, r);
    var k := SelectModel(models, r).value;
    var base := models[k].basePremiumRate;
    var pa := AdjustedRate(base, ra);
    var pb := AdjustedRate(base, rb);
    AvoidanceLowersRate(base, AltitudeFactor(r.altitudeKm), VehicleFactor(r.launchVehicle));
    PremiumGrowsWithRate(r.satelliteValueUsd, r.durationMonths, pa, pb);
  }

  lemma AvoidanceLowersRate(base: real, a: Option<real>, v: Option<real>)
    requires base > 0.0 && (a.None? || a.value > 0.0) && (v.None? || v.value > 0.0)
    ensures ApplyAll(base, a, Some(0.85), v) < ApplyAll(base, a, Some(1.15), v)
  {
    var x := Apply(base, a);
    assert x > 0.0;
    assert x * 0.85 < x * 1.15;
  }

  /** For a positive value and duration, the premium grows strictly with the rate. */
  lemma PremiumGrowsWithRate(value: real, months: int, p1: real, p2: real)
    requires value > 0.0 && months > 0 && p1 < p2
    ensures Premium(value, p1, months) < Premium(value, p2, months)
  {
    assert value * p1 < value * p2;
    assert value * p1 * months as real < value * p2 * months as real;
  }
}

=== FILE: math_lib.dfy ===
/** The transcendental functions the services call (`Math.exp`, `Math.log`,
    `Math.pow`, `Math.log10`). They are not modelled: callers pass them in, and
    lemmas assume only the qualitative facts stated below. */
module MathLib {

  datatype Transcendentals = Transcendentals(
    exp: real -> real,
    ln: real -> real,
    pow: (real, real) -> real,
    log10: real -> real)

  /** `Math.exp` is positive everywhere. */
  ghost predicate ExpPositive(t: Transcendentals) {
    forall x :: t.exp(x) > 0.0
  }

  /** `Math.exp` is non-decreasing. */
  ghost predicate ExpMonotone(t: Transcendentals) {
    forall x, y :: x <= y ==> t.exp(x) <= t.exp(y)
  }

  /** `Math.pow` of a positive base is positive. */
  ghost predicate PowPositive(t: Transcendentals) {
    forall b, e :: b > 0.0 ==> t.pow(b, e) > 0.0
  }
}

=== FILE: mission_service.dfy ===
/** The pure part of the mission service: reference checks, the values the
    create statement inserts, the dynamic SET clause of an update, the delete
    outcome, the report's financial arithmetic and the row mapping. Query
    results are inputs: the ids each existence query can find, whether the
    mission exists, the affected row count and the row a statement returns. */
module MissionService {
  import opened Wrappers
  import opened Strings
  import opened Validation
  import opened MissionTypes
  import opened MissionValidators

  // ---------------------------------------------------------------------------
  // Foreign-key references

  function ShellMissing(id: int): string {
    "Orbital shell with ID " + IntToString(id) + " not found"
  }

  function ConfigMissing(id: int): string {
    "Satellite configuration with ID " + IntToString(id) + " not found"
  }

  function VehicleMissing(id: int): string {
    "Active launch vehicle with ID " + IntToString(id) + " not found"
  }

  /** A truthy reference id points at a row the query finds. */
  predicate Resolves(o: Option<int>, ids: set<int>) {
    TruthyInt(o) ==> o.value in ids
  }

  /** The three existence checks in the order the service runs them; the
      error of the first one that finds nothing, if any. */
  function CheckReferences(db: References, shell: Option<int>, config: Option<int>, vehicle: Option<int>): (r: Option<string>)
    ensures r.None? <==> Resolves(shell, db.shells) && Resolves(config, db.configurations) && Resolves(vehicle, db.activeVehicles)
    ensures !Resolves(shell, db.shells) ==> r == Some(ShellMissing(shell.value))
    ensures Resolves(shell, db.shells) && !Resolves(config, db.configurations) ==> r == Some(ConfigMissing(config.value))
    ensures Resolves(shell, db.shells) && Resolves(config, db.configurations) && !Resolves(vehicle, db.activeVehicles) ==>
              r == Some(VehicleMissing(vehicle.value))
  {
    if !Resolves(shell, db.shells) then Some(ShellMissing(shell.value))
    else if !Resolves(config, db.configurations) then Some(ConfigMissing(config.value))
    else if !Resolves(vehicle, db.activeVehicles) then Some(VehicleMissing(vehicle.value))
    else None
  }

  lemma MissingMessageSaysNotFound(pre: string, id: int)
    ensures Contains(pre + IntToString(id) + " not found", "not found")
  {
    var s := pre + IntToString(id) + " not found";
    assert s[|s| - 9..] == "not found";
  }

  /** Every reference error says "not found", which the error handler maps to 404. */
  lemma ReferenceErrorsSayNotFound(db: References, shell: Option<int>, config: Option<int>, vehicle: Option<int>)
    ensures var r := CheckReferences(db, shell, config, vehicle);
            r.Some? ==> Contains(r.value, "not found")
  {
    var r := CheckReferences(db, shell, config, vehicle);
    if r.Some? {
      if !Resolves(shell, db.shells) {
        MissingMessageSaysNotFound("Orbital shell with ID ", shell.value);
      } else if !Resolves(config, db.configurations) {
        MissingMessageSaysNotFound("Satellite configuration with ID ", config.value);
      } else {
        MissingMessageSaysNotFound("Active launch vehicle with ID ", vehicle.value);
      }
    }
  }

  // ---------------------------------------------------------------------------
  // Create

  /** `x || null` for an optional id. */
  function IdOrNull(o: Option<int>): (r: Option<int>)
    ensures r.Some? <==> TruthyInt(o)
    ensures r.Some? ==> r == o
  {
    if TruthyInt(o) then o else None
  }

  /** `x || null` for an optional number. */
  function NumOrNull(o: Option<real>): (r: Option<real>)
    ensures r.Some? <==> TruthyNum(o)
    ensures r.Some? ==> r == o
  {
    if TruthyNum(o) then o else None
  }

  /** `x || null` for an optional string. */
  function StrOrNull(o: Option<string>): (r: Option<string>)
    ensures r.Some? <==> TruthyStr(o)
    ensures r.Some? ==> r == o
  {
    if TruthyStr(o) then o else None
  }

  /** `createMission` after its existence queries: the error of the first
      missing reference, or the eleven values of the insert. A new mission
      is always PLANNING; an absent list or record becomes empty. */
  function CreateMission(db: References, req: CreateMissionRequest): (r: Result<NewMission, string>)
    ensures r.Failure? <==> CheckReferences(db, req.targetOrbitalShellId, req.satelliteConfigurationId, req.launchVehicleId).Some?
    ensures r.Failure? ==> Contains(r.error, "not found")
    ensures r.Success? ==>
      && r.value.missionStatus == Planning
      && r.value.missionName == req.name
      && r.value.missionOperator == req.operator
      && r.value.missionType == req.missionType
      && r.value.plannedSatellites == req.totalSatellites
      && r.value.sustainabilityCommitments == req.sustainabilityCommitments.GetOr([])
      && r.value.regulatoryApprovals == req.regulatoryApprovals.GetOr(map[])
      && (r.value.targetOrbitalShellId.Some? <==> TruthyInt(req.targetOrbitalShellId))
      && (r.value.launchCampaignStart.Some? <==> TruthyStr(req.plannedLaunchDate))
      && (r.value.missionDurationYears.Some? <==> TruthyNum(req.missionDurationYears))
      && (r.value.totalMissionCostUsd.Some? <==> TruthyNum(req.totalCostUsd))
    ensures r.Success? ==>
      && r.value.targetOrbitalShellId == IdOrNull(req.targetOrbitalShellId)
      && r.value.launchCampaignStart == StrOrNull(req.plannedLaunchDate)
      && r.value.missionDurationYears == NumOrNull(req.missionDurationYears)
      && r.value.totalMissionCostUsd == NumOrNull(req.totalCostUsd)
  {
    var check := CheckReferences(db, req.targetOrbitalShellId, req.satelliteConfigurationId, req.launchVehicleId);
    ReferenceErrorsSayNotFound(db, req.targetOrbitalShellId, req.satelliteConfigurationId, req.launchVehicleId);
    if check.Some? then Failure(check.value)
    else
      Success(NewMission(
        req.name, req.operator, req.missionType, req.totalSatellites,
        IdOrNull(req.targetOrbitalShellId), StrOrNull(req.plannedLaunchDate),
        NumOrNull(req.missionDurationYears), NumOrNull(req.totalCostUsd),
        req.sustainabilityCommitments.GetOr([]), req.regulatoryApprovals.GetOr(map[]),
        Planning))
  }

  /** A validated request reaches the insert unchanged: its ids, duration and
      cost are positive when present, so none is replaced by null. */
  lemma CreateKeepsValidatedValues(db: References, req: CreateMissionRequest)
    requires ValidCreateMissionRequest(req)
    requires CheckReferences(db, req.targetOrbitalShellId, req.satelliteConfigurationId, req.launchVehicleId).None?
    ensures CreateMission(db, req).Success?
    ensures var n := CreateMission(db, req).value;
            && n.targetOrbitalShellId == req.targetOrbitalShellId
            && n.missionDurationYears == req.missionDurationYears
            && n.totalMissionCostUsd == req.totalCostUsd
  {
  }

  // ---------------------------------------------------------------------------
  // Update

  const NoFieldsError := "No valid fields provided for update"

  /** `fieldMappings`: the column an update key writes. `description`,
      `satellite_configuration_id` and `launch_vehicle_id` have none. */
  function Column(f: UpdateField): Option<string> {
    match f
    case Name => Some("mission_name")
    case Operator => Some("mission_operator")
    case MissionType => Some("mission_type")
    case TotalSatellites => Some("planned_satellites")
    case DeployedSatellites => Some("deployed_satellites")
    case OperationalSatellites => Some("operational_satellites")
    case TargetOrbitalShellId => Some("target_orbital_shell_id")
    case PlannedLaunchDate => Some("launch_campaign_start")
    case MissionDurationYears => Some("mission_duration_years")
    case TotalCostUsd => Some("total_mission_cost_usd")
    case MissionStatusField => Some("mission_status")
    case RiskAssessmentScore => Some("risk_assessment_score")
    case SustainabilityCommitments => Some("sustainability_commitments")
    case RegulatoryApprovals => Some("regulatory_approvals")
    case Description => None
    case SatelliteConfigurationId => None
    case LaunchVehicleId => None
  }

  /** An entry the builder turns into an assignment: a defined value under a mapped key. */
  predicate Maps(e: (Key, Value)) {
    e.1 != Undefined && e.0.Known? && Column(e.0.field).Some?
  }

  /** The (column, value) pairs of the mapped entries, in entry order. */
  function Mapped(entries: Entries): (m: seq<(string, Value)>)
    ensures |m| <= |entries|
    decreases |entries|
  {
    if entries == [] then []
    else
      var e := entries[|entries| - 1];
      Mapped(entries[..|entries| - 1]) + (if Maps(e) then [(Column(e.0.field).value, e.1)] else [])
  }

  /** An update maps nothing exactly when every entry is undefined or under an unmapped key. */
  lemma {:induction false} MappedEmptyIff(entries: Entries)
    ensures Mapped(entries) == [] <==> forall i :: 0 <= i < |entries| ==> !Maps(entries[i])
    decreases |entries|
  {
    if entries != [] {
      var init := entries[..|entries| - 1];
      MappedEmptyIff(init);
      assert forall i :: 0 <= i < |init| ==> init[i] == entries[i];
    }
  }

  /** An update that only sets the description builds no assignment. */
  lemma DescriptionOnlyMapsNothing(v: Value)
    ensures Mapped([(Known(Description), v)]) == []
  {
    MappedEmptyIff([(Known(Description), v)]);
  }

  /** `col = $k`. */
  function Assignment(column: string, k: nat): string {
    column + " = $" + NatToString(k)
  }

  /** The placeholder of an assignment reads back as its number. */
  lemma AssignmentPlaceholder(column: string, k: nat)
    ensures var a := Assignment(column, k);
            && a[..|column|] == column
            && a[|column|..|column| + 4] == " = $"
            && (forall i :: |column| + 4 <= i < |a| ==> IsDigit(a[i]))
            && DigitsValue(a[|column| + 4..]) == k
  {
    var a := Assignment(column, k);
    assert a[|column| + 4..] == NatToString(k);
    NatToStringRoundTrip(k);
  }

  const TimestampAssignment := "updated_at = CURRENT_TIMESTAMP"

  /** The SET clause's assignments, the bound values, and the placeholder of the WHERE clause. */
  datatype UpdateStatement = UpdateStatement(assignments: seq<string>, values: seq<Value>, whereParam: nat)

  /** `s` is the statement for mapped pairs `m` and mission `id`: assignment
      `j` writes column `j` from placeholder `$(j+1)`, which binds pair `j`'s
      value; `updated_at` comes last without a placeholder; the id is the last
      value, bound by the WHERE clause's placeholder. */
  predicate StatementFor(m: seq<(string, Value)>, id: int, s: UpdateStatement) {
    && |s.assignments| == |m| + 1
    && |s.values| == |m| + 1
    && (forall j :: 0 <= j < |m| ==> s.assignments[j] == Assignment(m[j].0, j + 1) && s.values[j] == m[j].1)
    && s.assignments[|m|] == TimestampAssignment
    && s.values[|m|] == Num(id as real)
    && s.whereParam == |m| + 1
  }

  /** In a statement, every placeholder `$k` of the SET clause and the WHERE
      clause's binds value `k`, and the WHERE clause binds the id. */
  lemma PlaceholdersBindValues(m: seq<(string, Value)>, id: int, s: UpdateStatement)
    requires StatementFor(m, id, s)
    ensures s.whereParam == |s.values| && s.values[s.whereParam - 1] == Num(id as real)
    ensures forall j :: 0 <= j < |m| ==> DigitsValue(s.assignments[j][|m[j].0| + 4..]) == j + 1
  {
    forall j | 0 <= j < |m|
      ensures DigitsValue(s.assignments[j][|m[j].0| + 4..]) == j + 1
    {
      AssignmentPlaceholder(m[j].0, j + 1);
    }
  }

  /** The loop over `Object.entries(updateData)`, the empty check and the
      closing `updated_at` assignment and id value. */
  method BuildUpdate(entries: Entries, id: int) returns (r: Result<UpdateStatement, string>)
    ensures r.Failure? <==> Mapped(entries) == []
    ensures r.Failure? ==> r.error == NoFieldsError
    ensures r.Success? ==> StatementFor(Mapped(entries), id, r.value)
  {
    var updateFields: seq<string> := [];
    var values: seq<Value> := [];
    var paramCount: nat := 1;
    var i := 0;
    while i < |entries|
      invariant 0 <= i <= |entries|
      invariant |updateFields| == |values| == |Mapped(entries[..i])| && paramCount == |values| + 1
      invariant forall j :: 0 <= j < |values| ==>
                  updateFields[j] == Assignment(Mapped(entries[..i])[j].0, j + 1) && values[j] == Mapped(entries[..i])[j].1
    {
      var e := entries[i];
      assert entries[..i + 1][..i] == entries[..i];
      if e.1 != Undefined && e.0.Known? && Column(e.0.field).Some? {
        updateFields := updateFields + [Assignment(Column(e.0.field).value, paramCount)];
        values := values + [e.1];
        paramCount := paramCount + 1;
      }
      i := i + 1;
    }
    assert entries[..i] == entries;
    if |updateFields| == 0 {
      return Failure(NoFieldsError);
    }
    updateFields := updateFields + [TimestampAssignment];
    values := values + [Num(id as real)];
    r := Success(UpdateStatement(updateFields, values, paramCount));
  }

  /** The three reference fields an update names, for its existence checks. */
  predicate ReferenceValuesIntegral(entries: Entries) {
    forall i :: 0 <= i < |entries| && entries[i].0 in {Known(TargetOrbitalShellId), Known(SatelliteConfigurationId), Known(LaunchVehicleId)} ==>
      entries[i].1 in {Undefined, Null} || (entries[i].1.Num? && IsInteger(entries[i].1.x))
  }

  /** A validated update body names whole-number ids, if any. */
  lemma ValidUpdateHasIntegralReferences(isIso: string -> bool, entries: Entries)
    requires ValidUpdateMissionRequest(isIso, entries)
    ensures ReferenceValuesIntegral(entries)
  {
  }

  /** `updateData[f]` for a reference field, as an id when truthy. */
  function ReferenceValue(entries: Entries, f: UpdateField): (r: Option<int>)
    requires ReferenceValuesIntegral(entries)
    requires f in {TargetOrbitalShellId, SatelliteConfigurationId, LaunchVehicleId}
    ensures r.Some? <==> Lookup(entries, f).Some? && Lookup(entries, f).value.Num? && Lookup(entries, f).value.x != 0.0
    ensures r.Some? ==> r.value as real == Lookup(entries, f).value.x && r.value != 0
  {
    match Lookup(entries, f)
    case Some(Num(x)) =>
      var i :| 0 <= i < |entries| && entries[i] == (Known(f), Num(x));
      assert entries[i].0 in {Known(TargetOrbitalShellId), Known(SatelliteConfigurationId), Known(LaunchVehicleId)};
      if x != 0.0 then Some(ToInt(x)) else None
    case _ => None
  }

  /** `updateMission` after its queries: nothing when the mission does not
      exist (checked first), the error of a missing reference, the error of
      an update that maps no field, or the UPDATE statement. */
  method UpdateMission(db: References, missionExists: bool, id: int, entries: Entries)
    returns (r: Result<Option<UpdateStatement>, string>)
    requires ReferenceValuesIntegral(entries)
    ensures !missionExists ==> r == Success(None)
    ensures missionExists ==>
      var check := CheckReferences(db, ReferenceValue(entries, TargetOrbitalShellId),
                                   ReferenceValue(entries, SatelliteConfigurationId),
                                   ReferenceValue(entries, LaunchVehicleId));
      && (check.Some? ==> r == Failure(check.value))
      && (check.None? && Mapped(entries) == [] ==> r == Failure(NoFieldsError))
      && (check.None? && Mapped(entries) != [] ==> r.Success? && r.value.Some? && StatementFor(Mapped(entries), id, r.value.value))
  {
    if !missionExists {
      return Success(None);
    }
    var check := CheckReferences(db, ReferenceValue(entries, TargetOrbitalShellId),
                                 ReferenceValue(entries, SatelliteConfigurationId),
                                 ReferenceValue(entries, LaunchVehicleId));
    if check.Some? {
      return Failure(check.value);
    }
    var built := BuildUpdate(entries, id);
    match built
    case Failure(e) => r := Failure(e);
    case Success(s) => r := Success(Some(s));
  }

  // ---------------------------------------------------------------------------
  // Delete

  /** `rowCount !== null && rowCount > 0`. */
  predicate DeleteSucceeded(rowCount: Option<int>) {
    rowCount.Some? && rowCount.value > 0
  }

  /** `deleteMission` on a table of mission ids: the ids left and the returned flag. */
  function DeleteMission(ids: set<int>, id: int): (r: (set<int>, bool))
    ensures r.0 == ids - {id}
    ensures r.1 <==> id in ids
  {
    var rowCount := if id in ids then 1 else 0;
    (ids - {id}, DeleteSucceeded(Some(rowCount)))
  }

  /** Deleting twice reports a deletion at most once. */
  lemma DeleteTwiceReportsOnce(ids: set<int>, id: int)
    ensures var (left, _) := DeleteMission(ids, id);
            !DeleteMission(left, id).1 && DeleteMission(left, id).0 == left
  {
  }

  // ---------------------------------------------------------------------------
  // Report

  function MissionNotFound(id: int): string {
    "Mission with ID " + IntToString(id) + " not found"
  }

  /** The financial part of a mission report. `progress`, `spentToDate` and
      `remainingBudget` are None where JavaScript produces a non-finite
      number (a mission with no planned satellites). */
  datatype ReportData = ReportData(
    name: string,
    status: string,
    progressPercentage: Option<real>,
    satellitesDeployed: int,
    satellitesOperational: int,
    totalBudget: real,
    spentToDate: Option<int>,
    remainingBudget: Option<int>,
    costPerSatellite: int)

  /** `deployed / total * 100`, when finite. */
  function Progress(deployed: int, total: int): (p: Option<real>)
    ensures p.None? <==> total == 0
    ensures p.Some? ==> p.value * total as real == deployed as real * 100.0
  {
    if total == 0 then None else Some(deployed as real / total as real * 100.0)
  }

  /** `Math.round(p * 100) / 100`: the percentage to two decimals. */
  function TwoDecimals(p: real): (q: real)
    ensures (q * 100.0).Floor as real == q * 100.0
    ensures p * 100.0 - 0.5 < q * 100.0 <= p * 100.0 + 0.5
  {
    Round(p * 100.0) as real / 100.0
  }

  /** `Math.floor(budget * p / 100)`: the whole part of `p` percent of the budget. */
  function PercentOf(budget: real, p: real): (n: int)
    ensures n as real <= budget * p / 100.0 < n as real + 1.0
  {
    (budget * p / 100.0).Floor
  }

  /** `generateMissionReport`'s arithmetic on the mission `getMissionById` returned. */
  function GenerateMissionReport(id: int, mission: Option<Mission>): (r: Result<ReportData, string>)
    ensures mission.None? <==> r.Failure?
    ensures r.Failure? ==> r.error == MissionNotFound(id)
    ensures r.Success? ==>
      var m := mission.value;
      && r.value.totalBudget == OrNum(m.totalCostUsd, 0.0)
      && (r.value.progressPercentage.None? <==> m.totalSatellites == 0)
      && (r.value.spentToDate.None? <==> m.totalSatellites == 0)
      && (r.value.remainingBudget.None? <==> m.totalSatellites == 0)
      && (m.totalSatellites > 0 ==>
            r.value.costPerSatellite as real * m.totalSatellites as real <= r.value.totalBudget
            < (r.value.costPerSatellite + 1) as real * m.totalSatellites as real)
      && (m.totalSatellites <= 0 ==> r.value.costPerSatellite == 0)
    ensures r.Success? && mission.value.totalSatellites != 0 ==>
      var m := mission.value;
      var p := Progress(m.deployedSatellites, m.totalSatellites).value;
      var shown := r.value.progressPercentage.value * 100.0;
      && shown.Floor as real == shown
      && p * 100.0 - 0.5 < shown <= p * 100.0 + 0.5
      && r.value.spentToDate.value as real <= r.value.totalBudget * p / 100.0 < r.value.spentToDate.value as real + 1.0
      && r.value.remainingBudget.value as real <= r.value.totalBudget * (100.0 - p) / 100.0
         < r.value.remainingBudget.value as real + 1.0
  {
    match mission
    case None => Failure(MissionNotFound(id))
    case Some(m) =>
      var budget := OrNum(m.totalCostUsd, 0.0);
      var p := Progress(m.deployedSatellites, m.totalSatellites);
      var cps := if m.totalSatellites > 0 then (budget / m.totalSatellites as real).Floor else 0;
      FloorDivisionBounds(budget, m.totalSatellites);
      Success(ReportData(
        m.name, m.missionStatus,
        if p.Some? then Some(TwoDecimals(p.value)) else None,
        m.deployedSatellites, m.operationalSatellites, budget,
        if p.Some? then Some(PercentOf(budget, p.value)) else None,
        if p.Some? then Some(PercentOf(budget, 100.0 - p.value)) else None,
        cps))
  }

  lemma FloorDivisionBounds(budget: real, total: int)
    ensures total > 0 ==>
      var c := (budget / total as real).Floor;
      c as real * total as real <= budget < (c + 1) as real * total as real
  {
    if total > 0 {
      var q := budget / total as real;
      var c := q.Floor;
      assert q * total as real == budget;
      MultiplyMonotone(c as real, q, total as real);
      MultiplyStrict(q, (c + 1) as real, total as real);
    }
  }

  lemma MultiplyMonotone(a: real, b: real, t: real)
    requires a <= b && t > 0.0
    ensures a * t <= b * t
  {
  }

  lemma MultiplyStrict(a: real, b: real, t: real)
    requires a < b && t > 0.0
    ensures a * t < b * t
  {
  }

  /** Spent and remaining budget are floors of two parts that add up to the
      budget, so together they fall short of it by less than two. */
  lemma SpentPlusRemaining(id: int, m: Mission)
    requires m.totalSatellites != 0
    ensures var r := GenerateMissionReport(id, Some(m)).value;
            && r.totalBudget - 2.0 < (r.spentToDate.value + r.remainingBudget.value) as real <= r.totalBudget
  {
    var r := GenerateMissionReport(id, Some(m)).value;
    var p := Progress(m.deployedSatellites, m.totalSatellites).value;
    var b := r.totalBudget;
    assert b * p / 100.0 + b * (100.0 - p) / 100.0 == b;
  }

  /** With deployment between none and all, neither part exceeds a non-negative budget. */
  lemma SpentWithinBudget(id: int, m: Mission)
    requires 0 <= m.deployedSatellites <= m.totalSatellites
    requires OrNum(m.totalCostUsd, 0.0) >= 0.0
    ensures var r := GenerateMissionReport(id, Some(m)).value;
            && (r.progressPercentage.Some? ==> 0 <= r.spentToDate.value && r.spentToDate.value as real <= r.totalBudget)
            && (r.progressPercentage.Some? ==> 0 <= r.remainingBudget.value && r.remainingBudget.value as real <= r.totalBudget)
  {
    var r := GenerateMissionReport(id, Some(m)).value;
    if m.totalSatellites != 0 {
      var p := Progress(m.deployedSatellites, m.totalSatellites).value;
      var b := r.totalBudget;
      ProgressWithinPercent(m.deployedSatellites, m.totalSatellites);
      ScaledWithin(b, p);
      ScaledWithin(b, 100.0 - p);
      var spent, rest := r.spentToDate.value, r.remainingBudget.value;
      assert spent as real <= b * p / 100.0 < spent as real + 1.0;
      assert rest as real <= b * (100.0 - p) / 100.0 < rest as real + 1.0;
    }
  }

  lemma ProgressWithinPercent(deployed: int, total: int)
    requires 0 <= deployed <= total && total != 0
    ensures 0.0 <= Progress(deployed, total).value <= 100.0
  {
    var p := Progress(deployed, total).value;
    var t := total as real;
    assert p * t == deployed as real * 100.0;
    if p < 0.0 {
      MultiplyStrict(p, 0.0, t);
    }
    if p > 100.0 {
      MultiplyStrict(100.0, p, t);
    }
  }

  lemma ScaledWithin(b: real, p: real)
    requires b >= 0.0 && 0.0 <= p <= 100.0
    ensures 0.0 <= b * p / 100.0 <= b
  {
    MultiplyMonotone(p, 100.0, b + 1.0);
    assert b * p <= b * 100.0 by {
      if b > 0.0 {
        MultiplyMonotone(p, 100.0, b);
      }
    }
  }

  // ---------------------------------------------------------------------------
  // Row mapping

  /** `mapRowToMission`: rename the columns, read falsy optional values as
      absent, and default the counts to 0, the list to [] and the record to {}.
      A non-null launch date is a Date object, which is always truthy. */
  function MapRowToMission(row: MissionRow): (m: Mission)
    ensures Normalised(m)
    ensures m.id == row.id && m.name == row.missionName && m.operator == row.missionOperator
    ensures m.totalSatellites == row.plannedSatellites && m.missionStatus == row.missionStatus
    ensures m.deployedSatellites == row.deployedSatellites.GetOr(0)
    ensures m.operationalSatellites == row.operationalSatellites.GetOr(0)
    ensures m.sustainabilityCommitments == row.sustainabilityCommitments.GetOr([])
    ensures m.regulatoryApprovals == row.regulatoryApprovals.GetOr(map[])
  {
    Mission(
      row.id, row.missionName, StrOrUndefined(row.description), row.missionType, row.missionOperator,
      IdOrNull(row.targetOrbitalShellId), IdOrNull(row.satelliteConfigurationId), IdOrNull(row.launchVehicleId),
      row.launchCampaignStart, NumOrNull(row.missionDurationYears),
      row.plannedSatellites,
      if TruthyInt(row.deployedSatellites) then row.deployedSatellites.value else 0,
      if TruthyInt(row.operationalSatellites) then row.operationalSatellites.value else 0,
      NumOrNull(row.totalMissionCostUsd), row.missionStatus, NumOrNull(row.riskAssessmentScore),
      row.sustainabilityCommitments.GetOr([]), row.regulatoryApprovals.GetOr(map[]),
      row.createdAt, row.updatedAt)
  }

  function StrOrUndefined(o: Option<string>): (r: Option<string>)
    ensures r.Some? <==> TruthyStr(o)
    ensures r.Some? ==> r == o
  {
    StrOrNull(o)
  }

  /** A mission as the mapping can produce it: no optional field holds a falsy value. */
  predicate Normalised(m: Mission) {
    && (m.description.Some? ==> TruthyStr(m.description))
    && (m.targetOrbitalShellId.Some? ==> TruthyInt(m.targetOrbitalShellId))
    && (m.satelliteConfigurationId.Some? ==> TruthyInt(m.satelliteConfigurationId))
    && (m.launchVehicleId.Some? ==> TruthyInt(m.launchVehicleId))
    && (m.missionDurationYears.Some? ==> TruthyNum(m.missionDurationYears))
    && (m.totalCostUsd.Some? ==> TruthyNum(m.totalCostUsd))
    && (m.riskAssessmentScore.Some? ==> TruthyNum(m.riskAssessmentScore))
  }

  /** The row that stores a mission. */
  function RowOf(m: Mission): MissionRow {
    MissionRow(
      m.id, m.name, m.description, m.missionType, m.operator,
      m.targetOrbitalShellId, m.satelliteConfigurationId, m.launchVehicleId,
      m.plannedLaunchDate, m.missionDurationYears, m.totalSatellites,
      Some(m.deployedSatellites), Some(m.operationalSatellites),
      m.totalCostUsd, m.missionStatus, m.riskAssessmentScore,
      Some(m.sustainabilityCommitments), Some(m.regulatoryApprovals),
      m.createdAt, m.updatedAt)
  }

  /** Reading back the row of a normalised mission gives the mission, and
      only normalised missions survive the round trip. */
  lemma RowRoundTrip(m: Mission)
    ensures MapRowToMission(RowOf(m)) == m <==> Normalised(m)
  {
  }

  /** Mapping a row is a normalisation: mapping its result's row again changes nothing. */
  lemma MapRowIdempotent(row: MissionRow)
    ensures MapRowToMission(RowOf(MapRowToMission(row))) == MapRowToMission(row)
  {
    RowRoundTrip(MapRowToMission(row));
  }
}

=== FILE: mission_types.dfy ===
/** Missions as the mission service stores and returns them. A row of
    `mission_profiles` arrives already read; nullable columns are `Option`s. */
module MissionTypes {
  import opened Wrappers

  datatype MissionStatus = Planning | Approved | ActiveDeployment | Operational | Decommissioning | Completed | Cancelled

  /** The enumeration's string values, in declaration order. */
  const StatusNames: seq<string> :=
    ["PLANNING", "APPROVED", "ACTIVE_DEPLOYMENT", "OPERATIONAL", "DECOMMISSIONING", "COMPLETED", "CANCELLED"]

  function StatusName(s: MissionStatus): (n: string)
    ensures n in StatusNames
  {
    match s
    case Planning => "PLANNING"
    case Approved => "APPROVED"
    case ActiveDeployment => "ACTIVE_DEPLOYMENT"
    case Operational => "OPERATIONAL"
    case Decommissioning => "DECOMMISSIONING"
    case Completed => "COMPLETED"
    case Cancelled => "CANCELLED"
  }

  /** A regulatory-approvals record: keys to their values, kept as text. */
  type Approvals = map<string, string>

  /** A JSON value of a request body, plus `undefined` for a key present with no value. */
  datatype Value =
    | Undefined
    | Null
    | Bool(b: bool)
    | Num(x: real)
    | Str(s: string)
    | StrList(items: seq<string>)
    | Obj(fields: Approvals)

  /** The mission the API returns. */
  datatype Mission = Mission(
    id: int,
    name: string,
    description: Option<string>,
    missionType: string,
    operator: string,
    targetOrbitalShellId: Option<int>,
    satelliteConfigurationId: Option<int>,
    launchVehicleId: Option<int>,
    plannedLaunchDate: Option<string>,
    missionDurationYears: Option<real>,
    totalSatellites: int,
    deployedSatellites: int,
    operationalSatellites: int,
    totalCostUsd: Option<real>,
    missionStatus: string,
    riskAssessmentScore: Option<real>,
    sustainabilityCommitments: seq<string>,
    regulatoryApprovals: Approvals,
    createdAt: string,
    updatedAt: string)

  /** A row of `mission_profiles`, under its column names. */
  datatype MissionRow = MissionRow(
    id: int,
    missionName: string,
    description: Option<string>,
    missionType: string,
    missionOperator: string,
    targetOrbitalShellId: Option<int>,
    satelliteConfigurationId: Option<int>,
    launchVehicleId: Option<int>,
    launchCampaignStart: Option<string>,
    missionDurationYears: Option<real>,
    plannedSatellites: int,
    deployedSatellites: Option<int>,
    operationalSatellites: Option<int>,
    totalMissionCostUsd: Option<real>,
    missionStatus: string,
    riskAssessmentScore: Option<real>,
    sustainabilityCommitments: Option<seq<string>>,
    regulatoryApprovals: Option<Approvals>,
    createdAt: string,
    updatedAt: string)

  /** A validated create request. */
  datatype CreateMissionRequest = CreateMissionRequest(
    name: string,
    description: Option<string>,
    missionType: string,
    operator: string,
    targetOrbitalShellId: Option<int>,
    satelliteConfigurationId: Option<int>,
    launchVehicleId: Option<int>,
    plannedLaunchDate: Option<string>,
    missionDurationYears: Option<real>,
    totalSatellites: int,
    totalCostUsd: Option<real>,
    sustainabilityCommitments: Option<seq<string>>,
    regulatoryApprovals: Option<Approvals>)

  /** The eleven values the create statement inserts, in placeholder order. */
  datatype NewMission = NewMission(
    missionName: string,
    missionOperator: string,
    missionType: string,
    plannedSatellites: int,
    targetOrbitalShellId: Option<int>,
    launchCampaignStart: Option<string>,
    missionDurationYears: Option<real>,
    totalMissionCostUsd: Option<real>,
    sustainabilityCommitments: seq<string>,
    regulatoryApprovals: Approvals,
    missionStatus: MissionStatus)

  /** The ids the existence queries can find: every orbital shell, every
      satellite configuration, and the launch vehicles whose `active_status` is true. */
  datatype References = References(shells: set<int>, configurations: set<int>, activeVehicles: set<int>)
}

=== FILE: mission_validators.dfy ===
/** The request schemas of the mission endpoints: create, update and the id
    path parameter. Date parsing is a parameter: `parse` gives the instant
    (in milliseconds) an ISO-8601 text denotes, or None for any other text. */
module MissionValidators {
  import opened Wrappers
  import opened Validation
  import opened MissionTypes

  /** A create body as parsed from JSON. */
  datatype CreateMissionBody = CreateMissionBody(
    name: Option<string>,
    description: Option<string>,
    missionType: Option<string>,
    operator: Option<string>,
    targetOrbitalShellId: Option<real>,
    satelliteConfigurationId: Option<real>,
    launchVehicleId: Option<real>,
    plannedLaunchDate: Option<string>,
    missionDurationYears: Option<real>,
    totalSatellites: Option<real>,
    totalCostUsd: Option<real>,
    sustainabilityCommitments: Option<seq<string>>,
    regulatoryApprovals: Option<Approvals>,
    /** The body's properties the schema does not declare, in order. */
    unknownKeys: seq<string>)

  /** At most 20 commitments, each a non-empty string of at most 500 characters. */
  predicate CommitmentsOk(cs: seq<string>) {
    |cs| <= 20 && forall i :: 0 <= i < |cs| ==> StringIn(cs[i], 0, 500)
  }

  /** `Joi.date().iso().min('now')`: an ISO-8601 text not before `now`. */
  predicate LaunchDateOk(parse: string -> Option<int>, now: int, d: Option<string>) {
    d.None? || (parse(d.value).Some? && parse(d.value).value >= now)
  }

  /** The keys the schema declares, in schema order. */
  function CreateMissionDeclared(parse: string -> Option<int>, now: int, b: CreateMissionBody): seq<Check> {
    [ Check("name", RequiredString(b.name, 3, 255)),
      Check("description", OptionalString(b.description, 0, 1000)),
      Check("mission_type", RequiredString(b.missionType, 3, 100)),
      Check("operator", RequiredString(b.operator, 2, 255)),
      Check("target_orbital_shell_id", OptionalPositiveInt(b.targetOrbitalShellId)),
      Check("satellite_configuration_id", OptionalPositiveInt(b.satelliteConfigurationId)),
      Check("launch_vehicle_id", OptionalPositiveInt(b.launchVehicleId)),
      Check("planned_launch_date", LaunchDateOk(parse, now, b.plannedLaunchDate)),
      Check("mission_duration_years", OptionalPositive(b.missionDurationYears, 50.0)),
      Check("total_satellites", RequiredIntIn(b.totalSatellites, 1, 100000)),
      Check("total_cost_usd", OptionalPositive(b.totalCostUsd, 1000000000000.0)),
      Check("sustainability_commitments", b.sustainabilityCommitments.None? || CommitmentsOk(b.sustainabilityCommitments.value)) ]
  }

  /** The declared keys, then every property the schema does not declare. */
  function CreateMissionChecks(parse: string -> Option<int>, now: int, b: CreateMissionBody): seq<Check> {
    CreateMissionDeclared(parse, now, b) + UnknownKeys(b.unknownKeys)
  }

  predicate PositiveId(o: Option<int>) {
    o.None? || o.value > 0
  }

  /** What a create request satisfies once it has passed its schema. */
  predicate ValidCreateMissionRequest(r: CreateMissionRequest) {
    && 3 <= JsLength(r.name) <= 255
    && (r.description.None? || 0 < JsLength(r.description.value) <= 1000)
    && 3 <= JsLength(r.missionType) <= 100
    && 2 <= JsLength(r.operator) <= 255
    && PositiveId(r.targetOrbitalShellId)
    && PositiveId(r.satelliteConfigurationId)
    && PositiveId(r.launchVehicleId)
    && (r.missionDurationYears.None? || 0.0 < r.missionDurationYears.value <= 50.0)
    && 1 <= r.totalSatellites <= 100000
    && (r.totalCostUsd.None? || 0.0 < r.totalCostUsd.value <= 1000000000000.0)
    && (r.sustainabilityCommitments.None? || CommitmentsOk(r.sustainabilityCommitments.value))
  }

  /** A create body that passes every key of the schema. */
  predicate ValidCreateMissionBody(parse: string -> Option<int>, now: int, b: CreateMissionBody) {
    && b.name.Some? && 3 <= JsLength(b.name.value) <= 255
    && (b.description.None? || 0 < JsLength(b.description.value) <= 1000)
    && b.missionType.Some? && 3 <= JsLength(b.missionType.value) <= 100
    && b.operator.Some? && 2 <= JsLength(b.operator.value) <= 255
    && OptionalPositiveInt(b.targetOrbitalShellId)
    && OptionalPositiveInt(b.satelliteConfigurationId)
    && OptionalPositiveInt(b.launchVehicleId)
    && LaunchDateOk(parse, now, b.plannedLaunchDate)
    && (b.missionDurationYears.None? || 0.0 < b.missionDurationYears.value <= 50.0)
    && b.totalSatellites.Some? && IsInteger(b.totalSatellites.value)
    && 1.0 <= b.totalSatellites.value <= 100000.0
    && (b.totalCostUsd.None? || 0.0 < b.totalCostUsd.value <= 1000000000000.0)
    && (b.sustainabilityCommitments.None? || CommitmentsOk(b.sustainabilityCommitments.value))
    && b.unknownKeys == []
  }

  /** The schema accepts exactly the bodies whose every key is within its bounds. */
  lemma CreateChecksPassIff(parse: string -> Option<int>, now: int, b: CreateMissionBody)
    ensures FirstError(CreateMissionChecks(parse, now, b)).None? <==> ValidCreateMissionBody(parse, now, b)
  {
    var cs := CreateMissionDeclared(parse, now, b);
    UnknownKeysReported(cs, b.unknownKeys);
    if FirstError(CreateMissionChecks(parse, now, b)).None? {
      assert cs[0].ok && cs[1].ok && cs[2].ok && cs[3].ok && cs[4].ok && cs[5].ok;
      assert cs[6].ok && cs[7].ok && cs[8].ok && cs[9].ok && cs[10].ok && cs[11].ok;
    }
  }

  /** `createMissionSchema.validate`. */
  function ValidateCreateMission(parse: string -> Option<int>, now: int, b: CreateMissionBody): (r: Result<CreateMissionRequest, string>)
    ensures r.Success? <==> ValidCreateMissionBody(parse, now, b)
    ensures r.Success? ==>
      && r.value.name == b.name.value && r.value.description == b.description
      && r.value.missionType == b.missionType.value && r.value.operator == b.operator.value
      && r.value.plannedLaunchDate == b.plannedLaunchDate
      && r.value.missionDurationYears == b.missionDurationYears
      && r.value.totalSatellites as real == b.totalSatellites.value
      && r.value.totalCostUsd == b.totalCostUsd
      && r.value.sustainabilityCommitments == b.sustainabilityCommitments
      && r.value.regulatoryApprovals == b.regulatoryApprovals
    ensures r.Success? ==>
      && r.value.targetOrbitalShellId.None? == b.targetOrbitalShellId.None?
      && r.value.satelliteConfigurationId.None? == b.satelliteConfigurationId.None?
      && r.value.launchVehicleId.None? == b.launchVehicleId.None?
      && (b.targetOrbitalShellId.Some? ==> r.value.targetOrbitalShellId.value as real == b.targetOrbitalShellId.value)
      && (b.satelliteConfigurationId.Some? ==> r.value.satelliteConfigurationId.value as real == b.satelliteConfigurationId.value)
      && (b.launchVehicleId.Some? ==> r.value.launchVehicleId.value as real == b.launchVehicleId.value)
    ensures r.Success? ==> ValidCreateMissionRequest(r.value)
    ensures r.Failure? ==> FirstError(CreateMissionChecks(parse, now, b)) == Some(r.error)
  {
    CreateChecksPassIff(parse, now, b);
    match FirstError(CreateMissionChecks(parse, now, b))
    case Some(f) => Failure(f)
    case None =>
      Success(CreateMissionRequest(b.name.value, b.description, b.missionType.value, b.operator.value,
                                   OptionToInt(b.targetOrbitalShellId), OptionToInt(b.satelliteConfigurationId),
                                   OptionToInt(b.launchVehicleId), b.plannedLaunchDate, b.missionDurationYears,
                                   ToInt(b.totalSatellites.value), b.totalCostUsd,
                                   b.sustainabilityCommitments, b.regulatoryApprovals))
  }

  /** The keys the update schema knows, in schema order. */
  datatype UpdateField =
    | Name | Description | MissionType | Operator
    | TargetOrbitalShellId | SatelliteConfigurationId | LaunchVehicleId
    | PlannedLaunchDate | MissionDurationYears | TotalSatellites
    | DeployedSatellites | OperationalSatellites | TotalCostUsd
    | MissionStatusField | RiskAssessmentScore | SustainabilityCommitments | RegulatoryApprovals

  const UpdateFields: seq<UpdateField> :=
    [ Name, Description, MissionType, Operator, TargetOrbitalShellId, SatelliteConfigurationId,
      LaunchVehicleId, PlannedLaunchDate, MissionDurationYears, TotalSatellites, DeployedSatellites,
      OperationalSatellites, TotalCostUsd, MissionStatusField, RiskAssessmentScore,
      SustainabilityCommitments, RegulatoryApprovals ]

  lemma EveryFieldListed(f: UpdateField)
    ensures f in UpdateFields
  {
  }

  /** The JSON key of a field. */
  function FieldKey(f: UpdateField): string {
    match f
    case Name => "name"
    case Description => "description"
    case MissionType => "mission_type"
    case Operator => "operator"
    case TargetOrbitalShellId => "target_orbital_shell_id"
    case SatelliteConfigurationId => "satellite_configuration_id"
    case LaunchVehicleId => "launch_vehicle_id"
    case PlannedLaunchDate => "planned_launch_date"
    case MissionDurationYears => "mission_duration_years"
    case TotalSatellites => "total_satellites"
    case DeployedSatellites => "deployed_satellites"
    case OperationalSatellites => "operational_satellites"
    case TotalCostUsd => "total_cost_usd"
    case MissionStatusField => "mission_status"
    case RiskAssessmentScore => "risk_assessment_score"
    case SustainabilityCommitments => "sustainability_commitments"
    case RegulatoryApprovals => "regulatory_approvals"
  }

  /** A property name of an update body: one the schema knows, or any other. */
  datatype Key = Known(field: UpdateField) | Other(name: string)

  /** The name a key is written as in JSON. */
  function KeyName(k: Key): string {
    match k
    case Known(f) => FieldKey(f)
    case Other(n) => n
  }

  /** Classify a JSON property name. */
  function ParseKey(name: string): (k: Key)
    ensures KeyName(k) == name
    ensures k.Other? ==> forall f :: FieldKey(f) != name
  {
    if name == "name" then Known(Name)
    else if name == "description" then Known(Description)
    else if name == "mission_type" then Known(MissionType)
    else if name == "operator" then Known(Operator)
    else if name == "target_orbital_shell_id" then Known(TargetOrbitalShellId)
    else if name == "satellite_configuration_id" then Known(SatelliteConfigurationId)
    else if name == "launch_vehicle_id" then Known(LaunchVehicleId)
    else if name == "planned_launch_date" then Known(PlannedLaunchDate)
    else if name == "mission_duration_years" then Known(MissionDurationYears)
    else if name == "total_satellites" then Known(TotalSatellites)
    else if name == "deployed_satellites" then Known(DeployedSatellites)
    else if name == "operational_satellites" then Known(OperationalSatellites)
    else if name == "total_cost_usd" then Known(TotalCostUsd)
    else if name == "mission_status" then Known(MissionStatusField)
    else if name == "risk_assessment_score" then Known(RiskAssessmentScore)
    else if name == "sustainability_commitments" then Known(SustainabilityCommitments)
    else if name == "regulatory_approvals" then Known(RegulatoryApprovals)
    else Other(name)
  }

  /** The entries of a parsed JSON object, each property name classified. */
  type Entries = seq<(Key, Value)>

  predicate PositiveIntValue(v: Value) {
    v.Num? && IsInteger(v.x) && v.x > 0.0
  }

  predicate NonNegativeIntValue(v: Value) {
    v.Num? && IsInteger(v.x) && v.x >= 0.0
  }

  /** The constraint of one update key on a present value; `undefined` counts as absent. */
  predicate FieldOk(isIso: string -> bool, f: UpdateField, v: Value) {
    v == Undefined ||
    match f
    case Name => v.Str? && StringIn(v.s, 3, 255)
    case Description => v.Str? && StringIn(v.s, 0, 1000)
    case MissionType => v.Str? && StringIn(v.s, 3, 100)
    case Operator => v.Str? && StringIn(v.s, 2, 255)
    case TargetOrbitalShellId => PositiveIntValue(v)
    case SatelliteConfigurationId => PositiveIntValue(v)
    case LaunchVehicleId => PositiveIntValue(v)
    case PlannedLaunchDate => v.Str? && isIso(v.s)
    case MissionDurationYears => v.Num? && 0.0 < v.x <= 50.0
    case TotalSatellites => v.Num? && IsInteger(v.x) && 1.0 <= v.x <= 100000.0
    case DeployedSatellites => NonNegativeIntValue(v)
    case OperationalSatellites => NonNegativeIntValue(v)
    case TotalCostUsd => v.Num? && 0.0 < v.x <= 1000000000000.0
    case MissionStatusField => v.Str? && v.s in StatusNames
    case RiskAssessmentScore => v.Num? && 0.0 <= v.x <= 100.0
    case SustainabilityCommitments => v.StrList? && CommitmentsOk(v.items)
    case RegulatoryApprovals => v.Obj?
  }

  /** The own properties of a JavaScript object: no key occurs twice. */
  predicate UniqueKeys(entries: Entries) {
    forall i, j :: 0 <= i < j < |entries| ==> entries[i].0 != entries[j].0
  }

  /** The value of property `f` of the object, if it has one. */
  function Lookup(entries: Entries, f: UpdateField): (r: Option<Value>)
    ensures r.None? <==> forall i :: 0 <= i < |entries| ==> entries[i].0 != Known(f)
    ensures r.Some? ==> exists i :: 0 <= i < |entries| && entries[i] == (Known(f), r.value)
  {
    if entries == [] then None
    else if entries[0].0 == Known(f) then Some(entries[0].1)
    else Lookup(entries[1..], f)
  }

  /** In an object, the value looked up under an entry's key is that entry's value. */
  lemma {:induction false} LookupFindsEntry(entries: Entries, f: UpdateField, i: nat)
    requires UniqueKeys(entries)
    requires i < |entries| && entries[i].0 == Known(f)
    ensures Lookup(entries, f) == Some(entries[i].1)
    decreases i
  {
    if i > 0 {
      assert entries[0].0 != Known(f);
      assert entries[1..][i - 1] == entries[i];
      LookupFindsEntry(entries[1..], f, i - 1);
    }
  }

  predicate LookupOk(isIso: string -> bool, entries: Entries, f: UpdateField) {
    Lookup(entries, f).None? || FieldOk(isIso, f, Lookup(entries, f).value)
  }

  /** The check of one schema key. */
  function KeyCheck(isIso: string -> bool, entries: Entries, f: UpdateField): Check {
    Check(FieldKey(f), LookupOk(isIso, entries, f))
  }

  /** One check per schema key, in schema order. */
  function KeyChecks(isIso: string -> bool, entries: Entries): seq<Check> {
    seq(|UpdateFields|, j requires 0 <= j < |UpdateFields| => KeyCheck(isIso, entries, UpdateFields[j]))
  }

  /** A failing check for every key the schema does not know, in object order. */
  function UnknownKeyChecks(entries: Entries): (cs: seq<Check>)
    ensures forall j :: 0 <= j < |cs| ==> !cs[j].ok
    ensures (forall i :: 0 <= i < |entries| ==> entries[i].0.Known?) <==> cs == []
  {
    if entries == [] then []
    else (if entries[0].0.Other? then [Check(entries[0].0.name, false)] else [])
         + UnknownKeyChecks(entries[1..])
  }

  /** The schema's checks in the order it runs them: the known keys, then
      unknown keys, then the object's own rule of at least one key. */
  function UpdateMissionChecks(isIso: string -> bool, entries: Entries): seq<Check> {
    KeyChecks(isIso, entries) + UnknownKeyChecks(entries) + [Check("value", |entries| >= 1)]
  }

  /** What an update body satisfies once it has passed its schema. */
  predicate ValidUpdateMissionRequest(isIso: string -> bool, entries: Entries) {
    && UniqueKeys(entries)
    && |entries| >= 1
    && forall i :: 0 <= i < |entries| ==> entries[i].0.Known? && FieldOk(isIso, entries[i].0.field, entries[i].1)
  }

  /** A passing schema key vouches for the entry stored under it. */
  lemma PassingCheckCoversEntry(isIso: string -> bool, entries: Entries, i: nat)
    requires UniqueKeys(entries)
    requires i < |entries| && entries[i].0.Known?
    requires AllPass(KeyChecks(isIso, entries))
    ensures FieldOk(isIso, entries[i].0.field, entries[i].1)
  {
    var cs := KeyChecks(isIso, entries);
    var f := entries[i].0.field;
    EveryFieldListed(f);
    LookupFindsEntry(entries, f, i);
    var j :| 0 <= j < |UpdateFields| && UpdateFields[j] == f;
    assert cs[j].ok;
  }

  /** A schema key passes when every entry satisfies its own key's constraint. */
  lemma ValidEntriesPassCheck(isIso: string -> bool, entries: Entries, f: UpdateField)
    requires forall i :: 0 <= i < |entries| ==> entries[i].0.Known? && FieldOk(isIso, entries[i].0.field, entries[i].1)
    ensures LookupOk(isIso, entries, f)
  {
    if Lookup(entries, f).Some? {
      var i :| 0 <= i < |entries| && entries[i] == (Known(f), Lookup(entries, f).value);
    }
  }

  lemma KnownChecksPassIff(isIso: string -> bool, entries: Entries)
    requires UniqueKeys(entries)
    requires forall i :: 0 <= i < |entries| ==> entries[i].0.Known?
    ensures AllPass(KeyChecks(isIso, entries)) <==>
            (forall i :: 0 <= i < |entries| ==> FieldOk(isIso, entries[i].0.field, entries[i].1))
  {
    var cs := KeyChecks(isIso, entries);
    if AllPass(cs) {
      forall i | 0 <= i < |entries|
        ensures FieldOk(isIso, entries[i].0.field, entries[i].1)
      {
        PassingCheckCoversEntry(isIso, entries, i);
      }
    }
    if forall i :: 0 <= i < |entries| ==> FieldOk(isIso, entries[i].0.field, entries[i].1) {
      forall j | 0 <= j < |cs|
        ensures cs[j].ok
      {
        ValidEntriesPassCheck(isIso, entries, UpdateFields[j]);
      }
    }
  }

  /** The schema accepts exactly the valid bodies. */
  lemma UpdateChecksPassIff(isIso: string -> bool, entries: Entries)
    requires UniqueKeys(entries)
    ensures FirstError(UpdateMissionChecks(isIso, entries)).None? <==> ValidUpdateMissionRequest(isIso, entries)
  {
    var known := KeyChecks(isIso, entries);
    var unknown := UnknownKeyChecks(entries);
    var last := [Check("value", |entries| >= 1)];
    AllPassConcat(known, unknown);
    AllPassConcat(known + unknown, last);
    assert AllPass(last) <==> last[0].ok;
    assert AllPass(unknown) ==> unknown == [] by {
      if unknown != [] {
        assert !unknown[0].ok;
      }
    }
    if unknown == [] {
      KnownChecksPassIff(isIso, entries);
    }
  }

  /** `updateMissionSchema.validate` on the entries of a parsed JSON object. */
  function ValidateUpdateMission(isIso: string -> bool, entries: Entries): (r: Result<Entries, string>)
    requires UniqueKeys(entries)
    ensures r.Success? <==> ValidUpdateMissionRequest(isIso, entries)
    ensures r.Success? ==> r.value == entries
    ensures r.Failure? ==> FirstError(UpdateMissionChecks(isIso, entries)) == Some(r.error)
  {
    UpdateChecksPassIff(isIso, entries);
    match FirstError(UpdateMissionChecks(isIso, entries))
    case Some(f) => Failure(f)
    case None => Success(entries)
  }

  /** `missionIdSchema.validate` on the converted path parameter. */
  function ValidateMissionId(id: Option<real>): (r: Result<int, string>)
    ensures r.Success? <==> id.Some? && IsInteger(id.value) && id.value > 0.0
    ensures r.Success? ==> r.value > 0 && r.value as real == id.value
    ensures r.Failure? ==> r.error == "id"
  {
    if id.Some? && IsInteger(id.value) && id.value > 0.0 then Success(ToInt(id.value)) else Failure("id")
  }
}

=== FILE: notifications.dfy ===
/** The alerts panel: its risk-level filter, the alert count, the relative
    time of an alert and the rule that opens the panel for critical alerts.
    The clock and `Date` parsing are parameters: a time is milliseconds since
    the epoch, or `None` for a timestamp `Date` cannot read. */
module Notifications {
  import opened Wrappers
  import opened Strings
  import opened Seqs
  import opened Socket

  /** The panel's filter: everything, or one risk level. */
  datatype NotificationFilter = All | Only(level: RiskLevel)

  predicate Passes(f: NotificationFilter, level: RiskLevel) {
    f.All? || f.level == level
  }

  function FilteredWarnings(ws: seq<ConjunctionWarning>, f: NotificationFilter): (r: seq<ConjunctionWarning>)
    ensures f.All? ==> r == ws
    ensures f.Only? ==> forall i :: 0 <= i < |r| ==> r[i].riskLevel == f.level
    ensures forall x :: x in ws && Passes(f, x.riskLevel) ==> x in r
    ensures forall x :: x in r ==> x in ws
  {
    FilterKeepsAll(ws, (x: ConjunctionWarning) => Passes(f, x.riskLevel));
    Filter(ws, (x: ConjunctionWarning) => Passes(f, x.riskLevel))
  }

  function FilteredDebris(ds: seq<DebrisUpdate>, f: NotificationFilter): (r: seq<DebrisUpdate>)
    ensures f.All? ==> r == ds
    ensures f.Only? ==> forall i :: 0 <= i < |r| ==> r[i].riskLevel == f.level
    ensures forall x :: x in ds && Passes(f, x.riskLevel) ==> x in r
    ensures forall x :: x in r ==> x in ds
  {
    FilterKeepsAll(ds, (x: DebrisUpdate) => Passes(f, x.riskLevel));
    Filter(ds, (x: DebrisUpdate) => Passes(f, x.riskLevel))
  }

  /** The panel lists alerts in the order they arrived: filtering two runs
      of alerts and joining the results is filtering the joined runs. */
  lemma FiltersKeepOrder(a: seq<ConjunctionWarning>, b: seq<ConjunctionWarning>,
                         da: seq<DebrisUpdate>, db: seq<DebrisUpdate>, f: NotificationFilter)
    ensures FilteredWarnings(a + b, f) == FilteredWarnings(a, f) + FilteredWarnings(b, f)
    ensures FilteredDebris(da + db, f) == FilteredDebris(da, f) + FilteredDebris(db, f)
  {
    FilterAppend(a, b, (x: ConjunctionWarning) => Passes(f, x.riskLevel));
    FilterAppend(da, db, (x: DebrisUpdate) => Passes(f, x.riskLevel));
  }

  /** `totalAlerts`: the alerts the filter lets through, in both lists. */
  function TotalAlerts(ws: seq<ConjunctionWarning>, ds: seq<DebrisUpdate>, f: NotificationFilter): (n: nat)
    ensures n <= |ws| + |ds|
    ensures f.All? ==> n == |ws| + |ds|
  {
    |FilteredWarnings(ws, f)| + |FilteredDebris(ds, f)|
  }

  /** The four single-level views split the warnings between them: their
      sizes add up to the whole list. */
  lemma {:induction false} LevelsPartitionWarnings(ws: seq<ConjunctionWarning>)
    ensures |FilteredWarnings(ws, Only(Low))| + |FilteredWarnings(ws, Only(Medium))|
            + |FilteredWarnings(ws, Only(High))| + |FilteredWarnings(ws, Only(Critical))| == |ws|
  {
    if ws != [] {
      LevelsPartitionWarnings(ws[1..]);
    }
  }

  lemma {:induction false} LevelsPartitionDebris(ds: seq<DebrisUpdate>)
    ensures |FilteredDebris(ds, Only(Low))| + |FilteredDebris(ds, Only(Medium))|
            + |FilteredDebris(ds, Only(High))| + |FilteredDebris(ds, Only(Critical))| == |ds|
  {
    if ds != [] {
      LevelsPartitionDebris(ds[1..]);
    }
  }

  /** Summed over the four levels, the alert count is the count with no filter. */
  lemma LevelCountsAddUp(ws: seq<ConjunctionWarning>, ds: seq<DebrisUpdate>)
    ensures TotalAlerts(ws, ds, Only(Low)) + TotalAlerts(ws, ds, Only(Medium))
            + TotalAlerts(ws, ds, Only(High)) + TotalAlerts(ws, ds, Only(Critical)) == TotalAlerts(ws, ds, All)
  {
    LevelsPartitionWarnings(ws);
    LevelsPartitionDebris(ds);
  }

  predicate HasCritical(ws: seq<ConjunctionWarning>, ds: seq<DebrisUpdate>) {
    (exists i :: 0 <= i < |ws| && ws[i].riskLevel == Critical) || (exists i :: 0 <= i < |ds| && ds[i].riskLevel == Critical)
  }

  /** The auto-expand effect: a collapsed panel opens when either list holds a
      critical alert; otherwise it stays as it was. */
  function AutoExpand(ws: seq<ConjunctionWarning>, ds: seq<DebrisUpdate>, expanded: bool): (r: bool)
    ensures r <==> expanded || HasCritical(ws, ds)
  {
    if HasCritical(ws, ds) && !expanded then true else expanded
  }

  /** A critical alert is still counted by the critical filter, so an opened
      panel always has something to show under it. */
  lemma CriticalIsShown(ws: seq<ConjunctionWarning>, ds: seq<DebrisUpdate>)
    requires HasCritical(ws, ds)
    ensures TotalAlerts(ws, ds, Only(Critical)) > 0 && TotalAlerts(ws, ds, All) > 0
  {
    if exists i :: 0 <= i < |ws| && ws[i].riskLevel == Critical {
      var i :| 0 <= i < |ws| && ws[i].riskLevel == Critical;
      assert ws[i] in FilteredWarnings(ws, Only(Critical));
    } else {
      var i :| 0 <= i < |ds| && ds[i].riskLevel == Critical;
      assert ds[i] in FilteredDebris(ds, Only(Critical));
    }
  }

  const MsPerMinute := 60000

  /** `formatTimeAgo`. Whole minutes are `Math.floor(diff / 60000)`, which
      Dafny's division matches for a positive divisor, future times included.
      An unreadable timestamp makes every comparison false: `NaNd ago`. */
  function FormatTimeAgo(nowMs: int, timeMs: Option<int>): (r: string)
    ensures timeMs.None? ==> r == "NaNd ago"
    ensures timeMs.Some? && nowMs - timeMs.value < MsPerMinute ==> r == "Just now"
  {
    match timeMs
    case None => "NaNd ago"
    case Some(t) =>
      var diffMins := (nowMs - t) / MsPerMinute;
      if diffMins < 1 then "Just now"
      else if diffMins < 60 then NatToString(diffMins) + "m ago"
      else
        var diffHours := diffMins / 60;
        if diffHours < 24 then NatToString(diffHours) + "h ago"
        else NatToString(diffHours / 24) + "d ago"
  }

  /** Whole hours and days computed from whole minutes are the whole hours
      and days of the difference itself. */
  lemma NestedFloors(diff: int)
    ensures diff / MsPerMinute / 60 == diff / 3600000
    ensures diff / MsPerMinute / 60 / 24 == diff / 86400000
  {
    var mins := diff / 60000;
    var hours := mins / 60;
    var days := hours / 24;
    assert diff == mins * 60000 + diff % 60000;
    assert mins == hours * 60 + mins % 60;
    assert diff == hours * 3600000 + (mins % 60) * 60000 + diff % 60000;
    assert diff / 3600000 == hours;
    assert hours == days * 24 + hours % 24;
    assert diff == days * 86400000 + (hours % 24) * 3600000 + (mins % 60) * 60000 + diff % 60000;
    assert diff / 86400000 == days;
  }

  /** The relative time, stated by the size of the difference: the largest
      unit that fits, counted in whole units of the difference. */
  lemma TimeAgoByRange(nowMs: int, timeMs: int)
    ensures var diff := nowMs - timeMs;
            var r := FormatTimeAgo(nowMs, Some(timeMs));
            (diff < MsPerMinute <==> r == "Just now") &&
            (MsPerMinute <= diff < 3600000 ==> r == NatToString(diff / MsPerMinute) + "m ago" && 1 <= diff / MsPerMinute < 60) &&
            (3600000 <= diff < 86400000 ==> r == NatToString(diff / 3600000) + "h ago" && 1 <= diff / 3600000 < 24) &&
            (86400000 <= diff ==> r == NatToString(diff / 86400000) + "d ago" && diff / 86400000 >= 1)
  {
    var diff := nowMs - timeMs;
    var r := FormatTimeAgo(nowMs, Some(timeMs));
    NestedFloors(diff);
    var mins := diff / MsPerMinute;
    if diff < MsPerMinute {
      assert mins < 1;
    } else {
      assert mins >= 1;
      assert r[|r| - 1] == 'o' && "Just now"[7] == 'w';
    }
  }
}

=== FILE: seqs.dfy ===
/** `Array.prototype.filter` on sequences, and the facts the client's list
    filters rest on. */
module Seqs {
  /** The elements of `s` that `keep` accepts, in their order. */
  function Filter<T>(s: seq<T>, keep: T -> bool): (r: seq<T>)
    ensures |r| <= |s|
    ensures forall i :: 0 <= i < |r| ==> keep(r[i])
    ensures forall x :: x in r ==> x in s
    ensures forall x :: x in s && keep(x) ==> x in r
  {
    if s == [] then [] else (if keep(s[0]) then [s[0]] else []) + Filter(s[1..], keep)
  }

  /** Filtering a concatenation filters each part: the kept elements keep their order. */
  lemma {:induction false} FilterAppend<T>(a: seq<T>, b: seq<T>, keep: T -> bool)
    ensures Filter(a + b, keep) == Filter(a, keep) + Filter(b, keep)
  {
    if a == [] {
      assert a + b == b;
    } else {
      var head := if keep(a[0]) then [a[0]] else [];
      assert (a + b)[0] == a[0] && (a + b)[1..] == a[1..] + b;
      FilterAppend(a[1..], b, keep);
      calc {
        Filter(a + b, keep);
        head + Filter(a[1..] + b, keep);
        head + (Filter(a[1..], keep) + Filter(b, keep));
        (head + Filter(a[1..], keep)) + Filter(b, keep);
      }
    }
  }

  /** A filter that accepts every element is the identity. */
  lemma {:induction false} FilterKeepsAll<T>(s: seq<T>, keep: T -> bool)
    ensures (forall i :: 0 <= i < |s| ==> keep(s[i])) ==> Filter(s, keep) == s
  {
    if s != [] {
      FilterKeepsAll(s[1..], keep);
    }
  }

  /** A filter that rejects one element and accepts all around it removes
      exactly that element. */
  lemma FilterDropsOne<T>(before: seq<T>, x: T, after: seq<T>, keep: T -> bool)
    requires forall i :: 0 <= i < |before| ==> keep(before[i])
    requires forall i :: 0 <= i < |after| ==> keep(after[i])
    requires !keep(x)
    ensures Filter(before + [x] + after, keep) == before + after
  {
    var front := before + [x];
    FilterKeepsAll(before, keep);
    FilterKeepsAll(after, keep);
    assert Filter([x], keep) == [];
    FilterAppend(before, [x], keep);
    assert Filter(front, keep) == before;
    FilterAppend(front, after, keep);
  }

  /** Filtering by a stricter test after a looser one is filtering by the
      stricter one: the stricter result is a sub-list of the looser one. */
  lemma {:induction false} FilterNarrows<T>(s: seq<T>, strict: T -> bool, loose: T -> bool)
    requires forall i :: 0 <= i < |s| ==> strict(s[i]) ==> loose(s[i])
    ensures Filter(Filter(s, loose), strict) == Filter(s, strict)
  {
    if s != [] {
      FilterNarrows(s[1..], strict, loose);
      var rest := Filter(s[1..], loose);
      if loose(s[0]) {
        assert Filter(s, loose) == [s[0]] + rest;
        assert ([s[0]] + rest)[0] == s[0] && ([s[0]] + rest)[1..] == rest;
      } else {
        assert Filter(s, loose) == rest;
        assert !strict(s[0]);
      }
    }
  }
}

=== FILE: sim_filters.dfy ===
/** The simulator's visualisation filters: which satellites and debris
    objects the globe shows for the current controls. */
module SimFilters {
  import opened Wrappers
  import opened Seqs

  datatype Position = Position(latitude: real, longitude: real, altitudeKm: real)

  datatype OperationalStatus = Operational | Degraded | NonOperational | Deorbiting | UnknownStatus

  /** A tracked satellite; `collisionProbability` may be absent. */
  datatype Satellite = Satellite(
    id: string,
    name: string,
    operator: string,
    position: Position,
    operationalStatus: OperationalStatus,
    missionType: string,
    massKg: real,
    collisionProbability: Option<real>)

  datatype DebrisRisk = Critical | High | Medium | Low | Negligible

  datatype DebrisObject = DebrisObject(
    id: string,
    debrisId: string,
    position: Position,
    estimatedSizeCm: real,
    collisionRiskLevel: DebrisRisk)

  datatype RiskFilter = All | HighRiskOnly | CriticalOnly

  /** The controls the filters read; time, playback and orbit display are left out. */
  datatype Controls = Controls(
    showSatellites: bool,
    showDebris: bool,
    riskFilter: RiskFilter,
    minAltitude: real,
    maxAltitude: real)

  /** The altitude band, both ends included. */
  predicate InBand(c: Controls, p: Position) {
    c.minAltitude <= p.altitudeKm <= c.maxAltitude
  }

  const HighRiskProbability := 0.0001
  const CriticalProbability := 0.001

  /** The risk test for a satellite; a missing probability counts as 0. */
  predicate SatelliteRiskOk(f: RiskFilter, probability: Option<real>) {
    match f
    case All => true
    case HighRiskOnly => OrNum(probability, 0.0) > HighRiskProbability
    case CriticalOnly => OrNum(probability, 0.0) > CriticalProbability
  }

  predicate DebrisRiskOk(f: RiskFilter, level: DebrisRisk) {
    match f
    case All => true
    case HighRiskOnly => level == High || level == Critical
    case CriticalOnly => level == Critical
  }

  predicate KeepSatellite(c: Controls, s: Satellite) {
    InBand(c, s.position) && SatelliteRiskOk(c.riskFilter, s.collisionProbability)
  }

  predicate KeepDebris(c: Controls, d: DebrisObject) {
    InBand(c, d.position) && DebrisRiskOk(c.riskFilter, d.collisionRiskLevel)
  }

  /** `filteredSatellites`. */
  function FilteredSatellites(sats: seq<Satellite>, c: Controls): (r: seq<Satellite>)
    ensures !c.showSatellites ==> r == []
    ensures forall i :: 0 <= i < |r| ==> InBand(c, r[i].position)
    ensures forall x :: x in r <==> c.showSatellites && x in sats && KeepSatellite(c, x)
    ensures c.riskFilter != All ==> forall i :: 0 <= i < |r| ==> r[i].collisionProbability.Some?
  {
    if !c.showSatellites then [] else Filter(sats, x => KeepSatellite(c, x))
  }

  /** `filteredDebris`. */
  function FilteredDebris(debris: seq<DebrisObject>, c: Controls): (r: seq<DebrisObject>)
    ensures !c.showDebris ==> r == []
    ensures forall i :: 0 <= i < |r| ==> InBand(c, r[i].position)
    ensures forall x :: x in r <==> c.showDebris && x in debris && KeepDebris(c, x)
    ensures c.riskFilter == CriticalOnly ==> forall i :: 0 <= i < |r| ==> r[i].collisionRiskLevel == Critical
  {
    if !c.showDebris then [] else Filter(debris, x => KeepDebris(c, x))
  }

  /** The filters keep the order of the input: filtering two halves and
      joining them is filtering the whole. */
  lemma FiltersKeepOrder(a: seq<Satellite>, b: seq<Satellite>, da: seq<DebrisObject>, db: seq<DebrisObject>, c: Controls)
    ensures FilteredSatellites(a + b, c) == FilteredSatellites(a, c) + FilteredSatellites(b, c)
    ensures FilteredDebris(da + db, c) == FilteredDebris(da, c) + FilteredDebris(db, c)
  {
    if c.showSatellites {
      FilterAppend(a, b, x => KeepSatellite(c, x));
    }
    if c.showDebris {
      FilterAppend(da, db, x => KeepDebris(c, x));
    }
  }

  /** With every object in the band and no risk filter, everything is shown. */
  lemma AllInBandShowsEverything(sats: seq<Satellite>, debris: seq<DebrisObject>, c: Controls)
    requires c.showSatellites && c.showDebris && c.riskFilter == All
    requires forall i :: 0 <= i < |sats| ==> InBand(c, sats[i].position)
    requires forall i :: 0 <= i < |debris| ==> InBand(c, debris[i].position)
    ensures FilteredSatellites(sats, c) == sats && FilteredDebris(debris, c) == debris
  {
    FilterKeepsAll(sats, x => KeepSatellite(c, x));
    FilterKeepsAll(debris, x => KeepDebris(c, x));
  }

  /** The critical-only view is the high-risk view narrowed further, and the
      high-risk view is the unfiltered one narrowed: each is a sub-list of the next. */
  lemma StricterFilterNarrows(sats: seq<Satellite>, debris: seq<DebrisObject>, c: Controls)
    ensures var critical := c.(riskFilter := CriticalOnly);
            var high := c.(riskFilter := HighRiskOnly);
            Filter(FilteredSatellites(sats, high), x => KeepSatellite(critical, x)) == FilteredSatellites(sats, critical) &&
            Filter(FilteredDebris(debris, high), x => KeepDebris(critical, x)) == FilteredDebris(debris, critical)
  {
    var critical := c.(riskFilter := CriticalOnly);
    var high := c.(riskFilter := HighRiskOnly);
    if c.showSatellites {
      FilterNarrows(sats, x => KeepSatellite(critical, x), x => KeepSatellite(high, x));
    } else {
      assert Filter([], (x: Satellite) => KeepSatellite(critical, x)) == [];
    }
    if c.showDebris {
      FilterNarrows(debris, x => KeepDebris(critical, x), x => KeepDebris(high, x));
    } else {
      assert Filter([], (x: DebrisObject) => KeepDebris(critical, x)) == [];
    }
  }
}

=== FILE: socket.dfy ===
/** The client's WebSocket hook: the lists its messages keep up to date, and
    the rule that decides whether a dropped connection is retried. The socket
    itself, timers and `JSON.parse` are left out: a message arrives already
    parsed, or as `None` when it could not be parsed. */
module Socket {
  import opened Wrappers
  import opened Seqs

  datatype RiskLevel = Low | Medium | High | Critical

  datatype Position = Position(latitude: real, longitude: real, altitudeKm: real)

  datatype Velocity = Velocity(x: real, y: real, z: real)

  datatype ConjunctionWarning = ConjunctionWarning(
    id: string,
    primaryObjectId: string,
    secondaryObjectId: string,
    timeOfClosestApproach: string,
    missDistanceKm: real,
    collisionProbability: real,
    riskLevel: RiskLevel)

  datatype DebrisUpdate = DebrisUpdate(
    id: string,
    debrisId: string,
    position: Position,
    velocity: Velocity,
    sizeEstimateCm: real,
    riskLevel: RiskLevel)

  /** A parsed message. Its `type` picks the case; the payload of the two
      known types is taken to have the shape the type names. */
  datatype SocketEvent =
    | WarningEvent(warning: ConjunctionWarning, timestamp: string)
    | DebrisEvent(debris: DebrisUpdate, timestamp: string)
    | OtherEvent(kind: OtherKind, timestamp: string)

  /** A `type` other than the two the handler dispatches on. */
  type OtherKind = k: string | k != WarningType && k != DebrisType witness "satellite:position"

  const WarningType := "conjunction:warning"
  const DebrisType := "debris:update"

  /** The event's `type` field. */
  function TypeOf(e: SocketEvent): (t: string)
    ensures e.WarningEvent? ==> t == WarningType
    ensures e.DebrisEvent? ==> t == DebrisType
    ensures e.OtherEvent? ==> t != WarningType && t != DebrisType
  {
    match e
    case WarningEvent(_, _) => WarningType
    case DebrisEvent(_, _) => DebrisType
    case OtherEvent(k, _) => k
  }

  const WarningCap := 50
  const DebrisCap := 100

  // ----- Upsert and cap -----

  /** `list.filter(x => x.id !== k)`. */
  function RemoveId<T>(s: seq<T>, id: T -> string, k: string): (r: seq<T>)
    ensures |r| <= |s|
    ensures forall i :: 0 <= i < |r| ==> id(r[i]) != k && r[i] in s
    ensures forall x :: x in s && id(x) != k ==> x in r
  {
    Filter(s, x => id(x) != k)
  }

  /** `s.slice(-n)` for `n > 0`: the last `n` elements, or all of them. */
  function KeepLast<T>(s: seq<T>, n: nat): (r: seq<T>)
    ensures |r| == if |s| <= n then |s| else n
    ensures r == s[|s| - |r|..]
  {
    if |s| <= n then s else s[|s| - n..]
  }

  /** The message handler's update of a list: drop the entry with the same
      id, append the new one, keep the last `cap`. */
  function Upsert<T>(prev: seq<T>, item: T, id: T -> string, cap: nat): (r: seq<T>)
    requires cap > 0
    ensures 0 < |r| <= cap && r[|r| - 1] == item
    ensures forall i :: 0 <= i < |r| - 1 ==> id(r[i]) != id(item) && r[i] in prev
    ensures |prev| < cap ==> forall x :: x in prev && id(x) != id(item) ==> x in r
  {
    var kept := RemoveId(prev, id, id(item)) + [item];
    KeepLast(kept, cap)
  }

  /** Before the new entry come the newest of the other entries, in their
      order: as many as fit under the cap, the oldest dropped first. */
  lemma UpsertKeepsNewest<T>(prev: seq<T>, item: T, id: T -> string, cap: nat)
    requires cap > 0
    ensures var r := Upsert(prev, item, id, cap);
            var others := RemoveId(prev, id, id(item));
            && |r| - 1 == (if |others| < cap then |others| else cap - 1)
            && r[..|r| - 1] == others[|others| - (|r| - 1)..]
  {
    var others := RemoveId(prev, id, id(item));
    var r := Upsert(prev, item, id, cap);
    assert r == KeepLast(others + [item], cap);
    assert r[..|r| - 1] == (others + [item])[|others| + 1 - |r|..|others|];
  }

  /** Removing by id keeps the order of what remains: it works run by run. */
  lemma RemoveIdAppend<T>(a: seq<T>, b: seq<T>, id: T -> string, k: string)
    ensures RemoveId(a + b, id, k) == RemoveId(a, id, k) + RemoveId(b, id, k)
  {
    FilterAppend(a, b, x => id(x) != k);
  }

  /** An entry with a new id is appended, and once the list is full the
      oldest entry makes room for it. */
  lemma UpsertFresh<T>(prev: seq<T>, item: T, id: T -> string, cap: nat)
    requires cap > 0
    requires forall i :: 0 <= i < |prev| ==> id(prev[i]) != id(item)
    ensures Upsert(prev, item, id, cap) == KeepLast(prev + [item], cap)
  {
    FilterKeepsAll(prev, x => id(x) != id(item));
  }

  /** An entry whose id is already listed at position `k` leaves that
      position and goes to the end; everything else keeps its order, and
      the list is then cut to its newest `cap` entries. */
  lemma UpsertReplaces<T>(prev: seq<T>, item: T, id: T -> string, cap: nat, k: nat)
    requires cap > 0 && UniqueIds(prev, id)
    requires k < |prev| && id(prev[k]) == id(item)
    ensures Upsert(prev, item, id, cap) == KeepLast(prev[..k] + prev[k + 1..] + [item], cap)
  {
    var other := (x: T) => id(x) != id(item);
    var before, after := prev[..k], prev[k + 1..];
    forall i | 0 <= i < |before|
      ensures other(before[i])
    {
      assert before[i] == prev[i];
    }
    forall i | 0 <= i < |after|
      ensures other(after[i])
    {
      assert after[i] == prev[k + 1 + i];
    }
    FilterDropsOne(before, prev[k], after, other);
    assert prev == before + [prev[k]] + after;
  }

  predicate UniqueIds<T>(s: seq<T>, id: T -> string) {
    forall i, j :: 0 <= i < j < |s| ==> id(s[i]) != id(s[j])
  }

  lemma {:induction false} RemoveIdKeepsUnique<T>(s: seq<T>, id: T -> string, k: string)
    requires UniqueIds(s, id)
    ensures UniqueIds(RemoveId(s, id, k), id)
  {
    if s != [] {
      RemoveIdKeepsUnique(s[1..], id, k);
      var rest := RemoveId(s[1..], id, k);
      assert RemoveId(s, id, k) == (if id(s[0]) == k then [] else [s[0]]) + rest;
      forall i | 0 <= i < |rest|
        ensures id(rest[i]) != id(s[0])
      {
        var j :| 0 <= j < |s[1..]| && s[1..][j] == rest[i];
        assert s[j + 1] == rest[i];
      }
    }
  }

  /** A list with unique ids keeps them unique through an upsert. */
  lemma UpsertKeepsUnique<T>(prev: seq<T>, item: T, id: T -> string, cap: nat)
    requires cap > 0 && UniqueIds(prev, id)
    ensures UniqueIds(Upsert(prev, item, id, cap), id)
  {
    var filtered := RemoveId(prev, id, id(item));
    RemoveIdKeepsUnique(prev, id, id(item));
    var kept := filtered + [item];
    assert UniqueIds(kept, id);
    var r := KeepLast(kept, cap);
    forall i, j | 0 <= i < j < |r|
      ensures id(r[i]) != id(r[j])
    {
      assert r[i] == kept[|kept| - |r| + i] && r[j] == kept[|kept| - |r| + j];
    }
  }

  /** Receiving the same entry twice leaves the list as receiving it once. */
  lemma UpsertIdempotent<T>(prev: seq<T>, item: T, id: T -> string, cap: nat)
    requires cap > 0
    ensures Upsert(Upsert(prev, item, id, cap), item, id, cap) == Upsert(prev, item, id, cap)
  {
    var once := Upsert(prev, item, id, cap);
    var init := once[..|once| - 1];
    assert once == init + [item];
    assert forall i :: 0 <= i < |init| ==> id(init[i]) != id(item);
    var other := (x: T) => id(x) != id(item);
    FilterAppend(init, [item], other);
    assert Filter([item], other) == [];
    FilterKeepsAll(init, other);
    assert RemoveId(once, id, id(item)) + [item] == once;
  }

  // ----- Connection state -----

  datatype ConnectionState = Connecting | Connected | Disconnected | Errored

  /** The hook's state: the lists, the last event, the connection and the retry counter. */
  datatype State = State(
    isConnected: bool,
    connectionState: ConnectionState,
    lastEvent: Option<SocketEvent>,
    conjunctionWarnings: seq<ConjunctionWarning>,
    debrisUpdates: seq<DebrisUpdate>,
    reconnectAttempts: nat)

  const Initial := State(false, Disconnected, None, [], [], 0)

  /** The hook's options as given, and the values it uses for the missing ones. */
  datatype Options = Options(url: Option<string>, reconnectAttempts: Option<nat>, reconnectInterval: Option<nat>)

  datatype Settings = Settings(url: string, maxAttempts: nat, intervalMs: nat)

  function Resolve(o: Options): (s: Settings)
    ensures o.url.None? ==> s.url == "ws://localhost:8080/ws"
    ensures o.reconnectAttempts.None? ==> s.maxAttempts == 5
    ensures o.reconnectInterval.None? ==> s.intervalMs == 3000
    ensures o.url.Some? ==> s.url == o.url.value
    ensures o.reconnectAttempts.Some? ==> s.maxAttempts == o.reconnectAttempts.value
    ensures o.reconnectInterval.Some? ==> s.intervalMs == o.reconnectInterval.value
  {
    Settings(o.url.GetOr("ws://localhost:8080/ws"), o.reconnectAttempts.GetOr(5), o.reconnectInterval.GetOr(3000))
  }

  function WarningKey(w: ConjunctionWarning): string { w.id }
  function DebrisKey(d: DebrisUpdate): string { d.id }

  /** `onmessage`: an unparsable message changes nothing; a parsed one becomes
      the last event, and a warning or debris update is upserted into its list. */
  function OnMessage(s: State, parsed: Option<SocketEvent>): (r: State)
    ensures parsed.None? ==> r == s
    ensures parsed.Some? ==> r.lastEvent == parsed
    ensures r.isConnected == s.isConnected && r.connectionState == s.connectionState && r.reconnectAttempts == s.reconnectAttempts
    ensures parsed.Some? && parsed.value.WarningEvent? ==>
              r.conjunctionWarnings == Upsert(s.conjunctionWarnings, parsed.value.warning, WarningKey, WarningCap) &&
              r.debrisUpdates == s.debrisUpdates
    ensures parsed.Some? && parsed.value.DebrisEvent? ==>
              r.debrisUpdates == Upsert(s.debrisUpdates, parsed.value.debris, DebrisKey, DebrisCap) &&
              r.conjunctionWarnings == s.conjunctionWarnings
    ensures parsed.Some? && parsed.value.OtherEvent? ==>
              r.conjunctionWarnings == s.conjunctionWarnings && r.debrisUpdates == s.debrisUpdates
  {
    match parsed
    case None => s
    case Some(e) =>
      var s := s.(lastEvent := Some(e));
      match e
      case WarningEvent(w, _) => s.(conjunctionWarnings := Upsert(s.conjunctionWarnings, w, WarningKey, WarningCap))
      case DebrisEvent(d, _) => s.(debrisUpdates := Upsert(s.debrisUpdates, d, DebrisKey, DebrisCap))
      case OtherEvent(_, _) => s
  }

  /** The lists stay within their caps and keep unique ids. */
  predicate ListsOk(s: State) {
    |s.conjunctionWarnings| <= WarningCap && UniqueIds(s.conjunctionWarnings, WarningKey) &&
    |s.debrisUpdates| <= DebrisCap && UniqueIds(s.debrisUpdates, DebrisKey)
  }

  lemma MessagePreservesLists(s: State, parsed: Option<SocketEvent>)
    requires ListsOk(s)
    ensures ListsOk(OnMessage(s, parsed))
  {
    if parsed.Some? && parsed.value.WarningEvent? {
      UpsertKeepsUnique(s.conjunctionWarnings, parsed.value.warning, WarningKey, WarningCap);
    } else if parsed.Some? && parsed.value.DebrisEvent? {
      UpsertKeepsUnique(s.debrisUpdates, parsed.value.debris, DebrisKey, DebrisCap);
    }
  }

  /** `onopen`: connected, and the retry counter back to 0. */
  function OnOpen(s: State): (r: State)
    ensures r.isConnected && r.connectionState == Connected && r.reconnectAttempts == 0
    ensures r.conjunctionWarnings == s.conjunctionWarnings && r.debrisUpdates == s.debrisUpdates && r.lastEvent == s.lastEvent
  {
    s.(isConnected := true, connectionState := Connected, reconnectAttempts := 0)
  }

  /** `onerror`: only the connection state changes. */
  function OnError(s: State): (r: State)
    ensures r == s.(connectionState := Errored)
  {
    s.(connectionState := Errored)
  }

  /** The close code of a deliberate close. */
  const NormalClosure := 1000

  /** `onclose`: disconnected; a retry is scheduled, and counted, only for an
      unclean close while attempts remain. */
  function OnClose(s: State, code: int, maxAttempts: nat): (r: (State, bool))
    ensures !r.0.isConnected && r.0.connectionState == Disconnected
    ensures r.1 <==> code != NormalClosure && s.reconnectAttempts < maxAttempts
    ensures r.0.reconnectAttempts == if r.1 then s.reconnectAttempts + 1 else s.reconnectAttempts
    ensures r.0.conjunctionWarnings == s.conjunctionWarnings && r.0.debrisUpdates == s.debrisUpdates && r.0.lastEvent == s.lastEvent
  {
    var s := s.(isConnected := false, connectionState := Disconnected);
    if code != NormalClosure && s.reconnectAttempts < maxAttempts then (s.(reconnectAttempts := s.reconnectAttempts + 1), true)
    else (s, false)
  }

  /** `clearWarnings` and `clearDebrisUpdates`. */
  function ClearWarnings(s: State): (r: State)
    ensures r.conjunctionWarnings == [] && r.debrisUpdates == s.debrisUpdates
  {
    s.(conjunctionWarnings := [])
  }

  function ClearDebrisUpdates(s: State): (r: State)
    ensures r.debrisUpdates == [] && r.conjunctionWarnings == s.conjunctionWarnings
  {
    s.(debrisUpdates := [])
  }

  /** The number of unclean closes among `codes`. */
  function Unclean(codes: seq<int>): (n: nat)
    ensures n <= |codes|
  {
    if codes == [] then 0 else (if codes[0] != NormalClosure then 1 else 0) + Unclean(codes[1..])
  }

  /** The state after a run of closes with no successful open between them,
      and how many retries they scheduled. */
  function Closes(s: State, codes: seq<int>, maxAttempts: nat): (r: (State, nat))
    decreases |codes|
  {
    if codes == [] then (s, 0)
    else
      var (next, scheduled) := OnClose(s, codes[0], maxAttempts);
      var (last, count) := Closes(next, codes[1..], maxAttempts);
      (last, count + (if scheduled then 1 else 0))
  }

  /** Without a successful open, retries stop after `maxAttempts` in all:
      each unclean close schedules one until the counter reaches the limit. */
  lemma {:induction false} RetriesAreBounded(s: State, codes: seq<int>, maxAttempts: nat)
    requires s.reconnectAttempts <= maxAttempts
    ensures var (last, count) := Closes(s, codes, maxAttempts);
            last.reconnectAttempts == s.reconnectAttempts + count &&
            last.reconnectAttempts == Min(maxAttempts, s.reconnectAttempts + Unclean(codes))
    decreases |codes|
  {
    if codes != [] {
      var next := OnClose(s, codes[0], maxAttempts).0;
      RetriesAreBounded(next, codes[1..], maxAttempts);
    }
  }

  function Min(a: int, b: int): int {
    if a <= b then a else b
  }

  /** From a fresh hook with the default options, at most five retries are
      ever scheduled before the connection opens again. */
  lemma DefaultAllowsFiveRetries(codes: seq<int>)
    ensures Closes(Initial, codes, Resolve(Options(None, None, None)).maxAttempts).1 <= 5
  {
    RetriesAreBounded(Initial, codes, 5);
  }
}

=== FILE: strings.dfy ===
/** The few string operations the source relies on: substring search,
    ASCII lower-casing, whitespace trimming and decimal rendering of integers. */
module Strings {

  /** `s.includes(pat)`: `pat` occurs in `s` at some offset. */
  predicate Contains(s: string, pat: string) {
    exists i :: 0 <= i <= |s| && pat <= s[i..]
  }

  /** A string prefixed to, or appended to, another keeps every occurrence it had. */
  lemma ContainsInExtension(pre: string, s: string, post: string, pat: string)
    requires Contains(s, pat)
    ensures Contains(pre + s + post, pat)
  {
    var i :| 0 <= i <= |s| && pat <= s[i..];
    var t := pre + s + post;
    var j := |pre| + i;
    assert t[j..][..|pat|] == s[i..][..|pat|];
  }

  /** A string without some character of `pat` does not contain `pat`. */
  lemma MissingCharRulesOut(s: string, pat: string, k: nat)
    requires k < |pat| && forall i :: 0 <= i < |s| ==> s[i] != pat[k]
    ensures !Contains(s, pat)
  {
    forall i | 0 <= i <= |s|
      ensures !(pat <= s[i..])
    {
      if i + k < |s| {
        assert s[i..][k] == s[i + k];
      }
    }
  }

  function LowerChar(c: char): char {
    if 'A' <= c <= 'Z' then (c as int - 'A' as int + 'a' as int) as char else c
  }

  /** `String.prototype.toLowerCase` restricted to ASCII letters. */
  function ToLower(s: string): (r: string)
    ensures |r| == |s|
    ensures forall i :: 0 <= i < |s| ==> r[i] == LowerChar(s[i])
  {
    if s == [] then [] else [LowerChar(s[0])] + ToLower(s[1..])
  }

  /** The characters `String.prototype.trim` removes: ECMA-262's WhiteSpace
      and LineTerminator code points, that is tab, vertical tab, form feed,
      the byte-order mark, every Unicode space separator (category Zs) and the
      four line terminators. */
  predicate IsSpace(c: char) {
    || c == '\t' || c == '\n' || c == '\U{000B}' || c == '\U{000C}' || c == '\r' || c == ' '
    || c == '\U{00A0}' || c == '\U{1680}' || '\U{2000}' <= c <= '\U{200A}'
    || c == '\U{2028}' || c == '\U{2029}' || c == '\U{202F}' || c == '\U{205F}'
    || c == '\U{3000}' || c == '\U{FEFF}'
  }

  function TrimStart(s: string): (r: string)
    ensures |r| <= |s| && r == s[|s| - |r|..]
    ensures r == [] || !IsSpace(r[0])
    ensures forall i :: 0 <= i < |s| - |r| ==> IsSpace(s[i])
  {
    if s != [] && IsSpace(s[0]) then TrimStart(s[1..]) else s
  }

  function TrimEnd(s: string): (r: string)
    ensures |r| <= |s| && r == s[..|r|]
    ensures r == [] || !IsSpace(r[|r| - 1])
    ensures forall i :: |r| <= i < |s| ==> IsSpace(s[i])
  {
    if s != [] && IsSpace(s[|s| - 1]) then TrimEnd(s[..|s| - 1]) else s
  }

  /** `s.trim()`: drop leading and trailing white space. The result is a
      slice of the input with only white space cut off either side, and it
      neither starts nor ends with white space, so no more could be cut. */
  function Trim(s: string): (r: string)
    ensures exists a, b :: 0 <= a <= b <= |s| && r == s[a..b]
                           && (forall i :: 0 <= i < a ==> IsSpace(s[i]))
                           && (forall i :: b <= i < |s| ==> IsSpace(s[i]))
    ensures r == [] || (!IsSpace(r[0]) && !IsSpace(r[|r| - 1]))
  {
    var t := TrimStart(s);
    var a := |s| - |t|;
    var r := TrimEnd(t);
    assert r == s[a..a + |r|];
    assert forall i :: a + |r| <= i < |s| ==> s[i] == t[i - a];
    r
  }

  /** A string made only of white space trims to the empty string, and only such a string does. */
  lemma TrimEmptyIffAllSpace(s: string)
    ensures Trim(s) == [] <==> forall i :: 0 <= i < |s| ==> IsSpace(s[i])
  {
    var a := TrimStart(s);
    if !forall i :: 0 <= i < |s| ==> IsSpace(s[i]) {
      var k :| 0 <= k < |s| && !IsSpace(s[k]);
      assert a[k - (|s| - |a|)] == s[k];
    }
  }

  function DigitChar(d: nat): char
    requires d < 10
  {
    "0123456789"[d]
  }

  predicate IsDigit(c: char) {
    '0' <= c <= '9'
  }

  function DigitValue(c: char): nat
    requires IsDigit(c)
  {
    c as int - '0' as int
  }

  /** Decimal rendering of a natural number, as a JavaScript template literal prints it. */
  function NatToString(n: nat): (r: string)
    ensures |r| > 0
    ensures forall i :: 0 <= i < |r| ==> IsDigit(r[i])
    decreases n
  {
    if n < 10 then [DigitChar(n)] else NatToString(n / 10) + [DigitChar(n % 10)]
  }

  /** The number a string of decimal digits denotes. */
  function DigitsValue(s: string): nat
    requires forall i :: 0 <= i < |s| ==> IsDigit(s[i])
  {
    if s == [] then 0 else DigitsValue(s[..|s| - 1]) * 10 + DigitValue(s[|s| - 1])
  }

  /** Reading back the decimal rendering of `n` gives `n`. */
  lemma {:induction false} NatToStringRoundTrip(n: nat)
    ensures DigitsValue(NatToString(n)) == n
    decreases n
  {
    var s := NatToString(n);
    if n < 10 {
      assert s[..|s| - 1] == [];
    } else {
      NatToStringRoundTrip(n / 10);
      assert s[..|s| - 1] == NatToString(n / 10);
    }
  }

  /** Decimal rendering of an integer, with a leading `-` for negatives. */
  function IntToString(n: int): (r: string)
    ensures |r| > 0
    ensures n >= 0 ==> r == NatToString(n)
    ensures n < 0 ==> r == "-" + NatToString(-n)
  {
    if n >= 0 then NatToString(n) else "-" + NatToString(-n)
  }

  /** `Math.round` on an exact real: the nearest integer, halves rounded up. */
  function Round(x: real): (r: int)
    ensures x - 0.5 < r as real <= x + 0.5
  {
    (x + 0.5).Floor
  }
}

=== FILE: sustainability_types.dfy ===
/** Requests and responses of the sustainability service: collision risk,
    debris density and deorbit analysis. Identifiers and timestamps the service
    generates are not part of the model. */
module SustainabilityTypes {
  import opened Wrappers

  datatype RiskLevel = Low | Medium | High | Critical

  datatype SizeCategory = Small | MediumSize | Large

  /** A validated collision-risk request. */
  datatype CollisionRiskRequest = CollisionRiskRequest(
    altitudeKm: real,
    inclinationDeg: real,
    satelliteCount: int,
    missionDurationYears: real,
    collisionAvoidance: Option<bool>,
    sizeCategory: Option<SizeCategory>)

  datatype ContributingFactors = ContributingFactors(
    debrisDensityScore: real,
    trafficDensityScore: real,
    altitudeRiskScore: real,
    missionDurationImpact: real)

  datatype CollisionRiskResponse = CollisionRiskResponse(
    overallCollisionProbability: real,
    riskLevel: RiskLevel,
    factors: ContributingFactors,
    mitigationRecommendations: seq<string>,
    confidenceLevel: real)

  datatype DebrisLevel = DebrisLow | DebrisMedium | DebrisHigh | DebrisCritical

  datatype Trend = Improving | Stable | Worsening

  datatype RiskFactors = RiskFactors(
    largeDebrisCount: int,
    smallDebrisEstimated: int,
    activeSatellitesCount: int,
    recentBreakupEvents: int)

  /** The debris-density report; the level is the shell row's text when a shell matched. */
  datatype DebrisDensityResponse = DebrisDensityResponse(
    altitudeKm: real,
    debrisDensityLevel: string,
    trackedObjectsCount: int,
    estimatedUntrackedObjects: int,
    collisionEventsLastYear: int,
    riskFactors: RiskFactors,
    historicalTrend: Trend)

  /** A validated deorbit-analysis request. */
  datatype DeorbitRequest = DeorbitRequest(
    massKg: real,
    altitudeKm: real,
    areaM2: Option<real>,
    propulsion: Option<bool>,
    targetTimelineYears: Option<real>)

  datatype DeorbitKind = NaturalDecay | ControlledDeorbit | GraveyardOrbit

  datatype DeorbitOption = DeorbitOption(
    kind: DeorbitKind,
    timelineYears: real,
    costUsd: real,
    successProbability: real,
    environmentalScore: real)

  datatype Compliance = Compliance(fcc25YearRule: bool, iadcGuidelines: bool, iso24113: bool)

  datatype DeorbitResponse = DeorbitResponse(
    naturalDecayYears: real,
    controlledFeasible: bool,
    options: seq<DeorbitOption>,
    recommended: DeorbitKind,
    compliance: Compliance,
    sustainabilityScore: real)
}

=== FILE: sustainability_validators.dfy ===
/** The request schemas of the sustainability endpoints. Each validator turns
    a raw body into a typed request, or names the first key (in schema order)
    whose constraint fails. */
module SustainabilityValidators {
  import opened Wrappers
  import opened Validation
  import opened SustainabilityTypes

  /** A collision-risk body as parsed from JSON; every key may be missing. */
  datatype CollisionRiskBody = CollisionRiskBody(
    altitudeKm: Option<real>,
    inclinationDeg: Option<real>,
    satelliteCount: Option<real>,
    missionDurationYears: Option<real>,
    collisionAvoidance: Option<bool>,
    sizeCategory: Option<string>,
    /** The body's properties the schema does not declare, in order. */
    unknownKeys: seq<string>)

  function ParseSize(s: string): Option<SizeCategory> {
    if s == "SMALL" then Some(Small)
    else if s == "MEDIUM" then Some(MediumSize)
    else if s == "LARGE" then Some(Large)
    else None
  }

  /** The keys the schema declares, in schema order. */
  function CollisionDeclared(b: CollisionRiskBody): seq<Check> {
    [ Check("altitude_km", RequiredIn(b.altitudeKm, 150.0, 50000.0)),
      Check("inclination_deg", RequiredIn(b.inclinationDeg, 0.0, 180.0)),
      Check("satellite_count", RequiredIntIn(b.satelliteCount, 1, 100000)),
      Check("mission_duration_years", RequiredPositive(b.missionDurationYears, 50.0)),
      Check("satellite_size_category", b.sizeCategory.None? || ParseSize(b.sizeCategory.value).Some?) ]
  }

  /** The declared keys, then every property the schema does not declare. */
  function CollisionChecks(b: CollisionRiskBody): seq<Check> {
    CollisionDeclared(b) + UnknownKeys(b.unknownKeys)
  }

  /** `collisionRiskSchema.validate`. */
  function ValidateCollisionRisk(b: CollisionRiskBody): (r: Result<CollisionRiskRequest, string>)
    ensures r.Success? <==>
      && b.altitudeKm.Some? && 150.0 <= b.altitudeKm.value <= 50000.0
      && b.inclinationDeg.Some? && 0.0 <= b.inclinationDeg.value <= 180.0
      && b.satelliteCount.Some? && IsInteger(b.satelliteCount.value)
      && 1.0 <= b.satelliteCount.value <= 100000.0
      && b.missionDurationYears.Some? && 0.0 < b.missionDurationYears.value <= 50.0
      && (b.sizeCategory.None? || b.sizeCategory.value in {"SMALL", "MEDIUM", "LARGE"})
      && b.unknownKeys == []
    ensures r.Success? ==>
      && r.value.altitudeKm == b.altitudeKm.value
      && r.value.inclinationDeg == b.inclinationDeg.value
      && r.value.satelliteCount as real == b.satelliteCount.value
      && r.value.missionDurationYears == b.missionDurationYears.value
      && r.value.collisionAvoidance == b.collisionAvoidance
      && r.value.sizeCategory.None? == b.sizeCategory.None?
      && (b.sizeCategory == Some("SMALL") ==> r.value.sizeCategory == Some(Small))
      && (b.sizeCategory == Some("MEDIUM") ==> r.value.sizeCategory == Some(MediumSize))
      && (b.sizeCategory == Some("LARGE") ==> r.value.sizeCategory == Some(Large))
    ensures r.Success? ==> ValidCollisionRequest(r.value)
    ensures r.Failure? ==> FirstError(CollisionChecks(b)) == Some(r.error)
  {
    match FirstError(CollisionChecks(b))
    case Some(f) => Failure(f)
    case None =>
      var cs := CollisionDeclared(b);
      UnknownKeysReported(cs, b.unknownKeys);
      assert cs[0].ok && cs[1].ok && cs[2].ok && cs[3].ok && cs[4].ok;
      Success(CollisionRiskRequest(
        b.altitudeKm.value, b.inclinationDeg.value, ToInt(b.satelliteCount.value),
        b.missionDurationYears.value, b.collisionAvoidance,
        if b.sizeCategory.Some? then ParseSize(b.sizeCategory.value) else None))
  }

  /** What a collision-risk request satisfies once it has passed its schema. */
  predicate ValidCollisionRequest(r: CollisionRiskRequest) {
    && 150.0 <= r.altitudeKm <= 50000.0
    && 0.0 <= r.inclinationDeg <= 180.0
    && 1 <= r.satelliteCount <= 100000
    && 0.0 < r.missionDurationYears <= 50.0
  }

  /** `altitudeParamSchema.validate` on the path parameter. The parameter is a
      string, which Joi converts to a number: `altitude` is that number, and
      None stands for a text that is not numeric. */
  function ValidateAltitudeParam(altitude: Option<real>): (r: Result<real, string>)
    ensures r.Success? <==> altitude.Some? && 150.0 <= altitude.value <= 50000.0
    ensures r.Success? ==> r.value == altitude.value
    ensures r.Failure? ==> r.error == "altitude"
  {
    if RequiredIn(altitude, 150.0, 50000.0) then Success(altitude.value) else Failure("altitude")
  }

  datatype DeorbitBody = DeorbitBody(
    massKg: Option<real>,
    altitudeKm: Option<real>,
    areaM2: Option<real>,
    propulsion: Option<bool>,
    targetTimelineYears: Option<real>,
    /** The body's properties the schema does not declare, in order. */
    unknownKeys: seq<string>)

  /** The keys the schema declares, in schema order. */
  function DeorbitDeclared(b: DeorbitBody): seq<Check> {
    [ Check("satellite_mass_kg", RequiredPositive(b.massKg, 10000.0)),
      Check("orbital_altitude_km", RequiredIn(b.altitudeKm, 150.0, 50000.0)),
      Check("satellite_area_m2", OptionalPositive(b.areaM2, 1000.0)),
      Check("target_deorbit_timeline_years", OptionalPositive(b.targetTimelineYears, 50.0)) ]
  }

  /** The declared keys, then every property the schema does not declare. */
  function DeorbitChecks(b: DeorbitBody): seq<Check> {
    DeorbitDeclared(b) + UnknownKeys(b.unknownKeys)
  }

  /** What a deorbit request satisfies once it has passed its schema. */
  predicate ValidDeorbitRequest(r: DeorbitRequest) {
    && 0.0 < r.massKg <= 10000.0
    && 150.0 <= r.altitudeKm <= 50000.0
    && (r.areaM2.None? || 0.0 < r.areaM2.value <= 1000.0)
    && (r.targetTimelineYears.None? || 0.0 < r.targetTimelineYears.value <= 50.0)
  }

  /** `deorbitAnalysisSchema.validate`. */
  function ValidateDeorbit(b: DeorbitBody): (r: Result<DeorbitRequest, string>)
    ensures r.Success? <==>
      && b.massKg.Some? && 0.0 < b.massKg.value <= 10000.0
      && b.altitudeKm.Some? && 150.0 <= b.altitudeKm.value <= 50000.0
      && (b.areaM2.None? || 0.0 < b.areaM2.value <= 1000.0)
      && (b.targetTimelineYears.None? || 0.0 < b.targetTimelineYears.value <= 50.0)
      && b.unknownKeys == []
    ensures r.Success? ==>
      r.value == DeorbitRequest(b.massKg.value, b.altitudeKm.value, b.areaM2, b.propulsion, b.targetTimelineYears)
    ensures r.Success? ==> ValidDeorbitRequest(r.value)
    ensures r.Failure? ==> FirstError(DeorbitChecks(b)) == Some(r.error)
  {
    match FirstError(DeorbitChecks(b))
    case Some(f) => Failure(f)
    case None =>
      var cs := DeorbitDeclared(b);
      UnknownKeysReported(cs, b.unknownKeys);
      assert cs[0].ok && cs[1].ok && cs[2].ok && cs[3].ok;
      Success(DeorbitRequest(b.massKg.value, b.altitudeKm.value, b.areaM2, b.propulsion, b.targetTimelineYears))
  }
}

=== FILE: validation.dfy ===
/** The pieces of request validation shared by every schema: range checks on
    optional numbers and reporting of the first key, in schema order, whose
    constraint fails (the validator stops at the first error). */
module Validation {
  import opened Wrappers

  /** One key of a schema together with whether the body satisfies its constraint. */
  datatype Check = Check(field: string, ok: bool)

  /** Index of the first failing check, or None when every check passes. */
  function FirstFailing(checks: seq<Check>): (r: Option<nat>)
    ensures r.None? <==> forall i :: 0 <= i < |checks| ==> checks[i].ok
    ensures r.Some? ==> r.value < |checks| && !checks[r.value].ok
    ensures r.Some? ==> forall i :: 0 <= i < r.value ==> checks[i].ok
  {
    if checks == [] then None
    else if !checks[0].ok then Some(0)
    else match FirstFailing(checks[1..])
      case None => None
      case Some(k) => Some(k + 1)
  }

  /** The outcome of running a schema: the name of the first offending key, if any. */
  function FirstError(checks: seq<Check>): (r: Option<string>)
    ensures r.None? <==> forall i :: 0 <= i < |checks| ==> checks[i].ok
    ensures r.Some? ==> exists k :: 0 <= k < |checks| && !checks[k].ok && checks[k].field == r.value
                                    && forall i :: 0 <= i < k ==> checks[i].ok
  {
    match FirstFailing(checks)
    case None => None
    case Some(k) => Some(checks[k].field)
  }

  predicate AllPass(checks: seq<Check>) {
    forall i :: 0 <= i < |checks| ==> checks[i].ok
  }

  /** Two runs of checks, one after the other, pass exactly when each passes. */
  lemma AllPassConcat(a: seq<Check>, b: seq<Check>)
    ensures AllPass(a + b) <==> AllPass(a) && AllPass(b)
  {
    if AllPass(a) && AllPass(b) {
      forall i | 0 <= i < |a + b|
        ensures (a + b)[i].ok
      {
        if i >= |a| {
          assert (a + b)[i] == b[i - |a|];
        }
      }
    }
    if AllPass(a + b) {
      assert forall i :: 0 <= i < |a| ==> (a + b)[i] == a[i];
      assert forall i :: 0 <= i < |b| ==> (a + b)[|a| + i] == b[i];
    }
  }

  /** Joi's default for an object schema: every property the schema does not
      declare is an error of its own, checked after the declared keys. */
  function UnknownKeys(names: seq<string>): (cs: seq<Check>)
    ensures |cs| == |names|
    ensures forall j :: 0 <= j < |cs| ==> cs[j].field == names[j] && !cs[j].ok
  {
    seq(|names|, j requires 0 <= j < |names| => Check(names[j], false))
  }

  /** When a run of checks already fails, whatever follows it does not change
      the first error. */
  lemma FirstErrorInPrefix(a: seq<Check>, b: seq<Check>)
    requires !AllPass(a)
    ensures FirstError(a + b) == FirstError(a)
  {
    var k := FirstFailing(a).value;
    assert (a + b)[k] == a[k];
    assert FirstFailing(a + b).value == k;
  }

  /** A body with an undeclared property never passes. Its error is the
      first failing declared key, or, when every declared key passes, the
      first undeclared property. */
  lemma UnknownKeysReported(declared: seq<Check>, names: seq<string>)
    ensures AllPass(declared + UnknownKeys(names)) <==> AllPass(declared) && names == []
    ensures AllPass(declared) && names != [] ==> FirstError(declared + UnknownKeys(names)) == Some(names[0])
    ensures !AllPass(declared) ==> FirstError(declared + UnknownKeys(names)) == FirstError(declared)
  {
    var u := UnknownKeys(names);
    AllPassConcat(declared, u);
    if names != [] {
      assert !u[0].ok;
    }
    if AllPass(declared) && names != [] {
      var cs := declared + u;
      assert cs[|declared|] == u[0];
      assert FirstFailing(cs).value == |declared|;
    }
    if !AllPass(declared) {
      FirstErrorInPrefix(declared, u);
    }
  }

  predicate IsInteger(x: real) {
    x.Floor as real == x
  }

  /** `Joi.number().min(lo).max(hi).required()`. */
  predicate RequiredIn(o: Option<real>, lo: real, hi: real) {
    o.Some? && lo <= o.value <= hi
  }

  /** `Joi.number().positive().max(hi).required()`. */
  predicate RequiredPositive(o: Option<real>, hi: real) {
    o.Some? && 0.0 < o.value <= hi
  }

  /** `Joi.number().integer().min(lo).max(hi).required()`. */
  predicate RequiredIntIn(o: Option<real>, lo: int, hi: int) {
    o.Some? && IsInteger(o.value) && lo as real <= o.value <= hi as real
  }

  /** An optional key passes when absent, otherwise its value must satisfy `p`. */
  predicate OptionalIn(o: Option<real>, lo: real, hi: real) {
    o.None? || lo <= o.value <= hi
  }

  predicate OptionalPositive(o: Option<real>, hi: real) {
    o.None? || 0.0 < o.value <= hi
  }

  predicate OptionalIntIn(o: Option<real>, lo: int, hi: int) {
    o.None? || (IsInteger(o.value) && lo as real <= o.value <= hi as real)
  }

  /** `Joi.number().integer().positive()`, optional. */
  predicate OptionalPositiveInt(o: Option<real>) {
    o.None? || (IsInteger(o.value) && o.value > 0.0)
  }

  /** `Joi.number().integer().min(0)`, optional. */
  predicate OptionalNonNegativeInt(o: Option<real>) {
    o.None? || (IsInteger(o.value) && o.value >= 0.0)
  }

  /** The UTF-16 code units of one code point: two (a surrogate pair) above U+FFFF. */
  function CodeUnits(c: char): nat {
    if c as int > 0xFFFF then 2 else 1
  }

  /** JavaScript's `.length` of a string, which counts UTF-16 code units. */
  function JsLength(s: string): (n: nat)
    ensures |s| <= n <= 2 * |s|
    ensures n == |s| <==> forall i :: 0 <= i < |s| ==> s[i] as int <= 0xFFFF
  {
    if s == [] then 0
    else
      var n := CodeUnits(s[0]) + JsLength(s[1..]);
      assert forall i :: 1 <= i < |s| ==> s[i] == s[1..][i - 1];
      n
  }

  /** The length of a concatenation is the sum of the lengths. */
  lemma {:induction false} JsLengthAppend(a: string, b: string)
    ensures JsLength(a + b) == JsLength(a) + JsLength(b)
  {
    if a != [] {
      assert (a + b)[1..] == a[1..] + b;
      JsLengthAppend(a[1..], b);
    } else {
      assert a + b == b;
    }
  }

  /** Two astral code points (say, two emoji) are four code units long, so
      they meet a minimum length of 3. */
  lemma AstralPairMeetsMinThree()
    ensures |"\U{1F600}\U{1F600}"| == 2
    ensures StringIn("\U{1F600}\U{1F600}", 3, 255)
  {
    var s := "\U{1F600}\U{1F600}";
    assert s[1..][1..] == [];
  }

  /** `Joi.string().min(lo).max(hi)`, whose bounds count code units; Joi also
      refuses the empty string. */
  predicate StringIn(s: string, lo: nat, hi: nat) {
    s != "" && lo <= JsLength(s) <= hi
  }

  predicate RequiredString(o: Option<string>, lo: nat, hi: nat) {
    o.Some? && StringIn(o.value, lo, hi)
  }

  predicate OptionalString(o: Option<string>, lo: nat, hi: nat) {
    o.None? || StringIn(o.value, lo, hi)
  }

  /** The integer a validated integral number denotes. */
  function ToInt(x: real): (n: int)
    requires IsInteger(x)
    ensures n as real == x
  {
    x.Floor
  }

  function OptionToInt(o: Option<real>): (r: Option<int>)
    requires o.Some? ==> IsInteger(o.value)
    ensures r.None? <==> o.None?
    ensures r.Some? ==> r.value as real == o.value
  {
    match o
    case None => None
    case Some(x) => Some(ToInt(x))
  }
}

=== FILE: wizard.dfy ===
/** The mission profile wizard: five steps over a partially filled form, the
    handlers that edit the form, and the navigation between steps. Rendering,
    `onCancel` and the text-to-number parsing of the inputs are left out:
    an update carries the values the inputs produced. */
module Wizard {
  import opened Wrappers
  import opened Strings

  /** The keys of the mission form. */
  datatype FormField =
    | Name | Description | MissionType | Operator
    | TotalSatellites | SatelliteMassKg | SatelliteSizeCategory | OrbitalAltitudeKm | InclinationDeg | MissionDurationYears
    | LaunchVehicleType | PlannedLaunchDate | CollisionAvoidanceCapability
    | TotalCostUsd | InsuranceCoverageRequired | CostCategories
    | SustainabilityCommitments

  datatype FormValue = Text(text: string) | Number(number: real) | Flag(flag: bool) | Names(names: seq<string>)

  /** A partial form: a key is either absent or holds a value. */
  type FormData = map<FormField, FormValue>

  /** The kind of value each key holds. */
  predicate HasKind(f: FormField, v: FormValue) {
    match f
    case TotalSatellites | SatelliteMassKg | OrbitalAltitudeKm | InclinationDeg | MissionDurationYears | TotalCostUsd => v.Number?
    case CollisionAvoidanceCapability | InsuranceCoverageRequired => v.Flag?
    case CostCategories | SustainabilityCommitments => v.Names?
    case _ => v.Text?
  }

  predicate WellTyped(data: FormData) {
    forall f :: f in data ==> HasKind(f, data[f])
  }

  /** `handleUpdate`: `{ ...prev, ...updates }`. */
  function Merge(prev: FormData, updates: FormData): (r: FormData)
    ensures r.Keys == prev.Keys + updates.Keys
    ensures forall f :: f in updates ==> r[f] == updates[f]
    ensures forall f :: f in prev && f !in updates ==> r[f] == prev[f]
    ensures WellTyped(prev) && WellTyped(updates) ==> WellTyped(r)
  {
    prev + updates
  }

  /** Two updates in a row leave the form as one update with both would, the
      later winning on shared keys. */
  lemma MergeTwice(prev: FormData, u1: FormData, u2: FormData)
    ensures Merge(Merge(prev, u1), u2) == Merge(prev, Merge(u1, u2))
  {
  }

  /** Repeating an update changes nothing. */
  lemma MergeIdempotent(prev: FormData, u: FormData)
    ensures Merge(Merge(prev, u), u) == Merge(prev, u)
  {
  }

  /** JavaScript truthiness of a form value: `""`, `0` and `false` are falsy, arrays never. */
  predicate TruthyValue(v: FormValue) {
    match v
    case Text(s) => s != ""
    case Number(x) => x != 0.0
    case Flag(b) => b
    case Names(_) => true
  }

  predicate Truthy(data: FormData, f: FormField) {
    f in data && TruthyValue(data[f])
  }

  /** The steps' `isValid` predicates, by step index. The navigation handlers never consult them. */
  predicate StepValid(step: int, data: FormData) {
    if step == 0 then Truthy(data, Name) && Truthy(data, Operator) && Truthy(data, MissionType)
    else if step == 1 then
      Truthy(data, TotalSatellites) && Truthy(data, OrbitalAltitudeKm) && InclinationDeg in data && Truthy(data, MissionDurationYears)
    else if step == 2 then Truthy(data, LaunchVehicleType)
    else true
  }

  /** The keys a step's predicate reads. */
  function StepKeys(step: int): (keys: set<FormField>)
    ensures step >= 3 ==> keys == {}
  {
    if step == 0 then {Name, Operator, MissionType}
    else if step == 1 then {TotalSatellites, OrbitalAltitudeKm, InclinationDeg, MissionDurationYears}
    else if step == 2 then {LaunchVehicleType}
    else {}
  }

  /** A step's validity depends only on its own keys: an update that leaves
      them alone keeps it. */
  lemma ValidityOnlyReadsStepKeys(step: int, prev: FormData, u: FormData)
    requires forall f :: f in u ==> f !in StepKeys(step)
    ensures StepValid(step, Merge(prev, u)) <==> StepValid(step, prev)
  {
  }

  /** The empty form fails the first three steps, and the last two accept anything. */
  lemma EmptyFormValidity(data: FormData)
    ensures !StepValid(0, map[]) && !StepValid(1, map[]) && !StepValid(2, map[])
    ensures StepValid(3, data) && StepValid(4, data)
  {
  }

  /** An inclination of 0 is accepted, while a satellite count, altitude or duration of 0 is not. */
  lemma ZeroInclinationAllowed(data: FormData)
    requires Truthy(data, TotalSatellites) && Truthy(data, OrbitalAltitudeKm) && Truthy(data, MissionDurationYears)
    ensures StepValid(1, Merge(data, map[InclinationDeg := Number(0.0)]))
    ensures !StepValid(1, Merge(data, map[TotalSatellites := Number(0.0)]))
  {
  }

  // ----- Financial step: cost categories -----

  /** A list the form holds, or `[]` when the key is absent (`data.x || []`). */
  function ListOf(data: FormData, f: FormField): seq<string> {
    if f in data && data[f].Names? then data[f].names else []
  }

  /** Every occurrence of `c` removed, the order of the rest kept (`filter(x => x !== c)`). */
  function Without(s: seq<string>, c: string): (r: seq<string>)
    ensures c !in r
    ensures forall x :: x != c ==> (x in r <==> x in s)
    ensures c !in s ==> r == s
    ensures |r| <= |s|
  {
    if s == [] then [] else (if s[0] == c then [] else [s[0]]) + Without(s[1..], c)
  }

  /** `handleCategoryToggle`'s new list: drop the category if present, append it otherwise. */
  function Toggle(current: seq<string>, c: string): (r: seq<string>)
    ensures c in r <==> c !in current
    ensures forall x :: x != c ==> (x in r <==> x in current)
    ensures c !in current ==> r == current + [c]
  {
    if c in current then Without(current, c) else current + [c]
  }

  /** `handleCategoryToggle`: the update it hands to `handleUpdate`. */
  function ToggleCategory(data: FormData, c: string): (u: FormData)
    ensures u.Keys == {CostCategories} && WellTyped(u)
    ensures c in u[CostCategories].names <==> c !in ListOf(data, CostCategories)
  {
    ListUpdate(CostCategories, Toggle(ListOf(data, CostCategories), c))
  }

  /** Toggling a category twice restores which categories are selected, and
      restores the list itself when the category was not selected. */
  lemma ToggleTwice(current: seq<string>, c: string)
    ensures forall x :: x in Toggle(Toggle(current, c), c) <==> x in current
    ensures c !in current ==> Toggle(Toggle(current, c), c) == current
  {
    if c !in current {
      var once := current + [c];
      assert Without(once, c) == current by { WithoutAppend(current, c); }
    }
  }

  lemma {:induction false} WithoutAppend(s: seq<string>, c: string)
    requires c !in s
    ensures Without(s + [c], c) == s
  {
    if s == [] {
      assert Without([c], c) == [] + Without([], c);
    } else {
      assert (s + [c])[1..] == s[1..] + [c];
      WithoutAppend(s[1..], c);
    }
  }

  // ----- Sustainability step: commitments -----

  /** An update that sets one list-valued key. */
  function ListUpdate(f: FormField, l: seq<string>): (u: FormData)
    requires f == CostCategories || f == SustainabilityCommitments
    ensures u.Keys == {f} && WellTyped(u) && u[f] == Names(l)
  {
    map[f := Names(l)]
  }

  /** `addCommitment`: with non-blank input, the update appending the trimmed
      text and the input field cleared; blank input changes nothing. */
  function AddCommitment(data: FormData, input: string): (r: (Option<FormData>, string))
    ensures r.0.None? <==> forall i :: 0 <= i < |input| ==> IsSpace(input[i])
    ensures r.0.None? ==> r.1 == input
    ensures r.0.Some? ==> r.1 == "" && Trim(input) != ""
    ensures r.0.Some? ==> r.0.value == ListUpdate(SustainabilityCommitments, ListOf(data, SustainabilityCommitments) + [Trim(input)])
  {
    TrimEmptyIffAllSpace(input);
    var text := Trim(input);
    if text != "" then (Some(ListUpdate(SustainabilityCommitments, ListOf(data, SustainabilityCommitments) + [text])), "")
    else (None, input)
  }

  /** `current.filter((_, i) => i !== index)`, walking the list from position `at`. */
  function DropIndex(s: seq<string>, index: int, at: int): (r: seq<string>)
    ensures at <= index < at + |s| ==> |r| == |s| - 1
    ensures at <= index < at + |s| ==> forall j :: 0 <= j < index - at ==> r[j] == s[j]
    ensures at <= index < at + |s| ==> forall j :: index - at <= j < |r| ==> r[j] == s[j + 1]
    ensures !(at <= index < at + |s|) ==> r == s
    decreases |s|
  {
    if s == [] then [] else (if at == index then [] else [s[0]]) + DropIndex(s[1..], index, at + 1)
  }

  lemma DropIndexIsSlice(s: seq<string>, index: int)
    ensures 0 <= index < |s| ==> DropIndex(s, index, 0) == s[..index] + s[index + 1..]
  {
    if 0 <= index < |s| {
      var r := DropIndex(s, index, 0);
      assert forall j :: 0 <= j < |r| ==> r[j] == (s[..index] + s[index + 1..])[j];
    }
  }

  /** `removeCommitment`: the update without the commitment at `index`. */
  function RemoveCommitment(data: FormData, index: int): (u: FormData)
    ensures u.Keys == {SustainabilityCommitments} && WellTyped(u)
    ensures var before := ListOf(data, SustainabilityCommitments);
            var after := u[SustainabilityCommitments].names;
            0 <= index < |before| ==> |after| == |before| - 1 && after == before[..index] + before[index + 1..]
    ensures !(0 <= index < |ListOf(data, SustainabilityCommitments)|) ==> u[SustainabilityCommitments].names == ListOf(data, SustainabilityCommitments)
  {
    var before := ListOf(data, SustainabilityCommitments);
    var after := DropIndex(before, index, 0);
    DropIndexIsSlice(before, index);
    ListUpdate(SustainabilityCommitments, after)
  }

  /** Removing the commitment just added restores the list. */
  lemma RemoveUndoesAdd(data: FormData, input: string)
    requires AddCommitment(data, input).0.Some?
    ensures var added := Merge(data, AddCommitment(data, input).0.value);
            ListOf(Merge(added, RemoveCommitment(added, |ListOf(data, SustainabilityCommitments)|)), SustainabilityCommitments)
              == ListOf(data, SustainabilityCommitments)
  {
    var before := ListOf(data, SustainabilityCommitments);
    var added := Merge(data, AddCommitment(data, input).0.value);
    assert ListOf(added, SustainabilityCommitments) == before + [Trim(input)];
    var after := DropIndex(before + [Trim(input)], |before|, 0);
    assert after == before;
  }

  // ----- Navigation -----

  const LastStep := 4

  /** The current step and the form. */
  datatype State = State(step: int, data: FormData)

  predicate InRange(w: State) {
    0 <= w.step <= LastStep
  }

  const Initial := State(0, map[])

  /** What the user can do: submit the step's form, press Previous, click a
      step marker (its index), or edit the form. A `Submit` is a submit event
      the browser has delivered, that is, after the form's own `required`,
      `min` and `max` attributes accepted its fields. */
  datatype Event = Submit | Previous | StepClick(index: nat) | Update(changes: FormData)

  /** `handleNext`: the next step, or, on the last one, completion with the form. */
  function HandleNext(w: State): (r: (State, Option<FormData>))
    requires InRange(w)
    ensures InRange(r.0) && r.0.data == w.data
    ensures w.step < LastStep ==> r.0.step == w.step + 1 && r.1.None?
    ensures w.step == LastStep ==> r.0 == w && r.1 == Some(w.data)
  {
    if w.step < LastStep then (w.(step := w.step + 1), None) else (w, Some(w.data))
  }

  /** Every event but Submit: `handlePrevious`, `handleStepClick` and `handleUpdate`. */
  function Navigate(w: State, e: Event): (r: State)
    requires InRange(w) && !e.Submit?
    ensures InRange(r)
    ensures e.Previous? ==> r.step == (if w.step > 0 then w.step - 1 else 0) && r.data == w.data
    ensures e.StepClick? ==> r.step == (if e.index <= w.step then e.index else w.step) && r.data == w.data
    ensures e.Update? ==> r.step == w.step && r.data == Merge(w.data, e.changes)
  {
    match e
    case Previous => if w.step > 0 then w.(step := w.step - 1) else w
    case StepClick(i) => if i <= w.step then w.(step := i) else w
    case Update(u) => w.(data := Merge(w.data, u))
  }

  /** The wizard as written: every step's form calls `onNext` only when it is
      not the last step, so submitting the last step does nothing. */
  function Dispatch(w: State, e: Event): (r: (State, Option<FormData>))
    requires InRange(w)
    ensures InRange(r.0) && r.1.None?
    ensures e.Submit? && w.step < LastStep ==> r.0 == w.(step := w.step + 1)
    ensures e.Submit? && w.step == LastStep ==> r.0 == w
  {
    if e.Submit? then (if w.step != LastStep then HandleNext(w) else (w, None))
    else (Navigate(w, e), None)
  }

  /** The wizard as evidently intended: "Complete Setup" on the last step
      reaches `handleNext` and completes with the form. */
  function DispatchFixed(w: State, e: Event): (r: (State, Option<FormData>))
    requires InRange(w)
    ensures InRange(r.0)
    ensures r.1.Some? <==> e.Submit? && w.step == LastStep
    ensures r.1.Some? ==> r.1.value == w.data && r.0 == w
    ensures e.Submit? && w.step < LastStep ==> r.0 == w.(step := w.step + 1)
  {
    if e.Submit? then HandleNext(w) else (Navigate(w, e), None)
  }

  /** The forms a single event hands to `onComplete`: none or one. */
  function Emitted(done: Option<FormData>): seq<FormData> {
    if done.Some? then [done.value] else []
  }

  /** The state after a sequence of events, and each form handed to `onComplete`, in order. */
  function Run(w: State, events: seq<Event>): (r: (State, seq<FormData>))
    requires InRange(w)
    ensures InRange(r.0)
    decreases |events|
  {
    if events == [] then (w, [])
    else
      var (next, done) := Dispatch(w, events[0]);
      var (last, rest) := Run(next, events[1..]);
      (last, Emitted(done) + rest)
  }

  function RunFixed(w: State, events: seq<Event>): (r: (State, seq<FormData>))
    requires InRange(w)
    ensures InRange(r.0)
    decreases |events|
  {
    if events == [] then (w, [])
    else
      var (next, done) := DispatchFixed(w, events[0]);
      var (last, rest) := RunFixed(next, events[1..]);
      (last, Emitted(done) + rest)
  }

  /** As written, no sequence of events ever calls `onComplete`. */
  lemma {:induction false} NeverCompletes(w: State, events: seq<Event>)
    requires InRange(w)
    ensures Run(w, events).1 == []
    decreases |events|
  {
    if events != [] {
      NeverCompletes(Dispatch(w, events[0]).0, events[1..]);
    }
  }

  /** Submitting five times from the start ends on the last step with nothing completed. */
  lemma FiveSubmitsStallOnLastStep()
    ensures Run(Initial, [Submit, Submit, Submit, Submit, Submit]) == (State(LastStep, map[]), [])
  {
    NeverCompletes(Initial, [Submit, Submit, Submit, Submit, Submit]);
    var s := [Submit, Submit, Submit, Submit, Submit];
    assert s[1..] == [Submit, Submit, Submit, Submit];
    assert s[1..][1..] == [Submit, Submit, Submit];
    assert s[1..][1..][1..] == [Submit, Submit];
    assert s[1..][1..][1..][1..] == [Submit];
  }

  /** A sequence of `n` submits. */
  function Submits(n: nat): (s: seq<Event>)
    ensures |s| == n && forall j :: 0 <= j < n ==> s[j] == Submit
  {
    if n == 0 then [] else [Submit] + Submits(n - 1)
  }

  /** Fixed: from any step, submitting until past the last step completes
      once, with the form as it stands. */
  lemma {:induction false} SubmittingCompletes(w: State)
    requires InRange(w)
    ensures RunFixed(w, Submits(LastStep - w.step + 1)) == (w.(step := LastStep), [w.data])
    decreases LastStep - w.step
  {
    var s := Submits(LastStep - w.step + 1);
    assert s[0] == Submit && s[1..] == Submits(LastStep - w.step);
    if w.step < LastStep {
      var next := w.(step := w.step + 1);
      assert DispatchFixed(w, Submit) == (next, None);
      SubmittingCompletes(next);
      assert RunFixed(next, s[1..]) == (w.(step := LastStep), [w.data]);
      assert Emitted(None) + [w.data] == [w.data];
    } else {
      assert DispatchFixed(w, Submit) == (w, Some(w.data));
      assert s[1..] == [];
      assert RunFixed(w, []) == (w, []);
      assert Emitted(Some(w.data)) + [] == [w.data];
      assert w.(step := LastStep) == w;
    }
  }

  /** Fixed: completion happens only on a submit at the last step, so each
      completion hands over the form of some state the wizard was in. */
  lemma {:induction false} FixedCompletesOnlyOnLastStep(w: State, events: seq<Event>)
    requires InRange(w)
    ensures |RunFixed(w, events).1| <= |events|
    ensures (forall j :: 0 <= j < |events| ==> !events[j].Submit?) ==> RunFixed(w, events).1 == []
    decreases |events|
  {
    if events != [] {
      FixedCompletesOnlyOnLastStep(DispatchFixed(w, events[0]).0, events[1..]);
    }
  }

  /** The React handlers never consult the form or `isValid`: once an event
      reaches them, the step they move to does not depend on the form data. */
  lemma StepIgnoresForm(w: State, d: FormData, e: Event)
    requires InRange(w) && !e.Update?
    ensures Dispatch(w, e).0.step == Dispatch(w.(data := d), e).0.step
    ensures DispatchFixed(w, e).0.step == DispatchFixed(w.(data := d), e).0.step
  {
  }

  /** Only Submit moves forward, and by one step at most. */
  lemma OnlySubmitAdvances(w: State, e: Event)
    requires InRange(w)
    ensures DispatchFixed(w, e).0.step <= w.step + 1
    ensures !e.Submit? ==> DispatchFixed(w, e).0.step <= w.step && Dispatch(w, e).0.step <= w.step
  {
  }
}

=== FILE: wrappers.dfy ===
/** Failure-compatible Option and Result types shared by every module of the model. */
module Wrappers {

  /** A value that may be absent: a missing JSON key, `undefined`, or SQL NULL. */
  datatype Option<+T> = None | Some(value: T) {

    predicate IsFailure() {
      None?
    }

    function PropagateFailure<U>(): Option<U>
      requires None?
    {
      None
    }

    function Extract(): T
      requires Some?
    {
      value
    }

    function GetOr(default: T): T {
      match this
      case Some(v) => v
      case None => default
    }
  }

  /** Either a value or the error the source would have thrown. */
  datatype Result<+R, +E> = Success(value: R) | Failure(error: E) {

    predicate IsFailure() {
      Failure?
    }

    function PropagateFailure<U>(): Result<U, E>
      requires Failure?
    {
      Failure(error)
    }

    function Extract(): R
      requires Success?
    {
      value
    }
  }

  /** JavaScript truthiness of an optional number: absent and `0` are both falsy. */
  predicate TruthyNum(o: Option<real>) {
    o.Some? && o.value != 0.0
  }

  /** `o || fallback` for an optional number. */
  function OrNum(o: Option<real>, fallback: real): (r: real)
    ensures TruthyNum(o) ==> r == o.value
    ensures !TruthyNum(o) ==> r == fallback
  {
    if TruthyNum(o) then o.value else fallback
  }

  /** JavaScript truthiness of an optional integer. */
  predicate TruthyInt(o: Option<int>) {
    o.Some? && o.value != 0
  }

  /** JavaScript truthiness of an optional string: absent and `""` are both falsy. */
  predicate TruthyStr(o: Option<string>) {
    o.Some? && o.value != ""
  }

  /** JavaScript truthiness of an optional boolean (`undefined` and `false` are falsy). */
  predicate TruthyBool(o: Option<bool>) {
    o == Some(true)
  }
}
